=== FILE: README.md ===
# pod binary codec — a Dafny model

This project models the binary codec engine of `pod`, a library that declares
plain-old-data types and converts their values to and from bytes. It also proves
properties of that model. It covers the following:

- **The bytes catalog.** `BYTES_CATALOG` answers `is_static`, `calc_max_size`,
  `pack`, `pack_partial`, `unpack` and `unpack_partial`.
- **The self-describing converter.** It handles every type that carries the
  `"bytes"` marker by calling the type's own hooks.
- **Format negotiation.**
  - `FORMAT_BORSCH` installs a one-byte tag type.
  - `FORMAT_ZERO_COPY` installs an eight-byte tag type.
  - `FORMAT_PASS` keeps the tag type already installed.
  - `FORMAT_AUTO` is accepted only when unpacking, where it is resolved by a size probe.
- **The tag slot** read by `AutoTagType`, saved and restored around every negotiated call.
- **The record (dataclass) hooks**, including their error paths.
- **The six container types:** `FixedLenArray`, `FixedLenBytes`, `FixedLenStr`,
  `Vec`, `Bytes` and `Str`.
- **The helpers of the `_utils` module:** the memoized `X[...]` type constructor,
  `resolve_name_mapping` and `get_concrete_type`.

Modules, in dependency order:

| module | contents |
|---|---|
| `Results` | `Option`, and a `Result` usable with `:-` |
| `Atomics` | bytes, and little-endian fixed-width integers (the U8/U32/U64 codecs) |
| `Formats` | the four format names, tag types, the tag slot, negotiation and the AUTO probe |
| `Types` | the type descriptor `Ty`, values, the generator defaults, and the `Legal` values a round trip is promised for |
| `Errors` | faults, path errors, and the field-error wrapping of the record hooks |
| `Codec` | the catalog and every hook, as pure functions |
| `Converter` | the `"bytes"` marker test and hook delegation by name |
| `Containers`, `Records` | layout, bounds and error laws of the container and record hooks |
| `Sizes` | laws of `is_static`, `calc_max_size` and `calc_size` |
| `RoundTrip` | unpack after pack gives the value back, in any surrounding bytes |
| `PackSizes` | an encoding never exceeds `calc_max_size`, and a static type's encoding equals it |
| `Utils` | `_GetitemToCall` as a 128-entry LRU cache, `resolve_name_mapping`, `get_concrete_type` |
| `Scenarios` | concrete instances, including the `MyStruct(8, "hi")` integration test and the two defects under "## Findings" |

How the model is shaped:

- **Buffers.**
  - A pack returns its bytes.
  - An unpack takes the whole input and a cursor. It returns the value and the new cursor.
- **The global tag slot.** `AutoTagType.TAG_TYPE` is the parameter `slot: TagSlot`.
  Every call returns it in `Step(out, slot)`.
- **Container hooks and the format.** The container hooks take no keyword arguments,
  so they do not pass the format to their element calls. Every codec function
  therefore takes a `Nesting` parameter:
  - `Defaults` is the code as written: elements are packed canonically and unpacked with AUTO.
  - `Forward` passes the enclosing format on, as the record hooks do.

  The top-level `Codec.Pack` and `Codec.Unpack` use `Forward`, the corrected behaviour
  (see "## Findings"). `Codec.PackAsWritten` and `Codec.UnpackAsWritten` are the same
  operations with `Defaults`, exactly as written.

## Model

| member | source | states |
|---|---|---|
| Formats.FormatOf | pod/_utils.py:4-7 | each of the four constants names its own format, and every other string is an unknown format |
| Formats.Negotiate | pod/bytes.py:170-184 | BORSCH installs U8, ZERO_COPY installs U64, PASS installs nothing, and every other format (AUTO included) is rejected; each direction is an if-and-only-if |
| Formats.AutoIsNotANegotiatedFormat | pod/bytes.py:180-181 | packing with FORMAT_AUTO is rejected |
| Formats.Detect | pod/bytes.py:205-208 | the AUTO probe picks zero-copy exactly when the maximum size under U64 equals the total input length, canonical otherwise |
| Types.VecOf | pod/types/array.py:147-154 | a missing length type is U32; a missing maximum is 2 to the byte size of the length type |
| Types.BytesOf | pod/types/array.py:217-222 | the same defaults for `Bytes` |
| Types.StrOf | pod/types/array.py:266-271 | the same defaults for `Str` |
| Types.FixedStrOf | pod/types/array.py:100 | autopad is on unless it is switched off |
| Types.DefaultMaxLengthIsSixteen | pod/types/array.py:153-154 | with every default taken, `Vec`, `Bytes` and `Str` hold at most 16 items, not 2^32 |
| Errors.WrapField | pod/bytes.py:54-59 | an existing path error keeps its message, type and cause, and gains the field name and then the class name; any other error becomes a path error with path [field, class], the field's declared type and the record message |
| Codec.IsStatic | pod/bytes.py:114-116 | a type that is static contains no AutoTagType, whose own hook answers "not static" |
| Codec.IsStaticAsWritten | pod/bytes.py:85-86 | the catalog's `is_static`, which looks up the `_is_static` hook, gives the corrected answer wherever it answers; it fails only with the missing hook, and only on a type that is not static |
| Codec.MaxSize | pod/bytes.py:118-123 | `calc_max_size` is defined whenever a tag type is installed; its only failure is the unresolvable AutoTagType while the slot is empty |
| Codec.CalcSize | pod/bytes.py:234-238 | `calc_size` succeeds exactly for a static type whose maximum size is defined, and is then `calc_max_size`; a type that is not static is refused, or fails already in the `_is_static` lookup |
| Codec.Read | pod/types/array.py:70-72 | `buffer.read(n)` returns at most n bytes, and fewer only when the input ends; they are the bytes at the cursor, and the cursor moves past them |
| Codec.PadRight | pod/types/array.py:74-76 | `ljust` keeps the input as a prefix and pads with zero bytes to n; longer input is kept whole |
| Codec.BeforeZero | pod/types/array.py:115-119 | the autopad trim is a prefix with no zero byte that ends the input or stops at a zero byte |
| Codec.PackAtomic | pod/types/array.py:191 | an integer written through the catalog as the length type is refused unless it is an integer that fits, and is otherwise exactly w bytes that decode back to it |
| Codec.UnpackAtomic | pod/types/array.py:173 | an integer of the length type read through the catalog succeeds exactly when w bytes are left, and is their little-endian value |
| Codec.PackFixedStr | pod/types/array.py:123-131 | encoded text longer than N is refused, shorter text is refused without autopad, and otherwise the output is exactly N bytes: the text, then zeros |
| Codec.PackPartial | pod/bytes.py:170-184 | a negotiated pack leaves the tag slot as it found it |
| Codec.PackStep | pod/bytes.py:125-128 | the AutoTagType pack hook and the other hooks leave the tag slot as they found it |
| Codec.PackItems | pod/types/array.py:36-39 | the element loop leaves the tag slot as it found it, since every element's catalog call restores it |
| Codec.PackVec | pod/types/array.py:186-195 | a Vec packs only an iterable of at most `max_length` items; a longer one is refused with the length error |
| Codec.PackLength | pod/types/array.py:188-189 | a count above `max_length` is refused before anything is written |
| Codec.PackFields | pod/bytes.py:48-59 | a failing record pack is a path error whose last two entries are a declared field name and the class name |
| Codec.UnpackPartial | pod/bytes.py:195-223 | a negotiated unpack leaves the tag slot as it found it and never moves the cursor backwards or past the end |
| Codec.UnpackStep | pod/bytes.py:130-132 | the AutoTagType unpack hook and the other hooks leave the tag slot unchanged and the cursor within the input |
| Codec.UnpackLength | pod/types/array.py:173-175 | an accepted count never exceeds `max_length` |
| Codec.AutoFormat | pod/bytes.py:200-209 | the AUTO probe picks zero-copy exactly when the type's maximum size under U64 equals the total input length, and canonical otherwise |
| Codec.UnpackVec | pod/types/array.py:171-184 | an unpacked Vec is a list of at most `max_length` elements, with the cursor inside the input |
| Codec.UnpackRun | pod/types/array.py:236-242 | Bytes and Str return at most `max_length` bytes, namely the bytes right before the new cursor |
| Codec.UnpackItems | pod/types/array.py:177-184 | a successful element loop returns exactly `count` elements |
| Codec.UnpackFields | pod/bytes.py:62-75 | a successful record unpack holds exactly the declared field names; a failure is a path error ending in a declared field and the class |
| Codec.Pack | pod/bytes.py:164-168 | `pack`, with the corrected nesting, leaves the tag slot as it found it |
| Codec.Unpack | pod/bytes.py:186-193 | with the corrected nesting, a checked unpack fails with "unused bytes" exactly when the cursor stops before the end; an unchecked unpack succeeds exactly when `unpack_partial` does |
| Codec.PackAsWritten | pod/bytes.py:164-168 | `pack` as written leaves the tag slot as it found it |
| Codec.UnpackAsWritten | pod/bytes.py:186-193 | `unpack` as written: a checked unpack fails with "unused bytes" exactly when the cursor stops before the end; an unchecked unpack succeeds exactly when `unpack_partial` does |
| Converter.GetMapping | pod/bytes.py:79-83 | the self converter answers exactly for types whose converter list names "bytes" |
| Converter.AutoTagIsHandled | pod/bytes.py:144 | AutoTagType registers itself as a "bytes" type |
| Converter.Delegate | pod/bytes.py:85-95 | each operation calls the hook of its own name, or fails with a missing attribute when the type lacks it |
| Converter.DelegateFailsOnlyForVecStatic | pod/types/array.py:158-160 | the only hook lookup that fails is `_is_static` on a Vec |
| Converter.StaticAsWrittenIsDelegation | pod/bytes.py:85-86 | for a leaf or container type, the catalog's `is_static` fails exactly when the hook lookup does |
| Containers.PackItemsSplit | pod/types/array.py:192-195 | packing a list is packing its halves one after the other, and the first failing element decides the error |
| Containers.UnpackItemsAppend | pod/types/array.py:178-184 | reading m + n elements is reading m and then n from where they end |
| Containers.UnpackItemsFailsEarly | pod/types/array.py:178-184 | once one of the first m elements fails, reading more elements fails with the same error |
| Containers.PackItemsOkIff | pod/types/array.py:36-39 | the element loop succeeds exactly when every element packs on its own |
| Containers.PackItemsCons | pod/types/array.py:36-39 | the element loop writes the first element, then the rest |
| Containers.UnpackItemsCons | pod/types/array.py:26-32 | the element loop reads the first element, then the rest from where it ends |
| Containers.UnpackItemsUncons | pod/types/array.py:26-32 | a successful element loop read its first element and then the rest |
| Containers.UnpackItemsStep | pod/types/array.py:26-32 | one turn of the element loop, with its two failure points |
| Containers.FixedArrayPackIgnoresLength | pod/types/array.py:34-39 | a fixed array packs every given element in order, with no prefix; the declared length is neither checked nor used |
| Containers.FixedArrayReadsN | pod/types/array.py:23-32 | a fixed array unpack reads exactly N elements |
| Containers.FixedBytesPackLayout | pod/types/array.py:74-76 | fixed bytes are padded with zeros to N, and longer input is written unchanged |
| Containers.FixedBytesReadsN | pod/types/array.py:70-72 | fixed bytes unpack the next N bytes, or what is left at the end of the input |
| Containers.FixedStrReadsN | pod/types/array.py:111-121 | a fixed string reads N bytes, or what is left at the end of the input, without an error; with autopad it keeps the prefix before the first zero byte, otherwise all of them |
| Containers.TrimAutopad | pod/types/array.py:115-119 | the autopad loop computes exactly the prefix before the first zero byte |
| Containers.PrefixBeforeZeroUnique | pod/types/array.py:116-119 | any zero-free prefix that ends the input or stops at a zero byte is that prefix |
| Containers.PackRejectsOverLength | pod/types/array.py:186-189 | Vec, Bytes and Str refuse more than `max_length` items |
| Containers.PackVariableLayout | pod/types/array.py:186-195 | within the bound, the count is written little-endian in the length type, followed by the bytes, the text or every element in order |
| Containers.PackCountAnyFormat | pod/types/array.py:191 | the count prefix is the little-endian count in the length type, whatever the format |
| Containers.UnpackCountAnyFormat | pod/types/array.py:173 | the count is read as a little-endian integer of the length type, or fails on short input, whatever the format |
| Containers.UnpackLengthAnyFormat | pod/types/array.py:173-175 | the count is read, then refused when above `max_length` |
| Containers.UnpackVariableLayout | pod/types/array.py:171-184 | every variable container unpacks as `VariableUnpacks` says: a short count fails, a count above `max_length` is refused, and otherwise Vec reads that many elements, while Bytes and Str read that many bytes or, when the input ends first, the bytes left, without an error |
| Containers.VecUnpacks | pod/types/array.py:171-184 | the same for Vec |
| Containers.BytesUnpacks | pod/types/array.py:236-242 | the same for Bytes, including the short body that `buffer.read` returns without an error |
| Containers.StrUnpacks | pod/types/array.py:285-291 | the same for Str, including the short body that `buffer.read` returns without an error |
| Containers.UnpackVecLayout | pod/types/array.py:171-184 | a Vec reads its count, refuses one above `max_length`, then reads exactly that many elements after the count |
| Containers.UnpackRunLayout | pod/types/array.py:236-242 | Bytes and Str read their count, refuse one above `max_length`, then read that many bytes, or the bytes left when the input ends first, without an error |
| Containers.VecReadsCount | pod/types/array.py:171-184 | an unpacked Vec holds as many elements as its count says, and at most `max_length` |
| Records.PackFieldsCons | pod/bytes.py:49-53 | the record hook writes the first field, then the rest |
| Records.UnpackFieldsCons | pod/bytes.py:64-68 | the record hook reads the first field, then the rest from where it ends |
| Records.PackFieldsUncons | pod/bytes.py:49-53 | a successful record pack found and packed its first field |
| Records.PackFieldsHeadOk | pod/bytes.py:49-53 | once the first field is packed, the hook goes on with the others |
| Records.UnpackFieldsUncons | pod/bytes.py:64-68 | a successful record unpack read its first field, then the others |
| Records.PackFieldsAppend | pod/bytes.py:49-53 | each field's encoding follows the previous one in declared order, with nothing between them |
| Records.UnpackFieldsAppend | pod/bytes.py:63-68 | fields are read in declared order from where the previous field ends; on a repeated name the later field wins |
| Records.PackFieldsFailsAt | pod/bytes.py:49-59 | the first missing attribute or failing field decides the error, wrapped with that field and the class |
| Records.PackFieldsPassOn | pod/bytes.py:49-57 | a field that packs passes a later field's error on unchanged |
| Records.PackFieldsUnfold | pod/bytes.py:49-59 | one turn of the record pack loop, with its missing-attribute and failing-field cases |
| Records.UnpackFieldsFailsAt | pod/bytes.py:64-74 | the first field that fails to unpack decides the error, wrapped with that field and the class |
| Records.UnpackRecordFailsAt | pod/bytes.py:62-75 | the record hook fails with that error and builds no record |
| Records.UnpackFieldsPassOn | pod/bytes.py:64-72 | a field that unpacks passes a later field's error on unchanged |
| Records.UnpackRecordErr | pod/bytes.py:62-75 | the record hook fails when its field loop does |
| Records.RecordAllOrNothing | pod/bytes.py:62-75 | the record is built exactly when every field has been read, with the declared fields as attributes; otherwise the error names a declared field and the class |
| Sizes.RecordStaticIff | pod/bytes.py:33-37 | a record is static exactly when every field type is |
| Sizes.FieldsStaticIff | pod/bytes.py:34-37 | the record loop answers the conjunction over the fields |
| Sizes.StaticAsWrittenAgrees | pod/bytes.py:85-86 | wherever the catalog's `is_static` answers, its answer is the corrected one; it fails only with the missing hook |
| Sizes.FieldsStaticAsWrittenAgrees | pod/bytes.py:34-37 | the same for the record loop |
| Sizes.StaticIsTagFree | pod/bytes.py:114-116 | a static type contains no AutoTagType |
| Sizes.TagFreeElems | pod/types/array.py:13-21 | a type without AutoTagType has array elements without one |
| Sizes.MaxSizeDefinedIff | pod/bytes.py:118-123 | `calc_max_size` succeeds exactly when a tag type is installed or the type contains no AutoTagType |
| Sizes.FieldsMaxSizeDefinedIff | pod/bytes.py:40-45 | the same for the record sum |
| Sizes.MaxSizeTagFree | pod/bytes.py:118-123 | without AutoTagType, the maximum size does not depend on the tag slot |
| Sizes.FieldsMaxSizeTagFree | pod/bytes.py:40-45 | the same for the record sum |
| Sizes.RecordMaxSizeSplit | pod/bytes.py:40-45 | a record's maximum size is additive over its fields |
| Sizes.FieldsMaxSizeSplit | pod/bytes.py:40-45 | the running total over two field lists is the sum of their totals |
| Sizes.MaxSizeMonotonicInTag | pod/bytes.py:118-123 | the maximum size under U8 never exceeds that under U64 |
| Sizes.FieldsMaxSizeMonotonicInTag | pod/bytes.py:40-45 | the same for the record sum |
| Sizes.CalcSizeIff | pod/bytes.py:234-238 | `calc_size` succeeds exactly for static types under any tag slot, and then equals `calc_max_size`; it fails with the missing hook exactly when the `_is_static` lookup does, and otherwise refuses a type that is not static |
| Sizes.AutoTagFollowsSlot | pod/bytes.py:114-123 | AutoTagType is never static; its maximum size is that of the installed tag type, and fails while none is installed |
| Sizes.VarContainersNotStatic | pod/types/array.py:158-169 | Vec, Bytes and Str are never static; their bound is the prefix width plus `max_length` times the element bound (1 for bytes) |
| Sizes.FixedArraySize | pod/types/array.py:13-21 | a fixed array is static exactly when its element is, and its bound is N element bounds |
| RoundTrip.RecordStepIntro | pod/bytes.py:62-75 | a record hook that packs to p and reads p back round-trips |
| RoundTrip.AgreesOnKeys | pod/bytes.py:75 | the unpacked field map with the declared keys rebuilds the record |
| RoundTrip.AgreesCons | pod/bytes.py:66 | storing one more read field keeps the map in agreement with the packed record |
| RoundTrip.UnpackTagFree | pod/bytes.py:195-223 | a type without AutoTagType decodes identically whatever the accepted format and tag slot |
| RoundTrip.UnpackPartialUnfold | pod/bytes.py:200-223 | the hook runs at the cursor the call started from (the AUTO probe puts it back), under the concrete format |
| RoundTrip.UnpackStepTagFree | pod/bytes.py:130-132 | a hook of a type without AutoTagType decodes identically under any concrete format and tag slot |
| RoundTrip.UnpackCountTagFree | pod/types/array.py:173 | the count prefix decodes identically under any accepted format |
| RoundTrip.UnpackLengthTagFree | pod/types/array.py:173-175 | the bounded count decodes identically under any concrete format |
| RoundTrip.UnpackRunTagFree | pod/types/array.py:236-242 | Bytes and Str decode identically under any concrete format |
| RoundTrip.UnpackRecordTagFree | pod/bytes.py:62-75 | a record without AutoTagType decodes identically under any concrete format |
| RoundTrip.UnpackVecTagFree | pod/types/array.py:171-184 | a Vec without AutoTagType decodes identically under any concrete format |
| RoundTrip.PackTagFree | pod/bytes.py:170-184 | a type without AutoTagType packs to the same bytes, or fails the same way, under every accepted packing format and tag slot, pass-through with no tag installed included |
| RoundTrip.PackPartialUnfold | pod/bytes.py:174-184 | a concrete packing format runs the hook under the negotiated tag slot |
| RoundTrip.PackStepTagFree | pod/bytes.py:91-92 | a pack hook of a type without AutoTagType writes the same under any concrete format and tag slot |
| RoundTrip.PackRecordTagFree | pod/bytes.py:48-59 | a record without AutoTagType packs the same under any concrete format |
| RoundTrip.PackFixedArrayTagFree | pod/types/array.py:34-39 | a fixed array without AutoTagType packs the same under any concrete format |
| RoundTrip.PackRunTagFree | pod/types/array.py:244-250 | Bytes and Str pack the same under any concrete format |
| RoundTrip.PackLengthTagFree | pod/types/array.py:191 | the count prefix packs the same under any concrete format |
| RoundTrip.PackVecTagFree | pod/types/array.py:186-195 | a Vec without AutoTagType packs the same under any concrete format |
| RoundTrip.PackItemsTagFree | pod/types/array.py:36-39 | the element loop over elements without AutoTagType packs the same under any concrete format |
| RoundTrip.PackFieldsTagFree | pod/bytes.py:48-59 | the field loop over fields without AutoTagType packs the same under any concrete format |
| RoundTrip.BeforeZeroOfPadded | pod/types/array.py:115-131 | the autopad trim undoes zero padding of text without zero bytes |
| RoundTrip.RoundTripPartial | pod/bytes.py:170-223 | a legal value packs, and unpacks from inside any surrounding bytes to itself, with the cursor right after it |
| RoundTrip.PartialFromStep | pod/bytes.py:183-184 | a catalog call round-trips when its hook does under the negotiated tag slot |
| RoundTrip.RoundTripStep | pod/bytes.py:91-95 | every hook round-trips a legal value under a concrete format and installed tag |
| RoundTrip.RoundTripAtomicStep | pod/bytes.py:91-95 | an integer hook round-trips |
| RoundTrip.RoundTripAutoTag | pod/bytes.py:125-132 | AutoTagType round-trips every value of the installed tag type: below 256 under U8, below 2**64 under U64 |
| RoundTrip.RoundTripFixedBytes | pod/types/array.py:70-76 | fixed bytes of length N pack unchanged and read back |
| RoundTrip.RoundTripFixedStr | pod/types/array.py:111-131 | a fixed string packs to its zero-padded text and reads back the text |
| RoundTrip.RoundTripLength | pod/types/array.py:173-191 | the count prefix reads back as the count written |
| RoundTrip.RoundTripRun | pod/types/array.py:236-250 | a count then the bytes reads back as those bytes |
| RoundTrip.RoundTripVarBytes | pod/types/array.py:236-250 | Bytes pack as count then bytes, and read back |
| RoundTrip.RoundTripVarStr | pod/types/array.py:285-299 | Str packs as count then text, and reads back |
| RoundTrip.RoundTripVec | pod/types/array.py:171-195 | a Vec round-trips, forwarding the format or with tag-free elements |
| RoundTrip.VecFromItems | pod/types/array.py:171-195 | a Vec reads back once its element loop does behind the count |
| RoundTrip.RoundTripFixedArray | pod/types/array.py:23-39 | a fixed array round-trips |
| RoundTrip.RoundTripElem | pod/types/array.py:27-38 | one element round-trips under the formats the array hooks pass on |
| RoundTrip.RoundTripItems | pod/types/array.py:26-39 | the element loop reads back every element it wrote |
| RoundTrip.ItemsRoundTripCons | pod/types/array.py:26-39 | the element loop's round trip extends by one element |
| RoundTrip.RoundTripRecord | pod/bytes.py:48-75 | a record round-trips |
| RoundTrip.RecordFromFields | pod/bytes.py:62-75 | a record reads back once its field loop does |
| RoundTrip.RoundTripFields | pod/bytes.py:48-68 | the field loop reads back the declared fields with the values written |
| RoundTrip.FieldsRoundTripCons | pod/bytes.py:48-68 | the field loop's round trip extends by one field |
| RoundTrip.PackUnpackRoundTrip | pod/bytes.py:164-193 | `unpack(pack(v, f), f) == v` for canonical, zero-copy and pass-through, checked or not |
| RoundTrip.TagRoundTrip | pod/bytes.py:125-132 | a top-level pack and unpack of a bare AutoTagType round-trips every value of the tag type the format installs, zero-copy tags up to 2**64 - 1 included |
| RoundTrip.AutoRoundTrip | pod/bytes.py:200-209 | AUTO decodes canonical and zero-copy encodings of types without AutoTagType |
| RoundTrip.StaticAutoRoundTrip | pod/bytes.py:200-209 | a static type round-trips through AUTO from either layout |
| RoundTrip.CheckedRejectsTrailing | pod/bytes.py:186-193 | with bytes after the value, a checked unpack fails with "unused bytes" and an unchecked one returns the value |
| RoundTrip.TagFreeRoundTrip | pod/bytes.py:164-223 | a type without AutoTagType round-trips from every accepted packing format to every accepted unpacking format, AUTO included, checked or not |
| RoundTrip.PassRoundTrip | pod/bytes.py:176-177 | a top-level pass-through pack and unpack with no tag type installed round-trips every type without AutoTagType |
| RoundTrip.CheckedRejectsTrailingAnyFormat | pod/bytes.py:186-193 | for a type without AutoTagType, trailing bytes make a checked unpack fail with "unused bytes" and an unchecked one return the value, under any packing and unpacking format, unpack's default AUTO included |
| RoundTrip.DefaultsRoundTrip | pod/types/array.py:27-38 | with the array hooks' own defaults, as written, values whose array elements contain no AutoTagType round-trip through the top-level pack and unpack |
| PackSizes.PackWithinMaxSize | pod/bytes.py:156-168 | every value `pack` accepts within the type's bounds (short fixed bytes, which are padded, and tags of the full tag width included) packs within `calc_max_size` under the negotiated tag type, and a static type packs to exactly `calc_size`; pass-through with no tag type installed is covered for types without AutoTagType |
| PackSizes.PackSizePartial | pod/bytes.py:170-184 | a catalog pack fits its type's bound, exactly when static |
| PackSizes.PartialIsStep | pod/bytes.py:170-184 | a catalog pack is its hook's pack under the negotiated tag slot |
| PackSizes.PackSizeStep | pod/bytes.py:91-92 | every hook packs within its type's bound, exactly when static |
| PackSizes.SizeAtomic | pod/bytes.py:91-92 | an integer packs to exactly its width |
| PackSizes.SizeAutoTag | pod/bytes.py:118-128 | every value of the installed tag type packs as AutoTagType to exactly that type's size |
| PackSizes.SizeRecord | pod/bytes.py:40-53 | a record packs within the sum of its fields' bounds, exactly when every field is static |
| PackSizes.SizeFixedArray | pod/types/array.py:17-39 | a fixed array packs within N element bounds |
| PackSizes.SizeFixedBytes | pod/types/array.py:66-76 | fixed bytes of at most N pack to exactly N, shorter ones being zero-padded |
| PackSizes.SizeFixedStr | pod/types/array.py:107-131 | every text a fixed string accepts, zero bytes included, packs to exactly N |
| PackSizes.SizeVec | pod/types/array.py:162-195 | a Vec packs within prefix plus `max_length` element bounds |
| PackSizes.VecLayout | pod/types/array.py:186-195 | a Vec packs as its count, then its element loop |
| PackSizes.SizeRun | pod/types/array.py:230-250 | Bytes and Str pack within prefix plus `max_length` |
| PackSizes.PackSizeItems | pod/types/array.py:192-195 | the element loop packs within count times the element bound, exactly that when static |
| PackSizes.ItemsCons | pod/types/array.py:192-195 | the element loop's sizes add up one element at a time |
| PackSizes.PackSizeFields | pod/bytes.py:40-53 | the record hook packs within the record's bound, exactly when every field is static |
| PackSizes.FieldsCons | pod/bytes.py:40-53 | the record hook's sizes add up one field at a time |
| Utils.NewMemo | pod/_utils.py:10-12 | a fresh generator's cache is empty and well formed |
| Utils.Find | pod/_utils.py:12 | the cache lookup finds an entry exactly when one has the argument list |
| Utils.Hit | pod/_utils.py:12 | a cached call moves its entry to the most recently used end and builds nothing |
| Utils.Miss | pod/_utils.py:12 | an uncached call builds one new object; a full cache drops its least recently used entry |
| Utils.Getitem | pod/_utils.py:14-18 | a subscript calls with the spread tuple or the single argument; a cached call returns the earlier object, otherwise a fresh one is built |
| Utils.GetitemTwice | pod/_utils.py:12 | subscripting twice with the same arguments gives the identical object and builds nothing more |
| Utils.SingleIsOneTuple | pod/_utils.py:15-18 | `X[a]` and `X[(a,)]` are the same call |
| Utils.DistinctArgsDistinctObjects | pod/_utils.py:12 | different cached argument lists hold different objects |
| Utils.FullCacheEvicts | pod/_utils.py:12 | a miss on a full cache evicts the least recently used arguments |
| Utils.WithoutValid | pod/_utils.py:12 | dropping a cache entry keeps the cache well formed |
| Utils.AppendValid | pod/_utils.py:12 | adding a fresh entry keeps the cache well formed |
| Utils.Lower | pod/_utils.py:31 | `str.lower` maps each character |
| Utils.Upper | pod/_utils.py:33 | `str.upper` maps each character |
| Utils.Capitalize | pod/_utils.py:35 | `str.capitalize` upper-cases the first character and lower-cases the rest |
| Utils.ResolveNameMapping | pod/_utils.py:27-36 | None gives the identity; "lower", "upper" and "capitalize" give those case mappings; any other string comes back unchanged; a callable is returned as it is |
| Utils.CaseMappingsIdempotent | pod/_utils.py:30-35 | applying a resolved case mapping twice is applying it once |
| Utils.CaseMappingsAbsorb | pod/_utils.py:30-35 | upper-casing forgets a lower-casing and vice versa, and capitalizing forgets a lower-casing |
| Utils.CapitalizeSplits | pod/_utils.py:34-35 | capitalizing is upper-casing the first character and lower-casing the rest |
| Utils.GetConcreteType | pod/_utils.py:44-48 | a type is returned unchanged; a name resolves exactly when the namespace defines it |
| Utils.NameAgreesWithDirect | pod/_utils.py:44-48 | naming a type resolves as passing the type itself does, in any module, exactly when the calling module binds the name to that type |
| Scenarios.MyStructRoundTrip | tests/test_integration.py:30-36 | `MyStruct(8, "hi")` packs to 8, a four-byte length 2 and "hi", and `from_bytes` gives it back |
| Scenarios.MyStructPacks | tests/test_integration.py:33 | `MyStruct.to_bytes` of `MyStruct(8, "hi")` is those seven bytes |
| Scenarios.HiPacks | pod/types/array.py:293-299 | `Str` packs "hi" as a four-byte 2 and the text |
| Scenarios.RecordWithVecLayout | pod/bytes.py:48-53 | a record of a U8 and a `Vec[U8]` packs its fields back to back; checked unpack returns it and refuses a trailing byte |
| Scenarios.SmallVecPacks | pod/types/array.py:186-195 | `Vec[U8]` of 1, 2, 3 packs to its count on four bytes, then the three bytes |
| Scenarios.FixedStrPadding | pod/types/array.py:111-131 | `FixedLenStr[8]` pads "hi" with six zeros and reads "hi" back; nine bytes are refused, and short text without autopad too |
| Scenarios.NestedErrorPath | pod/bytes.py:54-59 | a field failing two records deep reports the path y, Inner, x, Outer, with the innermost record's message |
| Scenarios.TagsPack | pod/types/array.py:186-195 | four tags in a `Vec[AutoTagType]` pack canonically to eight bytes |
| Scenarios.TagsUnpackWithDefaultsFails | pod/types/array.py:179-181 | with the containers' defaults, those eight bytes fail to unpack, through `unpack_partial` and through the top-level `unpack` as written |
| Scenarios.TagsForwardRoundTrip | pod/bytes.py:62-68 | forwarding the format, the same eight bytes unpack to the four tags |
| Scenarios.VecOfTagsDefect | pod/types/array.py:179-181 | the Vec element defect, as written and as corrected |
| Scenarios.VecStaticHookDefect | pod/types/array.py:158-160 | the catalog cannot answer `is_static` for a Vec, nor for a record that reaches one, where the corrected answer is false |
| Scenarios.ShortBytesFillCalcSize | pod/types/array.py:74-75 | a record holding two bytes in `FixedLenBytes[4]` packs to exactly its `calc_size` of 4, canonically and by pass-through with no tag type installed |

## Left out

- The `print` calls (pod/bytes.py:121, 127, 196, 244) have no effect on the result.
- `BytesIO` itself is left out: a buffer is a byte sequence and a cursor.
- The JSON hooks `_to_dict`/`_from_dict` belong to a separate text catalog.
  `generate_helpers` and `_generate_packers` are represented only by the hooks they install.
- pod/core.py is not part of this model. Converter resolution (`_get_converter_or_raise`,
  `register` order) is reduced to the `"bytes"` marker test. The types modelled all
  carry the marker, so a failing lookup appears only as AutoTagType with no tag installed.
- The atomic integer codecs (`pod.types.atomic`) are not part of this model. They are
  taken to be little-endian unsigned integers of 1, 4 or 8 bytes that refuse short
  input and out-of-range values.
- Text encoding and decoding are a library call. Text is held as its encoded bytes,
  under an encoding that preserves length. `Str` writes the character count as its
  prefix, so multibyte text would not round-trip; the model cannot show this.
- `register_arrays` (pod/types/array.py:324-325) is not valid Python.
- The `AutoTagType.TAG_TYPE` global is threaded as a parameter. Concurrent calls that share it are not modelled.
- The hooks are called with arguments in another order than the container hooks
  declare (pod/bytes.py:92 against pod/types/array.py:35). They also receive keyword
  arguments that the hooks do not accept. The model gives each call its evident
  meaning, "write `obj` into the buffer". The dropped format is the `Defaults` nesting.
- `get_calling_module` and the `eval` in `get_concrete_type` are reduced to a lookup
  of a bare name in a namespace map.
- `_GetitemToCall.__str__`/`__repr__` only print.
- Case mapping in `Utils` is ASCII only. Python's Unicode case tables are left out.
- A path error carries the failing field's declared `Ty`, not its `__name__`. It does
  not carry the offending value; neither appears in any message.
- PackSizes.PackWithinMaxSize: is proved for the `Forward` nesting only, the one the top-level `Pack` uses.
  Fixed bytes longer than N are outside it: they are written whole and so exceed the
  bound (Containers.FixedBytesPackLayout states their layout). Values `pack` refuses
  are outside it too.
- Codec.Pack: packs with the corrected `Forward` nesting. The code as written is
  Codec.PackAsWritten; the two differ for array elements containing AutoTagType
  (see "## Findings").
- Codec.Unpack: unpacks with the corrected `Forward` nesting. The code as written is
  Codec.UnpackAsWritten, whose round trip RoundTrip.DefaultsRoundTrip states.
- RoundTrip.CheckedRejectsTrailing: is stated for the corrected `Forward` nesting and
  a packing format that can encode AutoTagType. Unpack's default AUTO and pass-through
  with no tag installed are covered for types without AutoTagType by
  RoundTrip.CheckedRejectsTrailingAnyFormat.
- The test's `MyStruct` declares a bare `Str` (tests/test_integration.py:26), which is the
  `_GetitemToCall` wrapper rather than a class it built; Scenarios reads it as `Str`
  with default arguments.
- RoundTrip.PackUnpackRoundTrip: covers legal values, that is, values within
  their types' bounds, with fixed bytes of exactly N bytes and autopad text without zero bytes.
  It is stated for the corrected `Forward` nesting, and pass-through only with a tag
  type already installed; a top-level pass-through call with none installed is stated
  by RoundTrip.PassRoundTrip for types without AutoTagType. A pass-through pack of a
  type that needs a tag type, with none installed, fails, and no round trip is promised.
  AutoTagType values inside it are legal only below 256, the U8 range, whatever the
  format; wider zero-copy tags are stated by RoundTrip.TagRoundTrip for a bare
  AutoTagType and by RoundTrip.RoundTripAutoTag for the hook, not for nested types.

## Findings

| source | as written | input that shows it | evidently intended | confidence | as-written member | corrected member |
|---|---|---|---|---|---|---|
| pod/types/array.py:179-181 | Vec unpacks each element through the catalog without a format, so every element runs its own AUTO probe against the length of the whole input | `Vec[AutoTagType]` of the tags 1, 2, 3, 4 packs canonically to `[4,0,0,0,1,2,3,4]`. Unpacking it canonically, the first tag's probe sees a U64 maximum size of 8, equal to the input length, so it picks zero-copy and reads eight bytes where four are left | element calls receive the enclosing format, as the record hooks pass theirs on | not executed | Scenarios.TagsUnpackWithDefaultsFails | RoundTrip.PackUnpackRoundTrip |
| pod/types/array.py:158-160 | Vec names its static hook `is_static`, but the converter looks up `_is_static` (pod/bytes.py:86) | `BYTES_CATALOG.is_static(Vec[U8])` raises AttributeError, and so does `is_static` of any record whose fields reach that Vec | a Vec answers "not static" | not executed | Scenarios.VecStaticHookDefect | Sizes.VarContainersNotStatic |

=== FILE: atomics.dfy ===
/** Fixed-width unsigned integer codecs (U8, U32, U64, ...).  Their definitions are
    not part of this model; they are taken to be little-endian unsigned integers of
    `width` bytes that refuse values that do not fit and refuse short input. */
module Atomics {

  type Byte = x: int | 0 <= x < 256
  type Bytes = seq<Byte>

  /** 256 to the power `width`: the number of values a `width`-byte integer holds. */
  function Pow256(width: nat): (p: nat)
    ensures p >= 1
    ensures width >= 1 ==> p >= 256
  {
    if width == 0 then 1 else 256 * Pow256(width - 1)
  }

  lemma {:induction false} Pow256Monotonic(a: nat, b: nat)
    requires a <= b
    ensures Pow256(a) <= Pow256(b)
    decreases b
  {
    if a < b {
      Pow256Monotonic(a, b - 1);
    }
  }

  /** Little-endian encoding of `k` on `width` bytes. */
  function EncodeLE(k: nat, width: nat): (bs: Bytes)
    requires k < Pow256(width)
    ensures |bs| == width
    decreases width
  {
    if width == 0 then [] else [k % 256] + EncodeLE(k / 256, width - 1)
  }

  /** Little-endian decoding of a byte string. */
  function DecodeLE(bs: Bytes): (k: nat)
    ensures k < Pow256(|bs|)
  {
    if |bs| == 0 then 0 else bs[0] + 256 * DecodeLE(bs[1..])
  }

  /** Decoding undoes encoding. */
  lemma {:induction false} DecodeEncode(k: nat, width: nat)
    requires k < Pow256(width)
    ensures DecodeLE(EncodeLE(k, width)) == k
    decreases width
  {
    if width > 0 {
      var bs := EncodeLE(k, width);
      assert bs[1..] == EncodeLE(k / 256, width - 1);
      DecodeEncode(k / 256, width - 1);
    }
  }
}

=== FILE: codec.dfy ===
/** The bytes catalog: dispatch to the self-describing hooks of each type, format
    negotiation with the tag slot, the record codec and the container codecs
    (pod/bytes.py and pod/types/array.py).

    The output buffer of a pack is the returned byte string; the input buffer of an
    unpack is the whole input `buf` plus a cursor `pos`.  The tag slot, which
    `AutoTagType.TAG_TYPE` keeps in a global, is passed in and handed back by every call. */
module Codec {
  import opened Results
  import opened Atomics
  import opened Formats
  import opened Types
  import opened Errors

  /** The outcome of one codec call and the tag slot as the call leaves it. */
  datatype Step<T> = Step(out: Result<T, Error>, slot: TagSlot)

  /** Leaving AutoTagTypeValueManager: the saved tag type is put back, on success and on failure. */
  function Restore<T>(saved: TagSlot, inner: Step<T>): (r: Step<T>)
    ensures r.out == inner.out && r.slot == saved
  {
    Step(inner.out, saved)
  }

  /** Which format a container codec passes to its nested catalog calls.
      `Defaults`: none at all, so packing falls back to canonical and unpacking to AUTO
      (the container hooks take no keyword arguments).
      `Forward`: the format of the enclosing call, as the record codec does. */
  datatype Nesting = Defaults | Forward

  function ElemPackFormat(nesting: Nesting, format: Format): Format
  {
    if nesting == Forward then format else Borsch
  }

  function ElemUnpackFormat(nesting: Nesting, format: Format): Format
  {
    if nesting == Forward then format else Auto
  }

  // ---------------------------------------------------------------------------
  // Static-ness and maximum size
  // ---------------------------------------------------------------------------

  /** `is_static`: whether every value of the type has the same encoded size.
      A Vec answers false, as its misnamed hook says.  A static type holds no
      AutoTagType, whose size follows the tag type. */
  function IsStatic(t: Ty): (s: bool)
    ensures s ==> TagFree(t)
  {
    match t
    case Atomic(_) => true
    case AutoTag => false
    case Record(_, fs) => FieldsStatic(fs)
    case FixedArray(e, _) => IsStatic(e)
    case FixedBytes(_) => true
    case FixedStr(_, _) => true
    case Vec(_, _, _) => false
    case VarBytes(_, _) => false
    case VarStr(_, _) => false
  }

  /** The record hook's loop: false at the first non-static field. */
  function FieldsStatic(fs: seq<Field>): (s: bool)
    ensures s ==> forall i :: 0 <= i < |fs| ==> TagFree(fs[i].ty)
  {
    if |fs| == 0 then true
    else if !IsStatic(fs[0].ty) then false
    else
      assert forall i :: 1 <= i < |fs| ==> fs[i] == fs[1..][i - 1];
      FieldsStatic(fs[1..])
  }

  /** `is_static` as the catalog actually resolves it: the converter calls the
      type's `_is_static` hook, which a Vec does not have.  Wherever the lookup
      answers, it answers as `IsStatic`; it fails only on a type that is not static. */
  function IsStaticAsWritten(t: Ty): (r: Result<bool, Error>)
    ensures r.Ok? ==> r.value == IsStatic(t)
    ensures r.Err? ==> r.error == Fault(MissingHook) && !IsStatic(t)
  {
    match t
    case Atomic(_) => Ok(true)
    case AutoTag => Ok(false)
    case Record(_, fs) => FieldsStaticAsWritten(fs)
    case FixedArray(e, _) => IsStaticAsWritten(e)
    case FixedBytes(_) => Ok(true)
    case FixedStr(_, _) => Ok(true)
    case Vec(_, _, _) => Err(Fault(MissingHook))
    case VarBytes(_, _) => Ok(false)
    case VarStr(_, _) => Ok(false)
  }

  function FieldsStaticAsWritten(fs: seq<Field>): (r: Result<bool, Error>)
    ensures r.Ok? ==> r.value == FieldsStatic(fs)
    ensures r.Err? ==> r.error == Fault(MissingHook) && !FieldsStatic(fs)
  {
    if |fs| == 0 then Ok(true)
    else
      var s :- IsStaticAsWritten(fs[0].ty);
      if !s then Ok(false) else FieldsStaticAsWritten(fs[1..])
  }

  /** `calc_max_size`: an upper bound on the encoded size.  AutoTagType asks the
      catalog about the installed tag type, so it fails while the slot is empty. */
  function MaxSize(t: Ty, slot: TagSlot): (r: Result<nat, Error>)
    ensures slot.Installed? ==> r.Ok?
    ensures r.Err? ==> r.error == Fault(NoConverter)
  {
    match t
    case Atomic(w) => Ok(w)
    case AutoTag => if slot.Unset? then Err(Fault(NoConverter)) else Ok(slot.tag.Width())
    case Record(_, fs) => FieldsMaxSize(fs, slot)
    case FixedArray(e, n) =>
      var m :- MaxSize(e, slot);
      Ok(m * n)
    case FixedBytes(n) => Ok(n)
    case FixedStr(n, _) => Ok(n)
    case Vec(e, lw, max) =>
      var m :- MaxSize(e, slot);
      Ok(lw + m * max)
    case VarBytes(lw, max) => Ok(lw + max)
    case VarStr(lw, max) => Ok(lw + max)
  }

  /** The record hook's running total over the declared fields. */
  function FieldsMaxSize(fs: seq<Field>, slot: TagSlot): (r: Result<nat, Error>)
    ensures slot.Installed? ==> r.Ok?
    ensures r.Err? ==> r.error == Fault(NoConverter)
  {
    if |fs| == 0 then Ok(0)
    else
      var m :- MaxSize(fs[0].ty, slot);
      var rest :- FieldsMaxSize(fs[1..], slot);
      Ok(m + rest)
  }

  /** The `calc_size` helper: it asks `is_static` through the catalog's hook lookup,
      refuses a type that is not static, and otherwise is the maximum size.  Only a
      static type has a size; a type that is not static is refused, or fails already
      in the lookup when it reaches a Vec. */
  function CalcSize(t: Ty, slot: TagSlot): (r: Result<nat, Error>)
    ensures r.Ok? <==> IsStatic(t) && MaxSize(t, slot).Ok?
    ensures r.Ok? ==> r.value == MaxSize(t, slot).value
    ensures !IsStatic(t) ==> r == Err(Fault(NotStatic)) || r == Err(Fault(MissingHook))
  {
    var s :- IsStaticAsWritten(t);
    if !s then Err(Fault(NotStatic)) else MaxSize(t, slot)
  }

  // ---------------------------------------------------------------------------
  // Value and buffer helpers
  // ---------------------------------------------------------------------------

  /** Attributes reachable by `getattr` on a value: only records have fields. */
  function AttrsOf(v: Value): map<string, Value>
  {
    if v.Struct? then v.attrs else map[]
  }

  /** Python iteration (and `len`) over a value: lists yield their items, byte
      strings their bytes as integers, text its one-character strings. */
  function Iterate(v: Value): (r: Option<seq<Value>>)
    ensures r.Some? <==> v.List? || v.Blob? || v.Text?
    ensures v.List? ==> r == Some(v.items)
  {
    match v
    case List(items) => Some(items)
    case Blob(bs) => Some(seq(|bs|, i requires 0 <= i < |bs| => Int(bs[i])))
    case Text(cs) => Some(seq(|cs|, i requires 0 <= i < |cs| => Text([cs[i]])))
    case _ => None
  }

  /** `len(obj)`. */
  function Len(v: Value): (r: Option<nat>)
    ensures r.Some? <==> Iterate(v).Some?
    ensures r.Some? ==> r.value == |Iterate(v).value|
  {
    match v
    case List(items) => Some(|items|)
    case Blob(bs) => Some(|bs|)
    case Text(cs) => Some(|cs|)
    case _ => None
  }

  function Zeros(n: nat): (z: Bytes)
    ensures |z| == n && forall i :: 0 <= i < n ==> z[i] == 0
  {
    seq(n, _ => 0)
  }

  /** `bytes.ljust(n, b"\x00")`: pad on the right with zero bytes up to `n`; longer input is kept whole. */
  function PadRight(bs: Bytes, n: nat): (r: Bytes)
    ensures |r| == if |bs| < n then n else |bs|
    ensures r[..|bs|] == bs
    ensures forall i :: |bs| <= i < |r| ==> r[i] == 0
  {
    if |bs| < n then bs + Zeros(n - |bs|) else bs
  }

  /** `buffer.read(n)`: up to `n` bytes from the cursor; fewer when the input ends first. */
  function Read(buf: Bytes, pos: nat, n: nat): (r: (Bytes, nat))
    requires pos <= |buf|
    ensures pos <= r.1 <= |buf| && r.1 - pos <= n
    ensures r.1 - pos < n ==> r.1 == |buf|
    ensures r.0 == buf[pos..r.1]
  {
    var end := if pos + n <= |buf| then pos + n else |buf|;
    (buf[pos..end], end)
  }

  /** The autopad trim of a fixed string: the bytes before the first zero byte. */
  function BeforeZero(bs: Bytes): (r: Bytes)
    ensures |r| <= |bs| && r == bs[..|r|]
    ensures forall i :: 0 <= i < |r| ==> r[i] != 0
    ensures |r| < |bs| ==> bs[|r|] == 0
  {
    if |bs| == 0 || bs[0] == 0 then [] else [bs[0]] + BeforeZero(bs[1..])
  }

  function Prepend(prefix: Bytes, rest: Result<Bytes, Error>): (r: Result<Bytes, Error>)
    ensures r.Ok? <==> rest.Ok?
    ensures r.Ok? ==> r.value == prefix + rest.value
    ensures r.Err? ==> r.error == rest.error
  {
    if rest.Ok? then Ok(prefix + rest.value) else rest
  }

  // ---------------------------------------------------------------------------
  // Leaf codecs
  // ---------------------------------------------------------------------------

  /** An atomic integer of `w` bytes: refuses non-integers and values that do not fit. */
  function PackAtomic(w: nat, v: Value): (r: Result<Bytes, Error>)
    ensures r.Ok? <==> v.Int? && 0 <= v.n < Pow256(w)
    ensures r.Ok? ==> |r.value| == w && DecodeLE(r.value) == v.n
  {
    if !v.Int? then Err(Fault(WrongShape))
    else if v.n < 0 || v.n >= Pow256(w) then Err(Fault(OutOfRange))
    else
      DecodeEncode(v.n, w);
      Ok(EncodeLE(v.n, w))
  }

  function UnpackAtomic(w: nat, buf: Bytes, pos: nat): (r: Result<(Value, nat), Error>)
    requires pos <= |buf|
    ensures r.Ok? <==> pos + w <= |buf|
    ensures r.Ok? ==> r.value.1 == pos + w && r.value.0 == Int(DecodeLE(buf[pos..pos + w]))
  {
    if pos + w > |buf| then Err(Fault(ShortRead))
    else Ok((Int(DecodeLE(buf[pos..pos + w])), pos + w))
  }

  /** Fixed string pack: encoded text longer than `n` is refused, shorter is refused
      unless autopad is on, and the output is padded with zeros to exactly `n`. */
  function PackFixedStr(n: nat, autopad: bool, v: Value): (r: Result<Bytes, Error>)
    ensures r.Ok? <==> v.Text? && |v.chars| <= n && (autopad || |v.chars| == n)
    ensures v.Text? && |v.chars| > n ==> r == Err(Fault(StrTooLong))
    ensures v.Text? && |v.chars| < n && !autopad ==> r == Err(Fault(StrTooShort))
    ensures r.Ok? ==> |r.value| == n && r.value[..|v.chars|] == v.chars
                      && forall i :: |v.chars| <= i < n ==> r.value[i] == 0
  {
    if !v.Text? then Err(Fault(WrongShape))
    else if |v.chars| > n then Err(Fault(StrTooLong))
    else if |v.chars| < n && !autopad then Err(Fault(StrTooShort))
    else Ok(PadRight(v.chars, n))
  }

  // ---------------------------------------------------------------------------
  // Pack
  // ---------------------------------------------------------------------------

  /** `BYTES_CATALOG.pack_partial`: negotiate the tag type for `format`, run the
      type's pack hook, restore the tag slot. */
  function PackPartial(t: Ty, v: Value, format: Format, slot: TagSlot, nesting: Nesting): (r: Step<Bytes>)
    ensures r.slot == slot
    decreases TySize(t), 2, 0
  {
    match Negotiate(format)
    case Install(tag) => Restore(slot, PackStep(t, v, format, Installed(tag), nesting))
    case PassThrough => PackStep(t, v, format, slot, nesting)
    case Invalid => Step(Err(Fault(UnknownFormat(format))), slot)
  }

  /** The `_to_bytes_partial` hook of each kind of type. */
  function PackStep(t: Ty, v: Value, format: Format, slot: TagSlot, nesting: Nesting): (r: Step<Bytes>)
    ensures r.slot == slot
    decreases TySize(t), 1, 0
  {
    match t
    case Atomic(w) => Step(PackAtomic(w, v), slot)
    case AutoTag =>
      if slot.Unset? then Step(Err(Fault(NoConverter)), slot)
      else PackPartial(Atomic(slot.tag.Width()), v, format, slot, nesting)
    case Record(name, fs) => PackFields(name, fs, AttrsOf(v), format, slot, nesting)
    case FixedArray(e, _) => PackFixedArray(e, v, format, slot, nesting)
    case FixedBytes(n) =>
      Step(if v.Blob? then Ok(PadRight(v.bytes, n)) else Err(Fault(WrongShape)), slot)
    case FixedStr(n, autopad) => Step(PackFixedStr(n, autopad, v), slot)
    case Vec(e, lw, max) => PackVec(e, lw, max, v, format, slot, nesting)
    case VarBytes(lw, max) => PackVarBytes(lw, max, v, format, slot, nesting)
    case VarStr(lw, max) => PackVarStr(lw, max, v, format, slot, nesting)
  }

  /** FixedLenArray: the elements in order, no prefix (the length is not checked). */
  function PackFixedArray(e: Ty, v: Value, format: Format, slot: TagSlot, nesting: Nesting): (r: Step<Bytes>)
    ensures r.slot == slot
    decreases 1 + TySize(e), 0, 0
  {
    match Iterate(v)
    case None => Step(Err(Fault(WrongShape)), slot)
    case Some(items) => PackItems(e, items, ElemPackFormat(nesting, format), slot, nesting)
  }

  /** The length prefix of a variable container: refused beyond `max_length`,
      otherwise written through the catalog as a value of the length type. */
  function PackLength(lw: nat, max: nat, len: nat, format: Format, slot: TagSlot, nesting: Nesting): (r: Step<Bytes>)
    ensures r.slot == slot
    ensures len > max ==> r.out == Err(Fault(LengthExceeded))
    decreases 1, 3, 0
  {
    if len > max then Step(Err(Fault(LengthExceeded)), slot)
    else PackPartial(Atomic(lw), Int(len), ElemPackFormat(nesting, format), slot, nesting)
  }

  /** Vec: the element count, then the elements in order. */
  function PackVec(e: Ty, lw: nat, max: nat, v: Value, format: Format, slot: TagSlot, nesting: Nesting): (r: Step<Bytes>)
    ensures r.slot == slot
    ensures r.out.Ok? ==> Iterate(v).Some? && |Iterate(v).value| <= max
    ensures Iterate(v).Some? && |Iterate(v).value| > max ==> r.out == Err(Fault(LengthExceeded))
    decreases 1 + TySize(e), 0, 0
  {
    match Iterate(v)
    case None => Step(Err(Fault(WrongShape)), slot)
    case Some(items) =>
      var count := PackLength(lw, max, |items|, format, slot, nesting);
      if count.out.Err? then count
      else
        var body := PackItems(e, items, ElemPackFormat(nesting, format), count.slot, nesting);
        Step(Prepend(count.out.value, body.out), body.slot)
  }

  /** Bytes: the byte count, then the bytes. */
  function PackVarBytes(lw: nat, max: nat, v: Value, format: Format, slot: TagSlot, nesting: Nesting): (r: Step<Bytes>)
    ensures r.slot == slot
    decreases 2, 0, 0
  {
    match Len(v)
    case None => Step(Err(Fault(WrongShape)), slot)
    case Some(len) =>
      var count := PackLength(lw, max, len, format, slot, nesting);
      if count.out.Err? then count
      else Step(if v.Blob? then Ok(count.out.value + v.bytes) else Err(Fault(WrongShape)), count.slot)
  }

  /** Str: the length of the text, then the encoded text. */
  function PackVarStr(lw: nat, max: nat, v: Value, format: Format, slot: TagSlot, nesting: Nesting): (r: Step<Bytes>)
    ensures r.slot == slot
    decreases 2, 0, 0
  {
    match Len(v)
    case None => Step(Err(Fault(WrongShape)), slot)
    case Some(len) =>
      var count := PackLength(lw, max, len, format, slot, nesting);
      if count.out.Err? then count
      else Step(if v.Text? then Ok(count.out.value + v.chars) else Err(Fault(WrongShape)), count.slot)
  }

  /** The element loop of the array hooks: each element in order, stopping at the first failure. */
  function PackItems(e: Ty, items: seq<Value>, format: Format, slot: TagSlot, nesting: Nesting): (r: Step<Bytes>)
    ensures r.slot == slot
    decreases TySize(e), 3, |items|
  {
    if |items| == 0 then Step(Ok([]), slot)
    else
      var head := PackPartial(e, items[0], format, slot, nesting);
      if head.out.Err? then head
      else
        var rest := PackItems(e, items[1..], format, head.slot, nesting);
        Step(Prepend(head.out.value, rest.out), rest.slot)
  }

  /** The record hook: each declared field in order, with the format passed on.
      A failing field turns into a path error ending in that field and this class. */
  function PackFields(cls: string, fs: seq<Field>, attrs: map<string, Value>, format: Format,
                      slot: TagSlot, nesting: Nesting): (r: Step<Bytes>)
    ensures r.slot == slot
    ensures r.out.Err? ==> && r.out.error.PathError?
                           && |r.out.error.path| >= 2
                           && r.out.error.path[|r.out.error.path| - 1] == cls
                           && r.out.error.path[|r.out.error.path| - 2] in FieldNames(fs)
    decreases FieldsSize(fs), 3, 0
  {
    if |fs| == 0 then Step(Ok([]), slot)
    else
      var f := fs[0];
      if f.name !in attrs then
        Step(Err(WrapField(Fault(MissingAttribute(f.name)), f, cls, SERIALIZE_MSG)), slot)
      else
        var head := PackPartial(f.ty, attrs[f.name], format, slot, nesting);
        if head.out.Err? then Step(Err(WrapField(head.out.error, f, cls, SERIALIZE_MSG)), head.slot)
        else
          var rest := PackFields(cls, fs[1..], attrs, format, head.slot, nesting);
          Step(Prepend(head.out.value, rest.out), rest.slot)
  }

  // ---------------------------------------------------------------------------
  // Unpack
  // ---------------------------------------------------------------------------

  /** The AUTO probe: zero-copy when the type's maximum size with a U64 tag installed
      equals the TOTAL input length (not the length left after the cursor). */
  function AutoFormat(t: Ty, totalLength: nat): (format: Format)
    ensures format == ZeroCopy || format == Borsch
    ensures format == ZeroCopy <==> MaxSize(t, Installed(U64)).value == totalLength
  {
    Detect(MaxSize(t, Installed(U64)).value, totalLength)
  }

  /** `BYTES_CATALOG.unpack_partial`: resolve AUTO by the probe (the cursor is left
      where it was), negotiate the tag type, run the unpack hook, restore the tag slot.
      The result carries the value and the new cursor. */
  function UnpackPartial(t: Ty, buf: Bytes, pos: nat, format: Format, slot: TagSlot, nesting: Nesting)
    : (r: Step<(Value, nat)>)
    requires pos <= |buf|
    ensures r.slot == slot
    ensures r.out.Ok? ==> pos <= r.out.value.1 <= |buf|
    decreases TySize(t), 2, 0
  {
    var concrete := if format == Auto then AutoFormat(t, |buf|) else format;
    match Negotiate(concrete)
    case Install(tag) => Restore(slot, UnpackStep(t, buf, pos, concrete, Installed(tag), nesting))
    case PassThrough => UnpackStep(t, buf, pos, concrete, slot, nesting)
    case Invalid => Step(Err(Fault(UnknownFormat(concrete))), slot)
  }

  function AsList(r: Result<(seq<Value>, nat), Error>): Result<(Value, nat), Error>
  {
    if r.Ok? then Ok((List(r.value.0), r.value.1)) else Err(r.error)
  }

  /** The `_from_bytes_partial` hook of each kind of type. */
  function UnpackStep(t: Ty, buf: Bytes, pos: nat, format: Format, slot: TagSlot, nesting: Nesting)
    : (r: Step<(Value, nat)>)
    requires pos <= |buf|
    ensures r.slot == slot
    ensures r.out.Ok? ==> pos <= r.out.value.1 <= |buf|
    decreases TySize(t), 1, 0
  {
    match t
    case Atomic(w) => Step(UnpackAtomic(w, buf, pos), slot)
    case AutoTag =>
      if slot.Unset? then Step(Err(Fault(NoConverter)), slot)
      else UnpackPartial(Atomic(slot.tag.Width()), buf, pos, format, slot, nesting)
    case Record(name, fs) => UnpackRecord(name, fs, buf, pos, format, slot, nesting)
    case FixedArray(e, n) =>
      var r := UnpackItems(e, n, buf, pos, ElemUnpackFormat(nesting, format), slot, nesting);
      Step(AsList(r.out), r.slot)
    case FixedBytes(n) =>
      var (bs, p) := Read(buf, pos, n);
      Step(Ok((Blob(bs), p)), slot)
    case FixedStr(n, autopad) =>
      var (bs, p) := Read(buf, pos, n);
      Step(Ok((Text(if autopad then BeforeZero(bs) else bs), p)), slot)
    case Vec(e, lw, max) => UnpackVec(e, lw, max, buf, pos, format, slot, nesting)
    case VarBytes(lw, max) =>
      var r := UnpackRun(lw, max, buf, pos, format, slot, nesting);
      Step(if r.out.Ok? then Ok((Blob(r.out.value.0), r.out.value.1)) else Err(r.out.error), r.slot)
    case VarStr(lw, max) =>
      var r := UnpackRun(lw, max, buf, pos, format, slot, nesting);
      Step(if r.out.Ok? then Ok((Text(r.out.value.0), r.out.value.1)) else Err(r.out.error), r.slot)
  }

  /** The record hook's result: the record is built only once every field has succeeded. */
  function UnpackRecord(name: string, fs: seq<Field>, buf: Bytes, pos: nat, format: Format,
                        slot: TagSlot, nesting: Nesting): (r: Step<(Value, nat)>)
    requires pos <= |buf|
    ensures r.slot == slot
    ensures r.out.Ok? ==> pos <= r.out.value.1 <= |buf|
    decreases 1 + FieldsSize(fs), 0, 0
  {
    var r := UnpackFields(name, fs, buf, pos, format, slot, nesting);
    Step(if r.out.Ok? then Ok((Struct(name, r.out.value.0), r.out.value.1)) else Err(r.out.error), r.slot)
  }

  /** The length prefix of a variable container, refused beyond `max_length`. */
  function UnpackLength(lw: nat, max: nat, buf: Bytes, pos: nat, format: Format, slot: TagSlot, nesting: Nesting)
    : (r: Step<(nat, nat)>)
    requires pos <= |buf|
    ensures r.slot == slot
    ensures r.out.Ok? ==> r.out.value.0 <= max && pos <= r.out.value.1 <= |buf|
    decreases 1, 4, 0
  {
    var count := UnpackCount(lw, buf, pos, ElemUnpackFormat(nesting, format), slot, nesting);
    if count.out.Err? then Step(Err(count.out.error), count.slot)
    else if count.out.value.0 > max then Step(Err(Fault(LengthExceeded)), count.slot)
    else count
  }

  /** Vec: the element count, then exactly that many elements. */
  function UnpackVec(e: Ty, lw: nat, max: nat, buf: Bytes, pos: nat, format: Format, slot: TagSlot, nesting: Nesting)
    : (r: Step<(Value, nat)>)
    requires pos <= |buf|
    ensures r.slot == slot
    ensures r.out.Ok? ==> pos <= r.out.value.1 <= |buf|
    ensures r.out.Ok? ==> r.out.value.0.List? && |r.out.value.0.items| <= max
    decreases 1 + TySize(e), 0, 0
  {
    var count := UnpackLength(lw, max, buf, pos, format, slot, nesting);
    if count.out.Err? then Step(Err(count.out.error), count.slot)
    else
      var r := UnpackItems(e, count.out.value.0, buf, count.out.value.1,
                           ElemUnpackFormat(nesting, format), count.slot, nesting);
      Step(AsList(r.out), r.slot)
  }

  /** Bytes and Str: the byte count, then up to that many bytes (fewer if the input ends). */
  function UnpackRun(lw: nat, max: nat, buf: Bytes, pos: nat, format: Format, slot: TagSlot, nesting: Nesting)
    : (r: Step<(Bytes, nat)>)
    requires pos <= |buf|
    ensures r.slot == slot
    ensures r.out.Ok? ==> pos <= r.out.value.1 <= |buf|
    ensures r.out.Ok? ==> && |r.out.value.0| <= max && |r.out.value.0| <= r.out.value.1
                          && r.out.value.0 == buf[r.out.value.1 - |r.out.value.0|..r.out.value.1]
    decreases 1, 5, 0
  {
    var count := UnpackLength(lw, max, buf, pos, format, slot, nesting);
    if count.out.Err? then Step(Err(count.out.error), count.slot)
    else Step(Ok(Read(buf, count.out.value.1, count.out.value.0)), count.slot)
  }

  /** The length prefix of a variable container, read through the catalog as a value of the length type. */
  function UnpackCount(lw: nat, buf: Bytes, pos: nat, format: Format, slot: TagSlot, nesting: Nesting)
    : (r: Step<(nat, nat)>)
    requires pos <= |buf|
    ensures r.slot == slot
    ensures r.out.Ok? ==> pos <= r.out.value.1 <= |buf|
    decreases 1, 3, 0
  {
    var c := UnpackPartial(Atomic(lw), buf, pos, format, slot, nesting);
    if c.out.Err? then Step(Err(c.out.error), c.slot)
    else if c.out.value.0.Int? && c.out.value.0.n >= 0 then Step(Ok((c.out.value.0.n, c.out.value.1)), c.slot)
    else Step(Err(Fault(WrongShape)), c.slot)
  }

  /** The element loop of the array hooks: exactly `count` elements in order. */
  function UnpackItems(e: Ty, count: nat, buf: Bytes, pos: nat, format: Format, slot: TagSlot, nesting: Nesting)
    : (r: Step<(seq<Value>, nat)>)
    requires pos <= |buf|
    ensures r.slot == slot
    ensures r.out.Ok? ==> |r.out.value.0| == count && pos <= r.out.value.1 <= |buf|
    decreases TySize(e), 3, count
  {
    if count == 0 then Step(Ok(([], pos)), slot)
    else
      var head := UnpackPartial(e, buf, pos, format, slot, nesting);
      if head.out.Err? then Step(Err(head.out.error), head.slot)
      else
        var rest := UnpackItems(e, count - 1, buf, head.out.value.1, format, head.slot, nesting);
        if rest.out.Err? then rest
        else Step(Ok(([head.out.value.0] + rest.out.value.0, rest.out.value.1)), rest.slot)
  }

  /** The record hook: each declared field in order into a name-to-value map; the
      record is built by the caller only once every field has succeeded. */
  function UnpackFields(cls: string, fs: seq<Field>, buf: Bytes, pos: nat, format: Format,
                        slot: TagSlot, nesting: Nesting): (r: Step<(map<string, Value>, nat)>)
    requires pos <= |buf|
    ensures r.slot == slot
    ensures r.out.Ok? ==> r.out.value.0.Keys == FieldNames(fs) && pos <= r.out.value.1 <= |buf|
    ensures r.out.Err? ==> && r.out.error.PathError?
                           && |r.out.error.path| >= 2
                           && r.out.error.path[|r.out.error.path| - 1] == cls
                           && r.out.error.path[|r.out.error.path| - 2] in FieldNames(fs)
    decreases FieldsSize(fs), 3, 0
  {
    if |fs| == 0 then Step(Ok((map[], pos)), slot)
    else
      var f := fs[0];
      var head := UnpackPartial(f.ty, buf, pos, format, slot, nesting);
      if head.out.Err? then Step(Err(WrapField(head.out.error, f, cls, DESERIALIZE_MSG)), head.slot)
      else
        var rest := UnpackFields(cls, fs[1..], buf, head.out.value.1, format, head.slot, nesting);
        if rest.out.Err? then rest
        else Step(Ok((map[f.name := head.out.value.0] + rest.out.value.0, rest.out.value.1)), rest.slot)
  }

  // ---------------------------------------------------------------------------
  // Top-level operations
  // ---------------------------------------------------------------------------

  /** Default formats of the top-level operations. */
  const DEFAULT_PACK_FORMAT: Format := Borsch
  const DEFAULT_UNPACK_FORMAT: Format := Auto

  /** `BYTES_CATALOG.pack`: a fresh buffer, one pack step, its contents.  The array
      hooks pass the format on to their elements (the corrected nesting). */
  function Pack(t: Ty, v: Value, format: Format, slot: TagSlot): (r: Step<Bytes>)
    ensures r.slot == slot
  {
    PackPartial(t, v, format, slot, Forward)
  }

  /** `BYTES_CATALOG.unpack`: unpack from the start of `raw`; when `checked`, input
      left after the value is an error.  The array hooks pass the format on to their
      elements (the corrected nesting). */
  function Unpack(t: Ty, raw: Bytes, checked: bool, format: Format, slot: TagSlot): (r: Step<Value>)
    ensures r.slot == slot
    ensures var u := UnpackPartial(t, raw, 0, format, slot, Forward);
            && (r.out.Ok? <==> u.out.Ok? && (!checked || u.out.value.1 == |raw|))
            && (r.out.Ok? ==> r.out.value == u.out.value.0)
            && (u.out.Err? ==> r.out == Err(u.out.error))
            && (u.out.Ok? && checked && u.out.value.1 < |raw| ==> r.out == Err(Fault(UnusedBytes)))
  {
    Consumed(UnpackPartial(t, raw, 0, format, slot, Forward), |raw|, checked)
  }

  /** `BYTES_CATALOG.pack` exactly as pod/bytes.py and pod/types/array.py write it: the
      array hooks call the catalog for their elements and counts without a format. */
  function PackAsWritten(t: Ty, v: Value, format: Format, slot: TagSlot): (r: Step<Bytes>)
    ensures r.slot == slot
  {
    PackPartial(t, v, format, slot, Defaults)
  }

  /** `BYTES_CATALOG.unpack` exactly as written: the array hooks unpack their elements
      and counts with the default format AUTO. */
  function UnpackAsWritten(t: Ty, raw: Bytes, checked: bool, format: Format, slot: TagSlot): (r: Step<Value>)
    ensures r.slot == slot
    ensures var u := UnpackPartial(t, raw, 0, format, slot, Defaults);
            && (r.out.Ok? <==> u.out.Ok? && (!checked || u.out.value.1 == |raw|))
            && (r.out.Ok? ==> r.out.value == u.out.value.0)
            && (u.out.Err? ==> r.out == Err(u.out.error))
            && (u.out.Ok? && checked && u.out.value.1 < |raw| ==> r.out == Err(Fault(UnusedBytes)))
  {
    Consumed(UnpackPartial(t, raw, 0, format, slot, Defaults), |raw|, checked)
  }

  /** The end of `unpack`: the value, or when `checked`, an error if the cursor stopped
      before the end of the input. */
  function Consumed(u: Step<(Value, nat)>, total: nat, checked: bool): Step<Value>
  {
    if u.out.Err? then Step(Err(u.out.error), u.slot)
    else if checked && u.out.value.1 < total then Step(Err(Fault(UnusedBytes)), u.slot)
    else Step(Ok(u.out.value.0), u.slot)
  }
}

=== FILE: containers.dfy ===
/** Layout and bounds of the six container codecs of pod/types/array.py. */
module Containers {
  import opened Results
  import opened Atomics
  import opened Formats
  import opened Types
  import opened Errors
  import opened Codec

  /** A variable container: Vec, Bytes or Str. */
  predicate Variable(t: Ty)
  {
    t.Vec? || t.VarBytes? || t.VarStr?
  }

  // ---------------------------------------------------------------------------
  // The element loop
  // ---------------------------------------------------------------------------

  /** Packing a list of elements is packing its two halves one after the other; the
      first failing element decides the error. */
  lemma {:induction false} PackItemsSplit(e: Ty, xs: seq<Value>, ys: seq<Value>, format: Format, slot: TagSlot,
                                          nesting: Nesting)
    ensures var a := PackItems(e, xs, format, slot, nesting).out;
            PackItems(e, xs + ys, format, slot, nesting).out
            == if a.Err? then a else Prepend(a.value, PackItems(e, ys, format, slot, nesting).out)
    decreases |xs|
  {
    if |xs| == 0 {
      assert xs + ys == ys;
      var b := PackItems(e, ys, format, slot, nesting).out;
      if b.Ok? {
        assert [] + b.value == b.value;
      }
    } else {
      var x := xs[0];
      var rest := xs[1..];
      PackItemsSplit(e, rest, ys, format, slot, nesting);
      PackItemsSplitStep(e, x, rest, ys, rest + ys, format, slot, nesting);
      assert xs == [x] + rest && xs + ys == [x] + (rest + ys);
    }
  }

  /** The inductive step of PackItemsSplit: if `tail` packs as `rest` then `ys`, then
      `x` followed by `tail` packs as `x` followed by `rest`, then `ys`. */
  lemma PackItemsSplitStep(e: Ty, x: Value, rest: seq<Value>, ys: seq<Value>, tail: seq<Value>, format: Format,
                           slot: TagSlot, nesting: Nesting)
    requires var a := PackItems(e, rest, format, slot, nesting).out;
             PackItems(e, tail, format, slot, nesting).out
             == if a.Err? then a else Prepend(a.value, PackItems(e, ys, format, slot, nesting).out)
    ensures var a := PackItems(e, [x] + rest, format, slot, nesting).out;
            PackItems(e, [x] + tail, format, slot, nesting).out
            == if a.Err? then a else Prepend(a.value, PackItems(e, ys, format, slot, nesting).out)
  {
    PackItemsConsOf(e, x, rest, format, slot, nesting);
    PackItemsConsOf(e, x, tail, format, slot, nesting);
    PrependSplit(PackPartial(e, x, format, slot, nesting).out, PackItems(e, rest, format, slot, nesting).out,
                 PackItems(e, ys, format, slot, nesting).out, PackItems(e, tail, format, slot, nesting).out);
  }

  /** Stopping at the first failure commutes with concatenation: one head in front of
      a list that splits gives a longer list that splits the same way. */
  lemma PrependSplit(h: Result<Bytes, Error>, a: Result<Bytes, Error>, b: Result<Bytes, Error>, c: Result<Bytes, Error>)
    requires c == if a.Err? then a else Prepend(a.value, b)
    ensures var l := if h.Err? then h else Prepend(h.value, a);
            (if h.Err? then h else Prepend(h.value, c)) == if l.Err? then l else Prepend(l.value, b)
  {
    if h.Ok? && a.Ok? && b.Ok? {
      assert h.value + (a.value + b.value) == (h.value + a.value) + b.value;
    }
  }

  /** The element loop over one element followed by others. */
  lemma PackItemsConsOf(e: Ty, x: Value, rest: seq<Value>, format: Format, slot: TagSlot, nesting: Nesting)
    ensures var h := PackPartial(e, x, format, slot, nesting).out;
            PackItems(e, [x] + rest, format, slot, nesting).out
            == if h.Err? then h else Prepend(h.value, PackItems(e, rest, format, slot, nesting).out)
  {
    assert ([x] + rest)[0] == x && ([x] + rest)[1..] == rest;
  }

  /** Once the first element is packed, the loop goes on with the others. */
  lemma PackItemsHeadOk(e: Ty, items: seq<Value>, format: Format, slot: TagSlot, nesting: Nesting)
    requires |items| > 0 && PackPartial(e, items[0], format, slot, nesting).out.Ok?
    ensures PackItems(e, items, format, slot, nesting).out
            == Prepend(PackPartial(e, items[0], format, slot, nesting).out.value,
                       PackItems(e, items[1..], format, slot, nesting).out)
  {
  }

  /** Unpacking `m + n` elements reads `m` and then `n` from where they end. */
  lemma {:induction false} UnpackItemsAppend(e: Ty, m: nat, n: nat, buf: Bytes, pos: nat, format: Format,
                                             slot: TagSlot, nesting: Nesting, xs: seq<Value>, q: nat,
                                             ys: seq<Value>, r: nat)
    requires pos <= q <= |buf|
    requires UnpackItems(e, m, buf, pos, format, slot, nesting).out == Ok((xs, q))
    requires UnpackItems(e, n, buf, q, format, slot, nesting).out == Ok((ys, r))
    ensures UnpackItems(e, m + n, buf, pos, format, slot, nesting).out == Ok((xs + ys, r))
    decreases m
  {
    if m > 0 {
      UnpackItemsUncons(e, m, buf, pos, format, slot, nesting, xs, q);
      var x := xs[0];
      var rest := xs[1..];
      var p := UnpackPartial(e, buf, pos, format, slot, nesting).out.value.1;
      UnpackItemsAppend(e, m - 1, n, buf, p, format, slot, nesting, rest, q, ys, r);
      UnpackItemsAppendStep(e, m + n, buf, pos, format, slot, nesting, xs, ys, p, r);
    } else {
      assert xs + ys == ys;
    }
  }

  /** The inductive step of UnpackItemsAppend: the first element of `xs` in front of
      the others followed by `ys`. */
  lemma UnpackItemsAppendStep(e: Ty, count: nat, buf: Bytes, pos: nat, format: Format, slot: TagSlot,
                              nesting: Nesting, xs: seq<Value>, ys: seq<Value>, p: nat, r: nat)
    requires pos <= p <= |buf| && count > 0 && |xs| > 0
    requires UnpackPartial(e, buf, pos, format, slot, nesting).out == Ok((xs[0], p))
    requires UnpackItems(e, count - 1, buf, p, format, slot, nesting).out == Ok((xs[1..] + ys, r))
    ensures UnpackItems(e, count, buf, pos, format, slot, nesting).out == Ok((xs + ys, r))
  {
    UnpackItemsCons(e, count, buf, pos, format, slot, nesting, xs[0], p, xs[1..] + ys, r);
    ConsConcat(xs, ys);
  }

  /** The first element, then the others followed by `ys`, is the list followed by `ys`. */
  lemma ConsConcat(xs: seq<Value>, ys: seq<Value>)
    requires |xs| > 0
    ensures [xs[0]] + (xs[1..] + ys) == xs + ys
  {
    assert [xs[0]] + xs[1..] == xs;
  }

  /** When the first `m` elements fail, `m + n` elements fail with the same error. */
  lemma {:induction false} UnpackItemsFailsEarly(e: Ty, m: nat, n: nat, buf: Bytes, pos: nat, format: Format,
                                                 slot: TagSlot, nesting: Nesting)
    requires pos <= |buf|
    requires UnpackItems(e, m, buf, pos, format, slot, nesting).out.Err?
    ensures UnpackItems(e, m + n, buf, pos, format, slot, nesting).out
            == Err(UnpackItems(e, m, buf, pos, format, slot, nesting).out.error)
    decreases m
  {
    UnpackItemsStep(e, m, buf, pos, format, slot, nesting);
    var h := UnpackPartial(e, buf, pos, format, slot, nesting).out;
    if h.Err? {
      UnpackItemsStep(e, m + n, buf, pos, format, slot, nesting);
      assert UnpackItems(e, m + n, buf, pos, format, slot, nesting).out == Err(h.error);
    } else {
      var p := h.value.1;
      UnpackItemsFailsEarly(e, m - 1, n, buf, p, format, slot, nesting);
      var err := UnpackItems(e, m - 1, buf, p, format, slot, nesting).out.error;
      assert UnpackItems(e, m - 1 + n, buf, p, format, slot, nesting).out == Err(err);
      UnpackItemsPassOn(e, m + n, buf, pos, format, slot, nesting, err);
      assert UnpackItems(e, m, buf, pos, format, slot, nesting).out == Err(err);
      assert UnpackItems(e, m + n, buf, pos, format, slot, nesting).out == Err(err);
    }
  }

  /** An element that unpacks passes on the error of a later element. */
  lemma UnpackItemsPassOn(e: Ty, count: nat, buf: Bytes, pos: nat, format: Format, slot: TagSlot, nesting: Nesting,
                          err: Error)
    requires pos <= |buf| && count > 0
    requires UnpackPartial(e, buf, pos, format, slot, nesting).out.Ok?
    requires UnpackItems(e, count - 1, buf, UnpackPartial(e, buf, pos, format, slot, nesting).out.value.1,
                         format, slot, nesting).out == Err(err)
    ensures UnpackItems(e, count, buf, pos, format, slot, nesting).out == Err(err)
  {
    UnpackItemsStep(e, count, buf, pos, format, slot, nesting);
  }

  /** Packing a non-empty element list: the first element's bytes, then the rest's. */
  lemma PackItemsCons(e: Ty, items: seq<Value>, format: Format, slot: TagSlot, nesting: Nesting)
    requires |items| > 0
    requires PackPartial(e, items[0], format, slot, nesting).out.Ok?
    requires PackItems(e, items[1..], format, slot, nesting).out.Ok?
    ensures PackItems(e, items, format, slot, nesting).out
            == Ok(PackPartial(e, items[0], format, slot, nesting).out.value + PackItems(e, items[1..], format, slot, nesting).out.value)
  {
  }

  /** The element loop succeeds exactly when every element packs on its own. */
  lemma {:induction false} PackItemsOkIff(e: Ty, items: seq<Value>, format: Format, slot: TagSlot, nesting: Nesting)
    ensures PackItems(e, items, format, slot, nesting).out.Ok?
            <==> forall i :: 0 <= i < |items| ==> PackPartial(e, items[i], format, slot, nesting).out.Ok?
    decreases |items|
  {
    if |items| > 0 {
      PackItemsOkIff(e, items[1..], format, slot, nesting);
      assert forall i :: 1 <= i < |items| ==> items[i] == items[1..][i - 1];
    }
  }

  /** Unpacking a non-zero number of elements: the first element, then the rest. */
  lemma UnpackItemsCons(e: Ty, count: nat, buf: Bytes, pos: nat, format: Format, slot: TagSlot, nesting: Nesting,
                        x: Value, p: nat, xs: seq<Value>, q: nat)
    requires pos <= p <= |buf| && count > 0
    requires UnpackPartial(e, buf, pos, format, slot, nesting).out == Ok((x, p))
    requires UnpackItems(e, count - 1, buf, p, format, slot, nesting).out == Ok((xs, q))
    ensures UnpackItems(e, count, buf, pos, format, slot, nesting).out == Ok(([x] + xs, q))
  {
  }

  /** A successful element loop read its first element, then the others from where it ends. */
  lemma UnpackItemsUncons(e: Ty, count: nat, buf: Bytes, pos: nat, format: Format, slot: TagSlot, nesting: Nesting,
                          xs: seq<Value>, q: nat)
    requires pos <= |buf| && count > 0
    requires UnpackItems(e, count, buf, pos, format, slot, nesting).out == Ok((xs, q))
    ensures |xs| == count
    ensures UnpackPartial(e, buf, pos, format, slot, nesting).out.Ok?
    ensures UnpackPartial(e, buf, pos, format, slot, nesting).out.value.0 == xs[0]
    ensures UnpackItems(e, count - 1, buf, UnpackPartial(e, buf, pos, format, slot, nesting).out.value.1,
                        format, slot, nesting).out == Ok((xs[1..], q))
  {
  }

  /** One turn of the element loop: the first element, then the others from where it ends. */
  lemma UnpackItemsStep(e: Ty, count: nat, buf: Bytes, pos: nat, format: Format, slot: TagSlot, nesting: Nesting)
    requires pos <= |buf| && count > 0
    ensures var h := UnpackPartial(e, buf, pos, format, slot, nesting).out;
            var r := UnpackItems(e, count, buf, pos, format, slot, nesting).out;
            && (h.Err? ==> r == Err(h.error))
            && (h.Ok? ==>
                  var t := UnpackItems(e, count - 1, buf, h.value.1, format, slot, nesting).out;
                  && (t.Err? ==> r == Err(t.error))
                  && (t.Ok? ==> r == Ok(([h.value.0] + t.value.0, t.value.1))))
  {
  }

  // ---------------------------------------------------------------------------
  // Fixed containers
  // ---------------------------------------------------------------------------

  /** FixedLenArray pack writes the elements and nothing else: no prefix, and the
      declared length is neither checked nor used. */
  lemma FixedArrayPackIgnoresLength(e: Ty, n1: nat, n2: nat, items: seq<Value>, format: Format, slot: TagSlot,
                                    nesting: Nesting)
    ensures PackStep(FixedArray(e, n1), List(items), format, slot, nesting).out
            == PackStep(FixedArray(e, n2), List(items), format, slot, nesting).out
    ensures PackStep(FixedArray(e, n1), List(items), format, slot, nesting).out
            == PackItems(e, items, ElemPackFormat(nesting, format), slot, nesting).out
  {
  }

  /** FixedLenArray unpack reads exactly `n` elements, in order. */
  lemma FixedArrayReadsN(e: Ty, n: nat, buf: Bytes, pos: nat, format: Format, slot: TagSlot, nesting: Nesting)
    requires pos <= |buf|
    ensures var r := UnpackStep(FixedArray(e, n), buf, pos, format, slot, nesting).out;
            r.Ok? ==> r.value.0.List? && |r.value.0.items| == n
  {
  }

  /** FixedLenBytes pack: right-padded with zeros to `n`; a longer input is written whole. */
  lemma FixedBytesPackLayout(n: nat, bs: Bytes, format: Format, slot: TagSlot, nesting: Nesting)
    ensures |bs| <= n ==> PackStep(FixedBytes(n), Blob(bs), format, slot, nesting).out == Ok(bs + Zeros(n - |bs|))
    ensures |bs| > n ==> PackStep(FixedBytes(n), Blob(bs), format, slot, nesting).out == Ok(bs)
  {
    assert PackStep(FixedBytes(n), Blob(bs), format, slot, nesting).out == Ok(PadRight(bs, n));
    assert |bs| <= n ==> PadRight(bs, n) == bs + Zeros(n - |bs|);
  }

  /** FixedLenBytes unpack: the next `n` bytes; at the end of the input, what is left. */
  lemma FixedBytesReadsN(n: nat, buf: Bytes, pos: nat, format: Format, slot: TagSlot, nesting: Nesting)
    requires pos <= |buf|
    ensures pos + n <= |buf| ==>
              UnpackStep(FixedBytes(n), buf, pos, format, slot, nesting).out == Ok((Blob(buf[pos..pos + n]), pos + n))
    ensures pos + n > |buf| ==>
              UnpackStep(FixedBytes(n), buf, pos, format, slot, nesting).out == Ok((Blob(buf[pos..]), |buf|))
  {
    var r := Read(buf, pos, n);
    assert UnpackStep(FixedBytes(n), buf, pos, format, slot, nesting).out == Ok((Blob(r.0), r.1));
    assert buf[pos..|buf|] == buf[pos..];
  }

  /** FixedLenStr unpack reads `n` bytes, or what is left at the end of the input;
      with autopad it keeps the bytes before the first zero byte, without autopad all
      of them. */
  lemma FixedStrReadsN(n: nat, autopad: bool, buf: Bytes, pos: nat, format: Format, slot: TagSlot, nesting: Nesting)
    requires pos <= |buf|
    ensures var r := UnpackStep(FixedStr(n, autopad), buf, pos, format, slot, nesting).out;
            var end := if pos + n <= |buf| then pos + n else |buf|;
            && r.Ok? && r.value.1 == end && r.value.0.Text?
            && (!autopad ==> r.value.0.chars == buf[pos..end])
            && (autopad ==> r.value.0.chars <= buf[pos..end]
                            && (forall i :: 0 <= i < |r.value.0.chars| ==> r.value.0.chars[i] != 0)
                            && (pos + |r.value.0.chars| < end ==> buf[pos + |r.value.0.chars|] == 0))
  {
    var end := if pos + n <= |buf| then pos + n else |buf|;
    var bs := buf[pos..end];
    assert Read(buf, pos, n) == (bs, end);
    if autopad {
      var t := BeforeZero(bs);
      assert t == bs[..|t|];
      assert |t| < |bs| ==> bs[|t|] == buf[pos + |t|];
    }
  }

  /** The autopad trim as the fixed string hook writes it: advance `last` while it is
      inside the read bytes and on a non-zero byte, then keep `encoded[:last]`.  It
      computes exactly the prefix before the first zero byte. */
  method TrimAutopad(encoded: Bytes) returns (trimmed: Bytes)
    ensures trimmed == BeforeZero(encoded)
    ensures trimmed <= encoded && forall i :: 0 <= i < |trimmed| ==> trimmed[i] != 0
  {
    var last := 0;
    while last < |encoded| && encoded[last] != 0
      invariant 0 <= last <= |encoded|
      invariant forall i :: 0 <= i < last ==> encoded[i] != 0
    {
      last := last + 1;
    }
    trimmed := encoded[..last];
    PrefixBeforeZeroUnique(encoded, last);
  }

  /** A prefix free of zero bytes that ends the input or stops at a zero byte is the
      prefix before the first zero byte. */
  lemma {:induction false} PrefixBeforeZeroUnique(bs: Bytes, k: nat)
    requires k <= |bs|
    requires forall i :: 0 <= i < k ==> bs[i] != 0
    requires k == |bs| || bs[k] == 0
    ensures BeforeZero(bs) == bs[..k]
    decreases k
  {
    if k > 0 {
      PrefixBeforeZeroUnique(bs[1..], k - 1);
      assert [bs[0]] + bs[1..][..k - 1] == bs[..k];
    }
  }


  // ---------------------------------------------------------------------------
  // Variable containers
  // ---------------------------------------------------------------------------

  /** Vec, Bytes and Str refuse to pack more than `max_length` items, before anything is written. */
  lemma PackRejectsOverLength(t: Ty, v: Value, format: Format, slot: TagSlot, nesting: Nesting)
    requires Variable(t)
    requires Len(v).Some? && Len(v).value > t.maxLength
    ensures PackStep(t, v, format, slot, nesting).out == Err(Fault(LengthExceeded))
  {
  }

  /** Within the bound, Bytes and Str write the count and then the bytes; Vec writes the
      count and then every element of the input, in order. */
  lemma PackVariableLayout(t: Ty, v: Value, format: Format, slot: TagSlot, nesting: Nesting)
    requires Variable(t) && StepFormatOk(format)
    requires Len(v).Some? && Len(v).value <= t.maxLength && Len(v).value < Pow256(t.lengthWidth)
    ensures var cnt := EncodeLE(Len(v).value, t.lengthWidth);
            var r := PackStep(t, v, format, slot, nesting).out;
            && (t.VarBytes? && v.Blob? ==> r == Ok(cnt + v.bytes))
            && (t.VarStr? && v.Text? ==> r == Ok(cnt + v.chars))
            && (t.Vec? ==> r == Prepend(cnt, PackItems(t.elem, Iterate(v).value, ElemPackFormat(nesting, format), slot, nesting).out))
  {
    var k := Len(v).value;
    PackCountAnyFormat(t.lengthWidth, t.maxLength, k, format, slot, nesting);
  }

  /** The count of a variable container is written as a little-endian integer of the
      length type, whatever the format. */
  lemma PackCountAnyFormat(lw: nat, max: nat, k: nat, format: Format, slot: TagSlot, nesting: Nesting)
    requires k <= max && k < Pow256(lw) && StepFormatOk(format)
    ensures PackLength(lw, max, k, format, slot, nesting).out == Ok(EncodeLE(k, lw))
  {
    assert PackPartial(Atomic(lw), Int(k), ElemPackFormat(nesting, format), slot, nesting).out == PackAtomic(lw, Int(k));
  }

  /** The count of a variable container is read as a little-endian integer of the length type. */
  lemma UnpackCountAnyFormat(lw: nat, buf: Bytes, pos: nat, format: Format, slot: TagSlot, nesting: Nesting)
    requires pos <= |buf|
    requires format == Auto || StepFormatOk(format)
    ensures var c := UnpackCount(lw, buf, pos, format, slot, nesting).out;
            && (pos + lw > |buf| ==> c == Err(Fault(ShortRead)))
            && (pos + lw <= |buf| ==> c == Ok((DecodeLE(buf[pos..pos + lw]), pos + lw)))
  {
    assert UnpackPartial(Atomic(lw), buf, pos, format, slot, nesting).out == UnpackAtomic(lw, buf, pos);
  }

  /** The count of a variable container as its hooks check it: read, then compared with `max_length`. */
  lemma UnpackLengthAnyFormat(lw: nat, max: nat, buf: Bytes, pos: nat, format: Format, slot: TagSlot, nesting: Nesting)
    requires pos <= |buf| && StepFormatOk(format)
    ensures var c := UnpackLength(lw, max, buf, pos, format, slot, nesting).out;
            && (pos + lw > |buf| ==> c == Err(Fault(ShortRead)))
            && (pos + lw <= |buf| && DecodeLE(buf[pos..pos + lw]) > max ==> c == Err(Fault(LengthExceeded)))
            && (pos + lw <= |buf| && DecodeLE(buf[pos..pos + lw]) <= max ==> c == Ok((DecodeLE(buf[pos..pos + lw]), pos + lw)))
  {
    UnpackCountAnyFormat(lw, buf, pos, ElemUnpackFormat(nesting, format), slot, nesting);
  }

  /** Vec, Bytes and Str read the count first and refuse one above `max_length`; within
      the bound, Vec reads that many elements, and Bytes and Str read that many bytes or,
      when the input ends first, the bytes that are left, without an error. */
  predicate VariableUnpacks(t: Ty, buf: Bytes, pos: nat, format: Format, slot: TagSlot, nesting: Nesting)
    requires Variable(t) && pos <= |buf|
  {
    var r := UnpackStep(t, buf, pos, format, slot, nesting).out;
    var lw := t.lengthWidth;
    && (pos + lw > |buf| ==> r == Err(Fault(ShortRead)))
    && (pos + lw <= |buf| ==>
          var k := DecodeLE(buf[pos..pos + lw]);
          var q := pos + lw;
          && (k > t.maxLength ==> r == Err(Fault(LengthExceeded)))
          && (k <= t.maxLength && q + k <= |buf| && t.VarBytes? ==> r == Ok((Blob(buf[q..q + k]), q + k)))
          && (k <= t.maxLength && q + k <= |buf| && t.VarStr? ==> r == Ok((Text(buf[q..q + k]), q + k)))
          && (k <= t.maxLength && q + k > |buf| && t.VarBytes? ==> r == Ok((Blob(buf[q..]), |buf|)))
          && (k <= t.maxLength && q + k > |buf| && t.VarStr? ==> r == Ok((Text(buf[q..]), |buf|)))
          && (k <= t.maxLength && t.Vec? ==>
                r == AsList(UnpackItems(t.elem, k, buf, q, ElemUnpackFormat(nesting, format), slot, nesting).out)))
  }

  /** Every variable container unpacks as VariableUnpacks describes, whatever the format. */
  lemma UnpackVariableLayout(t: Ty, buf: Bytes, pos: nat, format: Format, slot: TagSlot, nesting: Nesting)
    requires Variable(t) && pos <= |buf| && StepFormatOk(format)
    ensures VariableUnpacks(t, buf, pos, format, slot, nesting)
  {
    match t
    case Vec(_, _, _) => VecUnpacks(t, buf, pos, format, slot, nesting);
    case VarBytes(lw, max) => BytesUnpacks(lw, max, buf, pos, format, slot, nesting);
    case VarStr(lw, max) => StrUnpacks(lw, max, buf, pos, format, slot, nesting);
  }

  lemma VecUnpacks(t: Ty, buf: Bytes, pos: nat, format: Format, slot: TagSlot, nesting: Nesting)
    requires t.Vec? && pos <= |buf| && StepFormatOk(format)
    ensures VariableUnpacks(t, buf, pos, format, slot, nesting)
  {
    UnpackVecLayout(t.elem, t.lengthWidth, t.maxLength, buf, pos, format, slot, nesting);
  }

  lemma BytesUnpacks(lw: nat, max: nat, buf: Bytes, pos: nat, format: Format, slot: TagSlot, nesting: Nesting)
    requires pos <= |buf| && StepFormatOk(format)
    ensures VariableUnpacks(VarBytes(lw, max), buf, pos, format, slot, nesting)
  {
    UnpackRunLayout(lw, max, buf, pos, format, slot, nesting);
  }

  lemma StrUnpacks(lw: nat, max: nat, buf: Bytes, pos: nat, format: Format, slot: TagSlot, nesting: Nesting)
    requires pos <= |buf| && StepFormatOk(format)
    ensures VariableUnpacks(VarStr(lw, max), buf, pos, format, slot, nesting)
  {
    UnpackRunLayout(lw, max, buf, pos, format, slot, nesting);
  }


  /** Vec: a short count fails, a count above `max_length` is refused, and otherwise
      that many elements follow the count. */
  lemma UnpackVecLayout(e: Ty, lw: nat, max: nat, buf: Bytes, pos: nat, format: Format, slot: TagSlot,
                        nesting: Nesting)
    requires pos <= |buf| && StepFormatOk(format)
    ensures var r := UnpackStep(Vec(e, lw, max), buf, pos, format, slot, nesting).out;
            && (pos + lw > |buf| ==> r == Err(Fault(ShortRead)))
            && (pos + lw <= |buf| ==>
                  var k := DecodeLE(buf[pos..pos + lw]);
                  && (k > max ==> r == Err(Fault(LengthExceeded)))
                  && (k <= max ==>
                        r == AsList(UnpackItems(e, k, buf, pos + lw, ElemUnpackFormat(nesting, format), slot, nesting).out)))
  {
    UnpackLengthAnyFormat(lw, max, buf, pos, format, slot, nesting);
  }

  /** Bytes and Str: a short count fails, a count above `max_length` is refused, and
      otherwise the body is the next `count` bytes after the count, or everything left
      when the input ends first (a short body is not an error). */
  lemma UnpackRunLayout(lw: nat, max: nat, buf: Bytes, pos: nat, format: Format, slot: TagSlot, nesting: Nesting)
    requires pos <= |buf| && StepFormatOk(format)
    ensures var r := UnpackRun(lw, max, buf, pos, format, slot, nesting).out;
            && (pos + lw > |buf| ==> r == Err(Fault(ShortRead)))
            && (pos + lw <= |buf| ==>
                  var k := DecodeLE(buf[pos..pos + lw]);
                  var q := pos + lw;
                  && (k > max ==> r == Err(Fault(LengthExceeded)))
                  && (k <= max && q + k <= |buf| ==> r == Ok((buf[q..q + k], q + k)))
                  && (k <= max && q + k > |buf| ==> r == Ok((buf[q..], |buf|))))
  {
    UnpackLengthAnyFormat(lw, max, buf, pos, format, slot, nesting);
    assert pos + lw <= |buf| ==> buf[pos + lw..|buf|] == buf[pos + lw..];
  }


  /** A Vec that unpacks holds exactly as many elements as its count says, and never
      more than `max_length`. */
  lemma VecReadsCount(e: Ty, lw: nat, max: nat, buf: Bytes, pos: nat, format: Format, slot: TagSlot,
                      nesting: Nesting)
    requires pos + lw <= |buf| && StepFormatOk(format)
    ensures var r := UnpackStep(Vec(e, lw, max), buf, pos, format, slot, nesting).out;
            r.Ok? ==> && r.value.0.List?
                      && |r.value.0.items| == DecodeLE(buf[pos..pos + lw])
                      && |r.value.0.items| <= max
  {
    UnpackLengthAnyFormat(lw, max, buf, pos, format, slot, nesting);
  }
}

=== FILE: converter.dfy ===
/** The self-describing converter of pod/bytes.py:78-95: a type is handled when it
    carries the "bytes" marker, and each catalog operation calls the type's hook of
    the matching name. */
module Converter {
  import opened Results
  import opened Types
  import opened Errors
  import opened Codec

  /** The marker a type lists to say it converts itself to bytes. */
  const BYTES_MARKER: string := "bytes"

  /** The hook names the converter looks up (pod/bytes.py:27-30). */
  const IS_STATIC: string := "_is_static"
  const CALC_MAX_SIZE: string := "_calc_max_size"
  const TO_BYTES_PARTIAL: string := "_to_bytes_partial"
  const FROM_BYTES_PARTIAL: string := "_from_bytes_partial"

  /** The four catalog operations a converter answers. */
  datatype Operation = StaticOp | MaxSizeOp | PackOp | UnpackOp

  function HookName(op: Operation): string
  {
    match op
    case StaticOp => IS_STATIC
    case MaxSizeOp => CALC_MAX_SIZE
    case PackOp => TO_BYTES_PARTIAL
    case UnpackOp => FROM_BYTES_PARTIAL
  }

  /** `get_mapping`: the self converter answers for a type exactly when the type's
      converter list names "bytes"; a type without the list is not handled. */
  function GetMapping(markers: Option<seq<string>>): (handled: bool)
    ensures handled ==> markers.Some?
    ensures markers.Some? ==> (handled <==> exists i :: 0 <= i < |markers.value| && markers.value[i] == BYTES_MARKER)
  {
    match markers
    case None => false
    case Some(ms) => BYTES_MARKER in ms
  }

  /** AutoTagType registers itself with the list ["bytes"] (pod/bytes.py:144). */
  const AUTO_TAG_MARKERS: seq<string> := [BYTES_MARKER]

  /** The hooks each type's class defines.  The containers of pod/types/array.py
      define all four, except that Vec spells its static hook `is_static`. */
  function DefinedHooks(t: Ty): set<string>
  {
    match t
    case Vec(_, _, _) => {"is_static", CALC_MAX_SIZE, TO_BYTES_PARTIAL, FROM_BYTES_PARTIAL}
    case _ => {IS_STATIC, CALC_MAX_SIZE, TO_BYTES_PARTIAL, FROM_BYTES_PARTIAL}
  }

  /** Delegation: `getattr(type_, <hook name>)` either finds the hook or raises
      AttributeError. */
  function Delegate(t: Ty, op: Operation): (r: Result<string, Error>)
    ensures r.Ok? ==> r.value == HookName(op) && r.value in DefinedHooks(t)
    ensures r.Err? ==> r.error == Fault(MissingHook) && HookName(op) !in DefinedHooks(t)
  {
    if HookName(op) in DefinedHooks(t) then Ok(HookName(op)) else Err(Fault(MissingHook))
  }

  /** The self converter answers for AutoTagType. */
  lemma AutoTagIsHandled()
    ensures GetMapping(Some(AUTO_TAG_MARKERS))
  {
    assert AUTO_TAG_MARKERS[0] == BYTES_MARKER;
  }

  /** Only the static hook of a Vec is ever missing: size, pack and unpack resolve for
      every type, and the static hook resolves for every type but Vec. */
  lemma DelegateFailsOnlyForVecStatic(t: Ty, op: Operation)
    ensures Delegate(t, op).Err? <==> t.Vec? && op == StaticOp
  {
    assert "is_static" != IS_STATIC;
  }

  /** For a type that is neither a record nor a fixed array, the catalog's `is_static`
      as written fails exactly when delegating to the type's static hook fails. */
  lemma StaticAsWrittenIsDelegation(t: Ty)
    requires !t.Record? && !t.FixedArray?
    ensures IsStaticAsWritten(t).Err? <==> Delegate(t, StaticOp).Err?
    ensures IsStaticAsWritten(t).Err? ==> IsStaticAsWritten(t).error == Fault(MissingHook)
  {
    DelegateFailsOnlyForVecStatic(t, StaticOp);
  }
}

=== FILE: errors.dfy ===
/** Failures of the bytes codec, and the error-path aggregation of the record codec
    (pod/bytes.py:54-59 and 69-74). */
module Errors {
  import opened Formats
  import opened Types

  /** A failure raised somewhere below a record field. */
  datatype Fault =
    | UnknownFormat(format: Format)   // ValueError: format argument not recognised
    | NoConverter                     // the catalog resolves no converter (tag slot still empty)
    | LengthExceeded                  // RuntimeError "actual_length > max_length"
    | StrTooLong                      // ValueError "len(value) > length"
    | StrTooShort                     // ValueError "len(value) < size"
    | UnusedBytes                     // RuntimeError "Unused bytes in provided raw data"
    | NotStatic                       // RuntimeError from calc_size
    | MissingHook                     // AttributeError: the type has no `_is_static`
    | MissingAttribute(attr: string)  // AttributeError: the record value lacks a field
    | WrongShape                      // TypeError / AttributeError: value of the wrong kind
    | OutOfRange                      // integer does not fit its atomic type
    | ShortRead                       // atomic integer read past the end of the input

  /** Either a bare fault or a path error: the message, the path of field and
      class names from the failure site outwards, the declared type of the
      innermost failing field and the fault that started it. */
  datatype Error =
    | Fault(fault: Fault)
    | PathError(msg: string, path: seq<string>, fieldType: Ty, cause: Fault)

  const SERIALIZE_MSG: string := "Failed to serialize dataclass"
  const DESERIALIZE_MSG: string := "Failed to deserialize dataclass"

  /** What a record hook does with an error raised by one of its fields: an existing
      path error gets the field name and then the class name appended; any other error
      becomes a new path error with path [field, class]. */
  function WrapField(e: Error, f: Field, cls: string, msg: string): (r: Error)
    ensures r.PathError?
    ensures |r.path| >= 2 && r.path[|r.path| - 2] == f.name && r.path[|r.path| - 1] == cls
    ensures e.PathError? ==> r.path[..|r.path| - 2] == e.path && r.msg == e.msg
                             && r.fieldType == e.fieldType && r.cause == e.cause
    ensures e.Fault? ==> r.path == [f.name, cls] && r.msg == msg
                         && r.fieldType == f.ty && r.cause == e.fault
  {
    match e
    case PathError(m, p, ft, c) => PathError(m, p + [f.name, cls], ft, c)
    case Fault(k) => PathError(msg, [f.name, cls], f.ty, k)
  }
}

=== FILE: formats.dfy ===
/** Format names, tag types and the tag-negotiation rules of the bytes catalog
    (pod/_utils.py:4-7 and the format switch of pod/bytes.py:170-223). */
module Formats {

  /** The four format names.  They are plain strings in pod/_utils.py, so a caller
      may pass any other string, which the negotiator rejects. */
  const FORMAT_AUTO: string := "FORMAT_AUTO"
  const FORMAT_PASS: string := "FORMAT_PASS"
  const FORMAT_ZERO_COPY: string := "FORMAT_ZERO_COPY"
  const FORMAT_BORSCH: string := "FORMAT_BORSCH"

  /** The two integer types that a negotiated call may install as tag type. */
  datatype TagType = U8 | U64 {
    /** Byte width of the tag integer. */
    function Width(): (w: nat)
      ensures w == 1 || w == 8
    {
      if U8? then 1 else 8
    }
  }

  /** The shared tag slot read by AutoTagType: empty until a negotiated call installs a tag type. */
  datatype TagSlot = Unset | Installed(tag: TagType)

  /** What a negotiated call does with the tag slot before running the converter. */
  datatype Negotiation = Install(tag: TagType) | PassThrough | Invalid

  /** A format argument: one of the four names, or any other string. */
  datatype Format = Auto | Pass | ZeroCopy | Borsch | Unknown(name: string)

  /** Reading a format argument: the four constants name the four formats and every
      other string is an unknown format. */
  function FormatOf(name: string): (f: Format)
    ensures f == Auto <==> name == FORMAT_AUTO
    ensures f == Pass <==> name == FORMAT_PASS
    ensures f == ZeroCopy <==> name == FORMAT_ZERO_COPY
    ensures f == Borsch <==> name == FORMAT_BORSCH
    ensures f.Unknown? ==> f.name == name
  {
    FormatsDistinct();
    if name == FORMAT_AUTO then Auto
    else if name == FORMAT_PASS then Pass
    else if name == FORMAT_ZERO_COPY then ZeroCopy
    else if name == FORMAT_BORSCH then Borsch
    else Unknown(name)
  }

  /** Tag selection of a negotiated call once the format is concrete:
      canonical installs U8, zero-copy installs U64, pass-through installs nothing,
      and anything else (including AUTO when packing) is an error. */
  function Negotiate(format: Format): (r: Negotiation)
    ensures r == Install(U8) <==> format == Borsch
    ensures r == Install(U64) <==> format == ZeroCopy
    ensures r == PassThrough <==> format == Pass
    ensures r == Invalid <==> format.Auto? || format.Unknown?
  {
    match format
    case Borsch => Install(U8)
    case Pass => PassThrough
    case ZeroCopy => Install(U64)
    case _ => Invalid
  }

  /** The AUTO probe: zero-copy exactly when the maximum size under a U64 tag equals
      the total length of the input, canonical otherwise. */
  function Detect(maxSizeUnderU64: nat, totalLength: nat): (format: Format)
    ensures format == ZeroCopy <==> maxSizeUnderU64 == totalLength
    ensures format == Borsch <==> maxSizeUnderU64 != totalLength
  {
    if maxSizeUnderU64 == totalLength then ZeroCopy else Borsch
  }

  /** Formats an unpack call accepts. */
  predicate UnpackFormatOk(format: Format)
  {
    format == Auto || format == Borsch || format == ZeroCopy || format == Pass
  }

  /** Formats under which a pack call can encode an AutoTagType: pass-through needs a tag already installed. */
  predicate PackFormatOk(format: Format, slot: TagSlot)
  {
    format == Borsch || format == ZeroCopy || (format == Pass && slot.Installed?)
  }

  /** Formats as seen by a type's own hook: concrete, with a tag installed. */
  predicate StepFormatOk(format: Format)
  {
    format == Borsch || format == ZeroCopy || format == Pass
  }

  /** The four format names are pairwise distinct, so the negotiator's branches never overlap. */
  lemma FormatsDistinct()
    ensures FORMAT_AUTO != FORMAT_PASS && FORMAT_AUTO != FORMAT_ZERO_COPY && FORMAT_AUTO != FORMAT_BORSCH
    ensures FORMAT_PASS != FORMAT_ZERO_COPY && FORMAT_PASS != FORMAT_BORSCH
    ensures FORMAT_ZERO_COPY != FORMAT_BORSCH
  {
  }

  /** AUTO is never a valid packing format: packing with it is rejected. */
  lemma AutoIsNotANegotiatedFormat()
    ensures Negotiate(FormatOf(FORMAT_AUTO)) == Invalid
  {
  }
}

=== FILE: packsize.dfy ===
/** What `calc_max_size` promises about `pack`: an encoding never exceeds the maximum
    size of its type under the tag type the format installs, and a static type's
    encoding has exactly that size, which is its `calc_size`. */
module PackSizes {
  import opened Results
  import opened Atomics
  import opened Formats
  import opened Types
  import opened Errors
  import opened Codec
  import opened Sizes
  import opened Containers
  import opened Records
  import opened RoundTrip

  /** A hook call whose format and tag slot agree: the slot is the one the format installs. */
  predicate Negotiated(format: Format, slot: TagSlot)
  {
    StepFormatOk(format) && slot.Installed? && EffectiveSlot(format, slot) == slot
  }

  /** A pack succeeded with at most `max` bytes, and exactly `max` when `exact`. */
  predicate Fits(r: Result<Bytes, Error>, max: nat, exact: bool)
  {
    r.Ok? && |r.value| <= max && (exact ==> |r.value| == max)
  }

  /** The width of the tag type a pack call works under: the one the format installs, or
      the one already installed; U8 stands in when there is none, which only a type
      without AutoTagType can meet. */
  function PackTagWidth(format: Format, slot: TagSlot): (w: nat)
    ensures w == 1 || w == 8
    ensures format == Borsch ==> w == 1
    ensures format == ZeroCopy ==> w == 8
  {
    var s := EffectiveSlot(format, slot);
    if s.Installed? then s.tag.Width() else 1
  }

  /** The top-level promise: a packable value packs within the maximum size of its type,
      and a static type packs to exactly its `calc_size`.  This holds under every concrete
      format, pass-through with no tag type installed included for a type without
      AutoTagType. */
  lemma PackWithinMaxSize(t: Ty, v: Value, format: Format, slot: TagSlot)
    requires StepFormatOk(format) && (PackFormatOk(format, slot) || TagFree(t))
    requires Packable(t, v, PackTagWidth(format, slot))
    ensures var r := Pack(t, v, format, slot).out;
            && r.Ok? && MaxSize(t, EffectiveSlot(format, slot)).Ok?
            && |r.value| <= MaxSize(t, EffectiveSlot(format, slot)).value
            && (IsStatic(t) ==> |r.value| == CalcSize(t, EffectiveSlot(format, slot)).value)
  {
    if PackFormatOk(format, slot) {
      PackSizePartial(t, v, format, slot);
    } else {
      PackTagFree(t, v, format, slot, Borsch, slot, Forward);
      PackSizePartial(t, v, Borsch, slot);
      MaxSizeTagFree(t, slot, Installed(U8));
    }
    CalcSizeIff(t, EffectiveSlot(format, slot));
  }

  lemma {:induction false} PackSizePartial(t: Ty, v: Value, format: Format, slot: TagSlot)
    requires PackFormatOk(format, slot) && Packable(t, v, EffectiveSlot(format, slot).tag.Width())
    ensures Fits(PackPartial(t, v, format, slot, Forward).out, MaxSize(t, EffectiveSlot(format, slot)).value, IsStatic(t))
    decreases TySize(t), 2, 0
  {
    var s := EffectiveSlot(format, slot);
    assert Negotiated(format, s);
    PackSizeStep(t, v, format, s);
    PartialIsStep(t, v, format, slot);
    assert StepFits(t, v, format, s);
  }

  /** A catalog call packs what its hook packs under the negotiated tag slot. */
  lemma PartialIsStep(t: Ty, v: Value, format: Format, slot: TagSlot)
    requires PackFormatOk(format, slot)
    ensures PackPartial(t, v, format, slot, Forward).out == PackStep(t, v, format, EffectiveSlot(format, slot), Forward).out
  {
  }

  /** A hook packs within its type's maximum size, exactly when the type is static. */
  predicate StepFits(t: Ty, v: Value, format: Format, slot: TagSlot)
    requires slot.Installed?
  {
    Fits(PackStep(t, v, format, slot, Forward).out, MaxSize(t, slot).value, IsStatic(t))
  }

  lemma {:induction false} PackSizeStep(t: Ty, v: Value, format: Format, slot: TagSlot)
    requires Negotiated(format, slot) && Packable(t, v, slot.tag.Width())
    ensures StepFits(t, v, format, slot)
    decreases TySize(t), 1, 0
  {
    match t
    case Atomic(w) => SizeAtomic(w, v, format, slot);
    case AutoTag => SizeAutoTag(v, format, slot);
    case Record(name, fs) => SizeRecord(name, fs, v, format, slot);
    case FixedArray(e, n) => SizeFixedArray(e, n, v, format, slot);
    case FixedBytes(n) => SizeFixedBytes(n, v, format, slot);
    case FixedStr(n, autopad) => SizeFixedStr(n, autopad, v, format, slot);
    case Vec(e, lw, max) => SizeVec(e, lw, max, v, format, slot);
    case VarBytes(lw, max) => SizeRun(t, v, format, slot);
    case VarStr(lw, max) => SizeRun(t, v, format, slot);
  }

  lemma SizeAtomic(w: nat, v: Value, format: Format, slot: TagSlot)
    requires slot.Installed? && Packable(Atomic(w), v, slot.tag.Width())
    ensures StepFits(Atomic(w), v, format, slot)
  {
  }

  lemma {:induction false} SizeAutoTag(v: Value, format: Format, slot: TagSlot)
    requires Negotiated(format, slot) && Packable(AutoTag, v, slot.tag.Width())
    ensures StepFits(AutoTag, v, format, slot)
    decreases TySize(AutoTag), 0, 0
  {
    var w := slot.tag.Width();
    PackSizePartial(Atomic(w), v, format, slot);
    assert PackStep(AutoTag, v, format, slot, Forward).out == PackPartial(Atomic(w), v, format, slot, Forward).out;
  }

  lemma {:induction false} SizeRecord(name: string, fs: seq<Field>, v: Value, format: Format, slot: TagSlot)
    requires Negotiated(format, slot) && Packable(Record(name, fs), v, slot.tag.Width())
    ensures StepFits(Record(name, fs), v, format, slot)
    decreases TySize(Record(name, fs)), 0, 0
  {
    PackSizeFields(name, fs, v.attrs, format, slot);
    assert PackStep(Record(name, fs), v, format, slot, Forward).out == PackFields(name, fs, v.attrs, format, slot, Forward).out;
  }

  lemma {:induction false} SizeFixedArray(e: Ty, n: nat, v: Value, format: Format, slot: TagSlot)
    requires Negotiated(format, slot) && Packable(FixedArray(e, n), v, slot.tag.Width())
    ensures StepFits(FixedArray(e, n), v, format, slot)
    decreases TySize(FixedArray(e, n)), 0, 0
  {
    var m := MaxSize(e, slot).value;
    PackSizeItems(e, v.items, format, slot);
    assert PackStep(FixedArray(e, n), v, format, slot, Forward).out == PackItems(e, v.items, format, slot, Forward).out;
    assert MaxSize(FixedArray(e, n), slot).value == m * n == |v.items| * m;
  }

  lemma SizeFixedBytes(n: nat, v: Value, format: Format, slot: TagSlot)
    requires slot.Installed? && Packable(FixedBytes(n), v, slot.tag.Width())
    ensures StepFits(FixedBytes(n), v, format, slot)
  {
  }

  lemma SizeFixedStr(n: nat, autopad: bool, v: Value, format: Format, slot: TagSlot)
    requires slot.Installed? && Packable(FixedStr(n, autopad), v, slot.tag.Width())
    ensures StepFits(FixedStr(n, autopad), v, format, slot)
  {
  }

  lemma {:induction false} SizeVec(e: Ty, lw: nat, max: nat, v: Value, format: Format, slot: TagSlot)
    requires Negotiated(format, slot) && Packable(Vec(e, lw, max), v, slot.tag.Width())
    ensures StepFits(Vec(e, lw, max), v, format, slot)
    decreases TySize(Vec(e, lw, max)), 0, 0
  {
    var m := MaxSize(e, slot).value;
    var k := |v.items|;
    PackSizeItems(e, v.items, format, slot);
    var body := PackItems(e, v.items, format, slot, Forward).out;
    VecLayout(e, lw, max, v, format, slot);
    MulMonotonic(k, max, m);
    assert k * m <= m * max;
    assert MaxSize(Vec(e, lw, max), slot).value == lw + m * max;
  }

  /** A Vec packs as its count, then its element loop. */
  lemma VecLayout(e: Ty, lw: nat, max: nat, v: Value, format: Format, slot: TagSlot)
    requires v.List? && |v.items| <= max && |v.items| < Pow256(lw) && StepFormatOk(format)
    ensures PackStep(Vec(e, lw, max), v, format, slot, Forward).out
            == Prepend(EncodeLE(|v.items|, lw), PackItems(e, v.items, format, slot, Forward).out)
  {
    PackVariableLayout(Vec(e, lw, max), v, format, slot, Forward);
  }

  lemma SizeRun(t: Ty, v: Value, format: Format, slot: TagSlot)
    requires (t.VarBytes? || t.VarStr?) && slot.Installed? && Packable(t, v, slot.tag.Width()) && StepFormatOk(format)
    ensures StepFits(t, v, format, slot)
  {
    PackVariableLayout(t, v, format, slot, Forward);
  }

  /** The element loop packs each element within its maximum size: `count` times it in
      all, and exactly that for a static element type. */
  lemma {:induction false} PackSizeItems(e: Ty, items: seq<Value>, format: Format, slot: TagSlot)
    requires Negotiated(format, slot)
    requires forall i :: 0 <= i < |items| ==> Packable(e, items[i], slot.tag.Width())
    ensures Fits(PackItems(e, items, format, slot, Forward).out, |items| * MaxSize(e, slot).value, IsStatic(e))
    decreases TySize(e), 3, |items|
  {
    if |items| > 0 {
      PackSizePartial(e, items[0], format, slot);
      PackSizeItems(e, items[1..], format, slot);
      ItemsCons(e, items, format, slot);
    }
  }

  /** One element, then the others: the sizes add up. */
  lemma ItemsCons(e: Ty, items: seq<Value>, format: Format, slot: TagSlot)
    requires |items| > 0 && slot.Installed?
    requires Fits(PackPartial(e, items[0], format, slot, Forward).out, MaxSize(e, slot).value, IsStatic(e))
    requires Fits(PackItems(e, items[1..], format, slot, Forward).out, (|items| - 1) * MaxSize(e, slot).value, IsStatic(e))
    ensures Fits(PackItems(e, items, format, slot, Forward).out, |items| * MaxSize(e, slot).value, IsStatic(e))
  {
    var m := MaxSize(e, slot).value;
    var head := PackPartial(e, items[0], format, slot, Forward).out.value;
    var rest := PackItems(e, items[1..], format, slot, Forward).out.value;
    PackItemsCons(e, items, format, slot, Forward);
    assert |head + rest| == |head| + |rest|;
    assert |items| * m == m + (|items| - 1) * m;
  }

  /** The record hook packs each field within its maximum size: the record's maximum
      size in all, and exactly that when every field is static. */
  lemma {:induction false} PackSizeFields(cls: string, fs: seq<Field>, attrs: map<string, Value>, format: Format,
                                          slot: TagSlot)
    requires Negotiated(format, slot)
    requires forall i :: 0 <= i < |fs| ==> fs[i].name in attrs && Packable(fs[i].ty, attrs[fs[i].name], slot.tag.Width())
    ensures Fits(PackFields(cls, fs, attrs, format, slot, Forward).out, FieldsMaxSize(fs, slot).value, FieldsStatic(fs))
    decreases FieldsSize(fs), 3, 0
  {
    if |fs| > 0 {
      assert forall i :: 0 <= i < |fs| - 1 ==> fs[1..][i] == fs[i + 1];
      PackSizePartial(fs[0].ty, attrs[fs[0].name], format, slot);
      PackSizeFields(cls, fs[1..], attrs, format, slot);
      FieldsCons(cls, fs, attrs, format, slot);
    }
  }

  lemma FieldsCons(cls: string, fs: seq<Field>, attrs: map<string, Value>, format: Format, slot: TagSlot)
    requires |fs| > 0 && fs[0].name in attrs && slot.Installed?
    requires Fits(PackPartial(fs[0].ty, attrs[fs[0].name], format, slot, Forward).out,
                  MaxSize(fs[0].ty, slot).value, IsStatic(fs[0].ty))
    requires Fits(PackFields(cls, fs[1..], attrs, format, slot, Forward).out, FieldsMaxSize(fs[1..], slot).value,
                  FieldsStatic(fs[1..]))
    ensures Fits(PackFields(cls, fs, attrs, format, slot, Forward).out, FieldsMaxSize(fs, slot).value, FieldsStatic(fs))
  {
    PackFieldsCons(cls, fs, attrs, format, slot, Forward);
  }
}

=== FILE: records.dfy ===
/** The record codec (the `dataclass_*` hooks): fields in declared order, error paths
    that name the failing field and class from the failure outwards. */
module Records {
  import opened Results
  import opened Atomics
  import opened Formats
  import opened Types
  import opened Errors
  import opened Codec

  /** Packing a non-empty field list: the first field's bytes, then the rest's. */
  lemma PackFieldsCons(cls: string, fs: seq<Field>, attrs: map<string, Value>, format: Format,
                       slot: TagSlot, nesting: Nesting)
    requires |fs| > 0 && fs[0].name in attrs
    requires PackPartial(fs[0].ty, attrs[fs[0].name], format, slot, nesting).out.Ok?
    requires PackFields(cls, fs[1..], attrs, format, slot, nesting).out.Ok?
    ensures PackFields(cls, fs, attrs, format, slot, nesting).out
            == Ok(PackPartial(fs[0].ty, attrs[fs[0].name], format, slot, nesting).out.value
                  + PackFields(cls, fs[1..], attrs, format, slot, nesting).out.value)
  {
  }

  /** Unpacking a non-empty field list: the first field, then the rest, into one map. */
  lemma UnpackFieldsCons(cls: string, fs: seq<Field>, buf: Bytes, pos: nat, format: Format, slot: TagSlot,
                         nesting: Nesting, x: Value, p: nat, m: map<string, Value>, q: nat)
    requires pos <= p <= |buf| && |fs| > 0
    requires UnpackPartial(fs[0].ty, buf, pos, format, slot, nesting).out == Ok((x, p))
    requires UnpackFields(cls, fs[1..], buf, p, format, slot, nesting).out == Ok((m, q))
    ensures UnpackFields(cls, fs, buf, pos, format, slot, nesting).out == Ok((map[fs[0].name := x] + m, q))
  {
  }

  /** A successful field loop packed its first field, then the others. */
  lemma PackFieldsUncons(cls: string, fs: seq<Field>, attrs: map<string, Value>, format: Format,
                         slot: TagSlot, nesting: Nesting)
    requires |fs| > 0 && PackFields(cls, fs, attrs, format, slot, nesting).out.Ok?
    ensures fs[0].name in attrs && PackPartial(fs[0].ty, attrs[fs[0].name], format, slot, nesting).out.Ok?
    ensures PackFields(cls, fs[1..], attrs, format, slot, nesting).out.Ok?
  {
  }

  /** Once the first field is packed, the loop goes on with the others. */
  lemma PackFieldsHeadOk(cls: string, fs: seq<Field>, attrs: map<string, Value>, format: Format,
                         slot: TagSlot, nesting: Nesting)
    requires |fs| > 0 && fs[0].name in attrs && PackPartial(fs[0].ty, attrs[fs[0].name], format, slot, nesting).out.Ok?
    ensures PackFields(cls, fs, attrs, format, slot, nesting).out
            == Prepend(PackPartial(fs[0].ty, attrs[fs[0].name], format, slot, nesting).out.value,
                       PackFields(cls, fs[1..], attrs, format, slot, nesting).out)
  {
  }

  /** A successful field loop read its first field, then the others from where it ends. */
  lemma UnpackFieldsUncons(cls: string, fs: seq<Field>, buf: Bytes, pos: nat, format: Format, slot: TagSlot,
                           nesting: Nesting, m: map<string, Value>, q: nat)
    requires pos <= |buf| && |fs| > 0
    requires UnpackFields(cls, fs, buf, pos, format, slot, nesting).out == Ok((m, q))
    ensures UnpackPartial(fs[0].ty, buf, pos, format, slot, nesting).out.Ok?
    ensures var h := UnpackPartial(fs[0].ty, buf, pos, format, slot, nesting).out.value;
            && UnpackFields(cls, fs[1..], buf, h.1, format, slot, nesting).out.Ok?
            && m == map[fs[0].name := h.0] + UnpackFields(cls, fs[1..], buf, h.1, format, slot, nesting).out.value.0
            && q == UnpackFields(cls, fs[1..], buf, h.1, format, slot, nesting).out.value.1
  {
  }

  /** Packing a field list is packing its two halves one after the other: each field's
      bytes in declared order, nothing in between. */
  lemma {:induction false} PackFieldsAppend(cls: string, fs1: seq<Field>, fs2: seq<Field>, attrs: map<string, Value>,
                                            format: Format, slot: TagSlot, nesting: Nesting)
    requires PackFields(cls, fs1, attrs, format, slot, nesting).out.Ok?
    requires PackFields(cls, fs2, attrs, format, slot, nesting).out.Ok?
    ensures PackFields(cls, fs1 + fs2, attrs, format, slot, nesting).out
            == Ok(PackFields(cls, fs1, attrs, format, slot, nesting).out.value
                  + PackFields(cls, fs2, attrs, format, slot, nesting).out.value)
    decreases |fs1|
  {
    if |fs1| == 0 {
      assert fs1 + fs2 == fs2;
      assert [] + PackFields(cls, fs2, attrs, format, slot, nesting).out.value
             == PackFields(cls, fs2, attrs, format, slot, nesting).out.value;
    } else {
      var f := fs1[0];
      assert (fs1 + fs2)[0] == f;
      assert (fs1 + fs2)[1..] == fs1[1..] + fs2;
      PackFieldsUncons(cls, fs1, attrs, format, slot, nesting);
      var h := PackPartial(f.ty, attrs[f.name], format, slot, nesting).out.value;
      PackFieldsAppend(cls, fs1[1..], fs2, attrs, format, slot, nesting);
      var a := PackFields(cls, fs1[1..], attrs, format, slot, nesting).out.value;
      var b := PackFields(cls, fs2, attrs, format, slot, nesting).out.value;
      PackFieldsCons(cls, fs1 + fs2, attrs, format, slot, nesting);
      assert h + (a + b) == (h + a) + b;
    }
  }

  /** Unpacking a field list is unpacking its two halves one after the other; on a
      repeated name the later field wins, as in the `values` dict of
      `dataclass_from_bytes_partial`. */
  lemma {:induction false} UnpackFieldsAppend(cls: string, fs1: seq<Field>, fs2: seq<Field>, buf: Bytes, pos: nat,
                                              format: Format, slot: TagSlot, nesting: Nesting,
                                              m1: map<string, Value>, q: nat, m2: map<string, Value>, r: nat)
    requires pos <= q <= |buf|
    requires UnpackFields(cls, fs1, buf, pos, format, slot, nesting).out == Ok((m1, q))
    requires UnpackFields(cls, fs2, buf, q, format, slot, nesting).out == Ok((m2, r))
    ensures UnpackFields(cls, fs1 + fs2, buf, pos, format, slot, nesting).out == Ok((m1 + m2, r))
    decreases |fs1|
  {
    if |fs1| == 0 {
      assert fs1 + fs2 == fs2;
      MapUnionAssoc(map[], map[], m2);
    } else {
      var f := fs1[0];
      assert (fs1 + fs2)[0] == f;
      assert (fs1 + fs2)[1..] == fs1[1..] + fs2;
      UnpackFieldsUncons(cls, fs1, buf, pos, format, slot, nesting, m1, q);
      var h := UnpackPartial(f.ty, buf, pos, format, slot, nesting).out.value;
      var t := UnpackFields(cls, fs1[1..], buf, h.1, format, slot, nesting).out.value;
      UnpackFieldsAppend(cls, fs1[1..], fs2, buf, h.1, format, slot, nesting, t.0, q, m2, r);
      UnpackFieldsCons(cls, fs1 + fs2, buf, pos, format, slot, nesting, h.0, h.1, t.0 + m2, r);
      MapUnionAssoc(map[f.name := h.0], t.0, m2);
    }
  }

  /** The first field that fails decides the error: a missing attribute or the field's
      own error, turned into a path error ending in that field and this class. */
  lemma {:induction false} PackFieldsFailsAt(cls: string, fs: seq<Field>, attrs: map<string, Value>, format: Format,
                                             slot: TagSlot, nesting: Nesting, i: nat)
    requires i < |fs|
    requires forall j :: 0 <= j < i ==>
               fs[j].name in attrs && PackPartial(fs[j].ty, attrs[fs[j].name], format, slot, nesting).out.Ok?
    ensures fs[i].name !in attrs ==>
              PackFields(cls, fs, attrs, format, slot, nesting).out
              == Err(WrapField(Fault(MissingAttribute(fs[i].name)), fs[i], cls, SERIALIZE_MSG))
    ensures fs[i].name in attrs && PackPartial(fs[i].ty, attrs[fs[i].name], format, slot, nesting).out.Err? ==>
              PackFields(cls, fs, attrs, format, slot, nesting).out
              == Err(WrapField(PackPartial(fs[i].ty, attrs[fs[i].name], format, slot, nesting).out.error, fs[i], cls, SERIALIZE_MSG))
    decreases i
  {
    var f := fs[i];
    if i == 0 {
      PackFieldsUnfold(cls, fs, attrs, format, slot, nesting);
    } else {
      var rest := fs[1..];
      assert forall j :: 0 <= j < i - 1 ==> rest[j] == fs[j + 1];
      assert rest[i - 1] == f;
      PackFieldsFailsAt(cls, rest, attrs, format, slot, nesting, i - 1);
      if f.name !in attrs {
        PackFieldsPassOn(cls, fs, attrs, format, slot, nesting, WrapField(Fault(MissingAttribute(f.name)), f, cls, SERIALIZE_MSG));
      } else if PackPartial(f.ty, attrs[f.name], format, slot, nesting).out.Err? {
        var e := PackPartial(f.ty, attrs[f.name], format, slot, nesting).out.error;
        PackFieldsPassOn(cls, fs, attrs, format, slot, nesting, WrapField(e, f, cls, SERIALIZE_MSG));
      }
    }
  }

  /** A field that packs passes on the error of a later field. */
  lemma PackFieldsPassOn(cls: string, fs: seq<Field>, attrs: map<string, Value>, format: Format,
                         slot: TagSlot, nesting: Nesting, e: Error)
    requires |fs| > 0 && fs[0].name in attrs && PackPartial(fs[0].ty, attrs[fs[0].name], format, slot, nesting).out.Ok?
    requires PackFields(cls, fs[1..], attrs, format, slot, nesting).out == Err(e)
    ensures PackFields(cls, fs, attrs, format, slot, nesting).out == Err(e)
  {
    PackFieldsHeadOk(cls, fs, attrs, format, slot, nesting);
  }


  /** One turn of the field loop: a missing attribute or a failing field stops it,
      otherwise the field's bytes come before the others'. */
  lemma PackFieldsUnfold(cls: string, fs: seq<Field>, attrs: map<string, Value>, format: Format,
                         slot: TagSlot, nesting: Nesting)
    requires |fs| > 0
    ensures var f := fs[0];
            PackFields(cls, fs, attrs, format, slot, nesting).out
            == if f.name !in attrs then Err(WrapField(Fault(MissingAttribute(f.name)), f, cls, SERIALIZE_MSG))
               else
                 var h := PackPartial(f.ty, attrs[f.name], format, slot, nesting).out;
                 if h.Err? then Err(WrapField(h.error, f, cls, SERIALIZE_MSG))
                 else Prepend(h.value, PackFields(cls, fs[1..], attrs, format, slot, nesting).out)
  {
  }

  /** The first field that fails to unpack decides the error, and no record is built. */
  lemma {:induction false} UnpackFieldsFailsAt(cls: string, fs: seq<Field>, buf: Bytes, pos: nat, format: Format,
                                               slot: TagSlot, nesting: Nesting, i: nat, ps: seq<nat>)
    requires i < |fs| && |ps| == i + 1 && ps[0] == pos && ps[i] <= |buf|
    requires forall j :: 0 <= j < i ==>
               ps[j] <= |buf| && UnpackPartial(fs[j].ty, buf, ps[j], format, slot, nesting).out.Ok?
               && UnpackPartial(fs[j].ty, buf, ps[j], format, slot, nesting).out.value.1 == ps[j + 1]
    requires UnpackPartial(fs[i].ty, buf, ps[i], format, slot, nesting).out.Err?
    ensures UnpackFields(cls, fs, buf, pos, format, slot, nesting).out
            == Err(WrapField(UnpackPartial(fs[i].ty, buf, ps[i], format, slot, nesting).out.error, fs[i], cls, DESERIALIZE_MSG))
    decreases i
  {
    var e := WrapField(UnpackPartial(fs[i].ty, buf, ps[i], format, slot, nesting).out.error, fs[i], cls, DESERIALIZE_MSG);
    if i > 0 {
      var rest := fs[1..];
      var qs := ps[1..];
      forall j | 0 <= j < i - 1
        ensures qs[j] <= |buf| && UnpackPartial(rest[j].ty, buf, qs[j], format, slot, nesting).out.Ok?
                && UnpackPartial(rest[j].ty, buf, qs[j], format, slot, nesting).out.value.1 == qs[j + 1]
      {
        assert rest[j] == fs[j + 1] && qs[j] == ps[j + 1] && qs[j + 1] == ps[j + 2];
      }
      UnpackFieldsFailsAt(cls, rest, buf, qs[0], format, slot, nesting, i - 1, qs);
      var g := rest[i - 1];
      var ge := UnpackPartial(g.ty, buf, qs[i - 1], format, slot, nesting).out.error;
      assert UnpackFields(cls, rest, buf, qs[0], format, slot, nesting).out == Err(WrapField(ge, g, cls, DESERIALIZE_MSG));
      assert g == fs[i] && qs[i - 1] == ps[i] && qs[0] == ps[1];
      var h := UnpackPartial(fs[0].ty, buf, ps[0], format, slot, nesting).out;
      assert h.Ok? && h.value.1 == ps[1];
      UnpackFieldsPassOn(cls, fs, buf, pos, format, slot, nesting, e);
    }
  }

  /** The record hook fails with the error of the first field that fails, and builds no record. */
  lemma UnpackRecordFailsAt(cls: string, fs: seq<Field>, buf: Bytes, pos: nat, format: Format,
                            slot: TagSlot, nesting: Nesting, i: nat, ps: seq<nat>)
    requires i < |fs| && |ps| == i + 1 && ps[0] == pos && ps[i] <= |buf|
    requires forall j :: 0 <= j < i ==>
               ps[j] <= |buf| && UnpackPartial(fs[j].ty, buf, ps[j], format, slot, nesting).out.Ok?
               && UnpackPartial(fs[j].ty, buf, ps[j], format, slot, nesting).out.value.1 == ps[j + 1]
    requires UnpackPartial(fs[i].ty, buf, ps[i], format, slot, nesting).out.Err?
    ensures UnpackStep(Record(cls, fs), buf, pos, format, slot, nesting).out
            == Err(WrapField(UnpackPartial(fs[i].ty, buf, ps[i], format, slot, nesting).out.error, fs[i], cls, DESERIALIZE_MSG))
  {
    UnpackFieldsFailsAt(cls, fs, buf, pos, format, slot, nesting, i, ps);
    var e := WrapField(UnpackPartial(fs[i].ty, buf, ps[i], format, slot, nesting).out.error, fs[i], cls, DESERIALIZE_MSG);
    UnpackRecordErr(cls, fs, buf, pos, format, slot, nesting, e);
  }

  /** A field that unpacks passes on the error of a later field. */
  lemma UnpackFieldsPassOn(cls: string, fs: seq<Field>, buf: Bytes, pos: nat, format: Format, slot: TagSlot,
                           nesting: Nesting, e: Error)
    requires pos <= |buf| && |fs| > 0
    requires UnpackPartial(fs[0].ty, buf, pos, format, slot, nesting).out.Ok?
    requires UnpackFields(cls, fs[1..], buf, UnpackPartial(fs[0].ty, buf, pos, format, slot, nesting).out.value.1,
                          format, slot, nesting).out == Err(e)
    ensures UnpackFields(cls, fs, buf, pos, format, slot, nesting).out == Err(e)
  {
  }

  /** The record hook fails with the field loop's error. */
  lemma UnpackRecordErr(cls: string, fs: seq<Field>, buf: Bytes, pos: nat, format: Format, slot: TagSlot,
                        nesting: Nesting, e: Error)
    requires pos <= |buf|
    requires UnpackFields(cls, fs, buf, pos, format, slot, nesting).out == Err(e)
    ensures UnpackStep(Record(cls, fs), buf, pos, format, slot, nesting).out == Err(e)
  {
  }

  /** The record is built only when every field has been read: the record hook succeeds
      exactly when the field loop does, with the declared fields as attributes. */
  lemma RecordAllOrNothing(name: string, fs: seq<Field>, buf: Bytes, pos: nat, format: Format, slot: TagSlot,
                           nesting: Nesting)
    requires pos <= |buf|
    ensures var r := UnpackStep(Record(name, fs), buf, pos, format, slot, nesting).out;
            var u := UnpackFields(name, fs, buf, pos, format, slot, nesting).out;
            && (r.Ok? <==> u.Ok?)
            && (r.Ok? ==> r.value == (Struct(name, u.value.0), u.value.1) && r.value.0.attrs.Keys == FieldNames(fs))
            && (r.Err? ==> && r.error == u.error && r.error.PathError?
                           && r.error.path[|r.error.path| - 1] == name
                           && r.error.path[|r.error.path| - 2] in FieldNames(fs))
  {
  }

  lemma MapUnionAssoc(a: map<string, Value>, b: map<string, Value>, c: map<string, Value>)
    ensures a + (b + c) == (a + b) + c
    ensures map[] + c == c
  {
  }
}

=== FILE: results.dfy ===
/** Option and Result, usable with `:-`. */
module Results {

  datatype Option<+T> = None | Some(value: T)

  datatype Result<+T, +E> = Ok(value: T) | Err(error: E) {
    predicate IsFailure() {
      Err?
    }

    function PropagateFailure<U>(): Result<U, E>
      requires Err?
    {
      Err(error)
    }

    function Extract(): T
      requires Ok?
    {
      value
    }
  }
}

=== FILE: roundtrip.dfy ===
/** Round trip of the bytes codec: unpacking what was packed gives the value back
    and leaves the cursor right after it, whatever bytes surround it. */
module RoundTrip {
  import opened Results
  import opened Atomics
  import opened Formats
  import opened Types
  import opened Errors
  import opened Codec
  import opened Sizes
  import opened Containers
  import opened Records

  /** The tag slot the hooks run under after negotiating `format`. */
  function EffectiveSlot(format: Format, slot: TagSlot): TagSlot
  {
    match Negotiate(format)
    case Install(tag) => Installed(tag)
    case _ => slot
  }

  /** The record fields `m` holds are those of `attrs`, with the same values. */
  predicate Agrees(m: map<string, Value>, attrs: map<string, Value>)
  {
    forall k :: k in m ==> k in attrs && m[k] == attrs[k]
  }

  /** A catalog call packs `v` and reads it back from inside any surrounding bytes,
      leaving the cursor right after it. */
  predicate PartialRoundTrips(t: Ty, v: Value, format: Format, slot: TagSlot, nesting: Nesting, pre: Bytes, post: Bytes)
  {
    var p := PackPartial(t, v, format, slot, nesting).out;
    && p.Ok?
    && UnpackPartial(t, pre + p.value + post, |pre|, format, slot, nesting).out == Ok((v, |pre| + |p.value|))
  }

  /** The same for a type's own hooks, run under an already negotiated tag slot. */
  predicate StepRoundTrips(t: Ty, v: Value, format: Format, slot: TagSlot, nesting: Nesting, pre: Bytes, post: Bytes)
  {
    var p := PackStep(t, v, format, slot, nesting).out;
    && p.Ok?
    && UnpackStep(t, pre + p.value + post, |pre|, format, slot, nesting).out == Ok((v, |pre| + |p.value|))
  }

  /** A record hook that packs to `p` and reads `p` back round-trips. */
  lemma RecordStepIntro(name: string, fs: seq<Field>, v: Value, format: Format, slot: TagSlot, nesting: Nesting,
                        pre: Bytes, p: Bytes, post: Bytes)
    requires PackStep(Record(name, fs), v, format, slot, nesting).out == Ok(p)
    requires UnpackStep(Record(name, fs), pre + p + post, |pre|, format, slot, nesting).out == Ok((v, |pre| + |p|))
    ensures StepRoundTrips(Record(name, fs), v, format, slot, nesting, pre, post)
  {
  }

  /** An array element, packed with the format the array hook passes on when packing,
      reads back with the format it passes on when unpacking. */
  predicate ElemRoundTrips(e: Ty, x: Value, format: Format, slot: TagSlot, nesting: Nesting, pre: Bytes, post: Bytes)
  {
    var p := PackPartial(e, x, ElemPackFormat(nesting, format), slot, nesting).out;
    && p.Ok?
    && UnpackPartial(e, pre + p.value + post, |pre|, ElemUnpackFormat(nesting, format), slot, nesting).out
       == Ok((x, |pre| + |p.value|))
  }

  /** The element loop reads back every element it wrote. */
  predicate ItemsRoundTrip(e: Ty, items: seq<Value>, format: Format, slot: TagSlot, nesting: Nesting,
                           pre: Bytes, post: Bytes)
  {
    var p := PackItems(e, items, ElemPackFormat(nesting, format), slot, nesting).out;
    && p.Ok?
    && UnpackItems(e, |items|, pre + p.value + post, |pre|, ElemUnpackFormat(nesting, format), slot, nesting).out
       == Ok((items, |pre| + |p.value|))
  }

  /** The field loop reads back a map holding the declared fields with the values written. */
  predicate FieldsRoundTrip(cls: string, fs: seq<Field>, attrs: map<string, Value>, format: Format,
                            slot: TagSlot, nesting: Nesting, pre: Bytes, post: Bytes)
  {
    var p := PackFields(cls, fs, attrs, format, slot, nesting).out;
    && p.Ok?
    && var u := UnpackFields(cls, fs, pre + p.value + post, |pre|, format, slot, nesting).out;
    && u.Ok? && u.value.1 == |pre| + |p.value| && Agrees(u.value.0, attrs)
  }

  // ---------------------------------------------------------------------------
  // Byte strings inside surrounding bytes
  // ---------------------------------------------------------------------------

  /** `x` sits right after `pre` in `pre + x + post`. */
  lemma SliceOfConcat(pre: Bytes, x: Bytes, post: Bytes)
    ensures (pre + x + post)[|pre|..|pre| + |x|] == x
  {
  }

  /** Two consecutive encodings inside surrounding bytes, grouped either way. */
  lemma Regroup(pre: Bytes, a: Bytes, b: Bytes, post: Bytes)
    ensures pre + (a + b) + post == pre + a + (b + post)
    ensures pre + (a + b) + post == (pre + a) + b + post
  {
  }

  /** A map that agrees with `attrs` and has the same keys is `attrs`. */
  lemma AgreesOnKeys(m: map<string, Value>, attrs: map<string, Value>)
    requires m.Keys == attrs.Keys && Agrees(m, attrs)
    ensures m == attrs
  {
  }

  /** Adding an entry taken from `attrs` keeps a map in agreement with `attrs`. */
  lemma AgreesCons(k: string, x: Value, m: map<string, Value>, attrs: map<string, Value>)
    requires k in attrs && attrs[k] == x && Agrees(m, attrs)
    ensures Agrees(map[k := x] + m, attrs)
  {
  }

  // ---------------------------------------------------------------------------
  // Atomic integers under any accepted format
  // ---------------------------------------------------------------------------

  /** Packing an atomic integer does not depend on the format (as long as it is accepted)
      nor on the tag slot. */
  lemma PackAtomicAnyFormat(w: nat, v: Value, format: Format, slot: TagSlot, nesting: Nesting)
    requires StepFormatOk(format)
    ensures PackPartial(Atomic(w), v, format, slot, nesting).out == PackAtomic(w, v)
  {
  }

  /** Unpacking an atomic integer does not depend on the format (AUTO included) nor on
      the tag slot. */
  lemma UnpackAtomicAnyFormat(w: nat, buf: Bytes, pos: nat, format: Format, slot: TagSlot, nesting: Nesting)
    requires pos <= |buf| && UnpackFormatOk(format)
    ensures UnpackPartial(Atomic(w), buf, pos, format, slot, nesting).out == UnpackAtomic(w, buf, pos)
  {
  }

  /** An atomic integer reads back from where it was written. */
  lemma RoundTripAtomic(w: nat, k: nat, buf: Bytes, pos: nat)
    requires k < Pow256(w)
    requires pos + w <= |buf| && buf[pos..pos + w] == EncodeLE(k, w)
    ensures PackAtomic(w, Int(k)) == Ok(EncodeLE(k, w))
    ensures UnpackAtomic(w, buf, pos) == Ok((Int(k), pos + w))
  {
    DecodeEncode(k, w);
  }

  // ---------------------------------------------------------------------------
  // Decoding a tag-free type ignores the format and the tag slot
  // ---------------------------------------------------------------------------

  /** A type without AutoTagType decodes identically whatever the format and tag slot,
      so AUTO's choice cannot go wrong for it. */
  lemma {:induction false} UnpackTagFree(t: Ty, buf: Bytes, pos: nat, f1: Format, s1: TagSlot,
                                         f2: Format, s2: TagSlot, nesting: Nesting)
    requires pos <= |buf| && TagFree(t)
    requires UnpackFormatOk(f1) && UnpackFormatOk(f2)
    ensures UnpackPartial(t, buf, pos, f1, s1, nesting).out == UnpackPartial(t, buf, pos, f2, s2, nesting).out
    decreases TySize(t), 2, 0
  {
    var c1 := if f1 == Auto then AutoFormat(t, |buf|) else f1;
    var c2 := if f2 == Auto then AutoFormat(t, |buf|) else f2;
    UnpackPartialUnfold(t, buf, pos, f1, s1, nesting);
    UnpackPartialUnfold(t, buf, pos, f2, s2, nesting);
    UnpackStepTagFree(t, buf, pos, c1, EffectiveSlot(c1, s1), c2, EffectiveSlot(c2, s2), nesting);
  }

  /** An accepted unpack format resolves to a concrete one, under which the hook runs
      with the negotiated tag slot. */
  lemma UnpackPartialUnfold(t: Ty, buf: Bytes, pos: nat, format: Format, slot: TagSlot, nesting: Nesting)
    requires pos <= |buf| && UnpackFormatOk(format)
    ensures var c := if format == Auto then AutoFormat(t, |buf|) else format;
            && StepFormatOk(c)
            && UnpackPartial(t, buf, pos, format, slot, nesting).out == UnpackStep(t, buf, pos, c, EffectiveSlot(c, slot), nesting).out
  {
  }

  lemma {:induction false} UnpackStepTagFree(t: Ty, buf: Bytes, pos: nat, f1: Format, s1: TagSlot,
                                             f2: Format, s2: TagSlot, nesting: Nesting)
    requires pos <= |buf| && TagFree(t)
    requires StepFormatOk(f1) && StepFormatOk(f2)
    ensures UnpackStep(t, buf, pos, f1, s1, nesting).out == UnpackStep(t, buf, pos, f2, s2, nesting).out
    decreases TySize(t), 1, 0
  {
    match t
    case Atomic(_) =>
    case Record(name, fs) => UnpackRecordTagFree(name, fs, buf, pos, f1, s1, f2, s2, nesting);
    case FixedArray(e, n) =>
      UnpackItemsTagFree(e, n, buf, pos, ElemUnpackFormat(nesting, f1), s1, ElemUnpackFormat(nesting, f2), s2, nesting);
    case FixedBytes(_) =>
    case FixedStr(_, _) =>
    case Vec(e, lw, max) => UnpackVecTagFree(e, lw, max, buf, pos, f1, s1, f2, s2, nesting);
    case VarBytes(lw, max) => UnpackRunTagFree(lw, max, buf, pos, f1, s1, f2, s2, nesting);
    case VarStr(lw, max) => UnpackRunTagFree(lw, max, buf, pos, f1, s1, f2, s2, nesting);
  }

  lemma UnpackCountTagFree(lw: nat, buf: Bytes, pos: nat, f1: Format, s1: TagSlot,
                           f2: Format, s2: TagSlot, nesting: Nesting)
    requires pos <= |buf| && UnpackFormatOk(f1) && UnpackFormatOk(f2)
    ensures UnpackCount(lw, buf, pos, f1, s1, nesting).out == UnpackCount(lw, buf, pos, f2, s2, nesting).out
  {
    UnpackAtomicAnyFormat(lw, buf, pos, f1, s1, nesting);
    UnpackAtomicAnyFormat(lw, buf, pos, f2, s2, nesting);
  }

  lemma UnpackLengthTagFree(lw: nat, max: nat, buf: Bytes, pos: nat, f1: Format, s1: TagSlot,
                            f2: Format, s2: TagSlot, nesting: Nesting)
    requires pos <= |buf| && StepFormatOk(f1) && StepFormatOk(f2)
    ensures UnpackLength(lw, max, buf, pos, f1, s1, nesting).out == UnpackLength(lw, max, buf, pos, f2, s2, nesting).out
  {
    UnpackCountTagFree(lw, buf, pos, ElemUnpackFormat(nesting, f1), s1, ElemUnpackFormat(nesting, f2), s2, nesting);
  }

  lemma UnpackRunTagFree(lw: nat, max: nat, buf: Bytes, pos: nat, f1: Format, s1: TagSlot,
                         f2: Format, s2: TagSlot, nesting: Nesting)
    requires pos <= |buf| && StepFormatOk(f1) && StepFormatOk(f2)
    ensures UnpackRun(lw, max, buf, pos, f1, s1, nesting).out == UnpackRun(lw, max, buf, pos, f2, s2, nesting).out
  {
    UnpackLengthTagFree(lw, max, buf, pos, f1, s1, f2, s2, nesting);
  }

  lemma {:induction false} UnpackRecordTagFree(cls: string, fs: seq<Field>, buf: Bytes, pos: nat,
                                               f1: Format, s1: TagSlot, f2: Format, s2: TagSlot, nesting: Nesting)
    requires pos <= |buf|
    requires forall i :: 0 <= i < |fs| ==> TagFree(fs[i].ty)
    requires StepFormatOk(f1) && StepFormatOk(f2)
    ensures UnpackRecord(cls, fs, buf, pos, f1, s1, nesting).out == UnpackRecord(cls, fs, buf, pos, f2, s2, nesting).out
    decreases 1 + FieldsSize(fs), 0, 0
  {
    UnpackFieldsTagFree(cls, fs, buf, pos, f1, s1, f2, s2, nesting);
  }

  lemma {:induction false} UnpackVecTagFree(e: Ty, lw: nat, max: nat, buf: Bytes, pos: nat, f1: Format, s1: TagSlot,
                                            f2: Format, s2: TagSlot, nesting: Nesting)
    requires pos <= |buf| && TagFree(e)
    requires StepFormatOk(f1) && StepFormatOk(f2)
    ensures UnpackVec(e, lw, max, buf, pos, f1, s1, nesting).out == UnpackVec(e, lw, max, buf, pos, f2, s2, nesting).out
    decreases 1 + TySize(e), 0, 0
  {
    UnpackLengthTagFree(lw, max, buf, pos, f1, s1, f2, s2, nesting);
    var c := UnpackLength(lw, max, buf, pos, f1, s1, nesting);
    if c.out.Ok? {
      UnpackItemsTagFree(e, c.out.value.0, buf, c.out.value.1,
                         ElemUnpackFormat(nesting, f1), s1, ElemUnpackFormat(nesting, f2), s2, nesting);
    }
    UnpackVecAgree(e, lw, max, buf, pos, f1, s1, f2, s2, nesting);
  }

  /** Two Vec hooks that agree on the count and on the elements agree. */
  lemma UnpackVecAgree(e: Ty, lw: nat, max: nat, buf: Bytes, pos: nat, f1: Format, s1: TagSlot,
                       f2: Format, s2: TagSlot, nesting: Nesting)
    requires pos <= |buf|
    requires UnpackLength(lw, max, buf, pos, f1, s1, nesting).out == UnpackLength(lw, max, buf, pos, f2, s2, nesting).out
    requires UnpackLength(lw, max, buf, pos, f1, s1, nesting).out.Ok? ==>
               var c := UnpackLength(lw, max, buf, pos, f1, s1, nesting).out.value;
               UnpackItems(e, c.0, buf, c.1, ElemUnpackFormat(nesting, f1), s1, nesting).out
               == UnpackItems(e, c.0, buf, c.1, ElemUnpackFormat(nesting, f2), s2, nesting).out
    ensures UnpackVec(e, lw, max, buf, pos, f1, s1, nesting).out == UnpackVec(e, lw, max, buf, pos, f2, s2, nesting).out
  {
  }

  lemma {:induction false} UnpackItemsTagFree(e: Ty, count: nat, buf: Bytes, pos: nat, f1: Format, s1: TagSlot,
                                              f2: Format, s2: TagSlot, nesting: Nesting)
    requires pos <= |buf| && TagFree(e)
    requires UnpackFormatOk(f1) && UnpackFormatOk(f2)
    ensures UnpackItems(e, count, buf, pos, f1, s1, nesting).out == UnpackItems(e, count, buf, pos, f2, s2, nesting).out
    decreases TySize(e), 3, count
  {
    if count > 0 {
      UnpackTagFree(e, buf, pos, f1, s1, f2, s2, nesting);
      var h1 := UnpackPartial(e, buf, pos, f1, s1, nesting);
      if h1.out.Ok? {
        UnpackItemsTagFree(e, count - 1, buf, h1.out.value.1, f1, s1, f2, s2, nesting);
      }
      UnpackItemsAgree(e, count, buf, pos, f1, s1, f2, s2, nesting);
    }
  }

  lemma {:induction false} UnpackFieldsTagFree(cls: string, fs: seq<Field>, buf: Bytes, pos: nat,
                                               f1: Format, s1: TagSlot, f2: Format, s2: TagSlot, nesting: Nesting)
    requires pos <= |buf|
    requires forall i :: 0 <= i < |fs| ==> TagFree(fs[i].ty)
    requires StepFormatOk(f1) && StepFormatOk(f2)
    ensures UnpackFields(cls, fs, buf, pos, f1, s1, nesting).out == UnpackFields(cls, fs, buf, pos, f2, s2, nesting).out
    decreases FieldsSize(fs), 3, 0
  {
    if |fs| > 0 {
      UnpackTagFree(fs[0].ty, buf, pos, f1, s1, f2, s2, nesting);
      var h := UnpackPartial(fs[0].ty, buf, pos, f1, s1, nesting);
      if h.out.Ok? {
        assert forall i :: 0 <= i < |fs[1..]| ==> fs[1..][i] == fs[i + 1];
        UnpackFieldsTagFree(cls, fs[1..], buf, h.out.value.1, f1, s1, f2, s2, nesting);
      }
      UnpackFieldsAgree(cls, fs, buf, pos, f1, s1, f2, s2, nesting);
    }
  }

  // ---------------------------------------------------------------------------
  // Encoding a tag-free type ignores the format and the tag slot
  // ---------------------------------------------------------------------------

  /** A type without AutoTagType packs to the same bytes, or fails the same way, under
      every accepted packing format and tag slot, pass-through with no tag type
      installed included. */
  lemma {:induction false} PackTagFree(t: Ty, v: Value, f1: Format, s1: TagSlot, f2: Format, s2: TagSlot,
                                       nesting: Nesting)
    requires TagFree(t) && StepFormatOk(f1) && StepFormatOk(f2)
    ensures PackPartial(t, v, f1, s1, nesting).out == PackPartial(t, v, f2, s2, nesting).out
    decreases TySize(t), 2, 0
  {
    PackPartialUnfold(t, v, f1, s1, nesting);
    PackPartialUnfold(t, v, f2, s2, nesting);
    PackStepTagFree(t, v, f1, EffectiveSlot(f1, s1), f2, EffectiveSlot(f2, s2), nesting);
  }

  /** A concrete packing format runs the hook under the negotiated tag slot. */
  lemma PackPartialUnfold(t: Ty, v: Value, format: Format, slot: TagSlot, nesting: Nesting)
    requires StepFormatOk(format)
    ensures PackPartial(t, v, format, slot, nesting).out == PackStep(t, v, format, EffectiveSlot(format, slot), nesting).out
  {
  }

  lemma {:induction false} PackStepTagFree(t: Ty, v: Value, f1: Format, s1: TagSlot, f2: Format, s2: TagSlot,
                                           nesting: Nesting)
    requires TagFree(t) && StepFormatOk(f1) && StepFormatOk(f2)
    ensures PackStep(t, v, f1, s1, nesting).out == PackStep(t, v, f2, s2, nesting).out
    decreases TySize(t), 1, 0
  {
    match t
    case Atomic(_) =>
    case Record(name, fs) => PackRecordTagFree(name, fs, v, f1, s1, f2, s2, nesting);
    case FixedArray(e, n) => PackFixedArrayTagFree(e, n, v, f1, s1, f2, s2, nesting);
    case FixedBytes(_) =>
    case FixedStr(_, _) =>
    case Vec(e, lw, max) => PackVecTagFree(e, lw, max, v, f1, s1, f2, s2, nesting);
    case VarBytes(lw, max) => PackRunTagFree(t, v, f1, s1, f2, s2, nesting);
    case VarStr(lw, max) => PackRunTagFree(t, v, f1, s1, f2, s2, nesting);
  }

  lemma {:induction false} PackRecordTagFree(name: string, fs: seq<Field>, v: Value, f1: Format, s1: TagSlot,
                                             f2: Format, s2: TagSlot, nesting: Nesting)
    requires TagFree(Record(name, fs)) && StepFormatOk(f1) && StepFormatOk(f2)
    ensures PackStep(Record(name, fs), v, f1, s1, nesting).out == PackStep(Record(name, fs), v, f2, s2, nesting).out
    decreases 1 + FieldsSize(fs), 0, 0
  {
    PackFieldsTagFree(name, fs, AttrsOf(v), f1, s1, f2, s2, nesting);
  }

  lemma {:induction false} PackFixedArrayTagFree(e: Ty, n: nat, v: Value, f1: Format, s1: TagSlot,
                                                 f2: Format, s2: TagSlot, nesting: Nesting)
    requires TagFree(e) && StepFormatOk(f1) && StepFormatOk(f2)
    ensures PackStep(FixedArray(e, n), v, f1, s1, nesting).out == PackStep(FixedArray(e, n), v, f2, s2, nesting).out
    decreases 1 + TySize(e), 0, 0
  {
    if Iterate(v).Some? {
      PackItemsTagFree(e, Iterate(v).value, ElemPackFormat(nesting, f1), s1, ElemPackFormat(nesting, f2), s2, nesting);
    }
  }

  lemma PackRunTagFree(t: Ty, v: Value, f1: Format, s1: TagSlot, f2: Format, s2: TagSlot, nesting: Nesting)
    requires (t.VarBytes? || t.VarStr?) && StepFormatOk(f1) && StepFormatOk(f2)
    ensures PackStep(t, v, f1, s1, nesting).out == PackStep(t, v, f2, s2, nesting).out
  {
    if Len(v).Some? {
      PackLengthTagFree(t.lengthWidth, t.maxLength, Len(v).value, f1, s1, f2, s2, nesting);
    }
  }

  /** The count prefix is packed the same under every accepted format and tag slot. */
  lemma PackLengthTagFree(lw: nat, max: nat, len: nat, f1: Format, s1: TagSlot, f2: Format, s2: TagSlot,
                          nesting: Nesting)
    requires StepFormatOk(f1) && StepFormatOk(f2)
    ensures PackLength(lw, max, len, f1, s1, nesting).out == PackLength(lw, max, len, f2, s2, nesting).out
  {
    PackAtomicAnyFormat(lw, Int(len), ElemPackFormat(nesting, f1), s1, nesting);
    PackAtomicAnyFormat(lw, Int(len), ElemPackFormat(nesting, f2), s2, nesting);
  }

  lemma {:induction false} PackVecTagFree(e: Ty, lw: nat, max: nat, v: Value, f1: Format, s1: TagSlot,
                                          f2: Format, s2: TagSlot, nesting: Nesting)
    requires TagFree(e) && StepFormatOk(f1) && StepFormatOk(f2)
    ensures PackStep(Vec(e, lw, max), v, f1, s1, nesting).out == PackStep(Vec(e, lw, max), v, f2, s2, nesting).out
    decreases 1 + TySize(e), 0, 0
  {
    if Iterate(v).Some? {
      var items := Iterate(v).value;
      PackLengthTagFree(lw, max, |items|, f1, s1, f2, s2, nesting);
      PackItemsTagFree(e, items, ElemPackFormat(nesting, f1), s1, ElemPackFormat(nesting, f2), s2, nesting);
      PackVecAgree(e, lw, max, items, v, f1, s1, f2, s2, nesting);
    }
  }

  /** Two Vec hooks that agree on the count and on the elements agree. */
  lemma PackVecAgree(e: Ty, lw: nat, max: nat, items: seq<Value>, v: Value, f1: Format, s1: TagSlot,
                     f2: Format, s2: TagSlot, nesting: Nesting)
    requires Iterate(v) == Some(items)
    requires PackLength(lw, max, |items|, f1, s1, nesting).out == PackLength(lw, max, |items|, f2, s2, nesting).out
    requires PackItems(e, items, ElemPackFormat(nesting, f1), s1, nesting).out
             == PackItems(e, items, ElemPackFormat(nesting, f2), s2, nesting).out
    ensures PackStep(Vec(e, lw, max), v, f1, s1, nesting).out == PackStep(Vec(e, lw, max), v, f2, s2, nesting).out
  {
  }

  lemma {:induction false} PackItemsTagFree(e: Ty, items: seq<Value>, f1: Format, s1: TagSlot,
                                            f2: Format, s2: TagSlot, nesting: Nesting)
    requires TagFree(e) && StepFormatOk(f1) && StepFormatOk(f2)
    ensures PackItems(e, items, f1, s1, nesting).out == PackItems(e, items, f2, s2, nesting).out
    decreases TySize(e), 3, |items|
  {
    if |items| > 0 {
      PackTagFree(e, items[0], f1, s1, f2, s2, nesting);
      PackItemsTagFree(e, items[1..], f1, s1, f2, s2, nesting);
      PackItemsAgree(e, items, f1, s1, f2, s2, nesting);
    }
  }

  /** Two element loops that agree on the first element and on the rest agree. */
  lemma PackItemsAgree(e: Ty, items: seq<Value>, f1: Format, s1: TagSlot, f2: Format, s2: TagSlot, nesting: Nesting)
    requires |items| > 0
    requires PackPartial(e, items[0], f1, s1, nesting).out == PackPartial(e, items[0], f2, s2, nesting).out
    requires PackItems(e, items[1..], f1, s1, nesting).out == PackItems(e, items[1..], f2, s2, nesting).out
    ensures PackItems(e, items, f1, s1, nesting).out == PackItems(e, items, f2, s2, nesting).out
  {
  }

  lemma {:induction false} PackFieldsTagFree(cls: string, fs: seq<Field>, attrs: map<string, Value>,
                                             f1: Format, s1: TagSlot, f2: Format, s2: TagSlot, nesting: Nesting)
    requires forall i :: 0 <= i < |fs| ==> TagFree(fs[i].ty)
    requires StepFormatOk(f1) && StepFormatOk(f2)
    ensures PackFields(cls, fs, attrs, f1, s1, nesting).out == PackFields(cls, fs, attrs, f2, s2, nesting).out
    decreases FieldsSize(fs), 3, 0
  {
    if |fs| > 0 {
      if fs[0].name in attrs {
        PackTagFree(fs[0].ty, attrs[fs[0].name], f1, s1, f2, s2, nesting);
      }
      assert forall i :: 0 <= i < |fs[1..]| ==> fs[1..][i] == fs[i + 1];
      PackFieldsTagFree(cls, fs[1..], attrs, f1, s1, f2, s2, nesting);
      PackFieldsAgree(cls, fs, attrs, f1, s1, f2, s2, nesting);
    }
  }

  /** Two field loops that agree on the first field and on the rest agree. */
  lemma PackFieldsAgree(cls: string, fs: seq<Field>, attrs: map<string, Value>,
                        f1: Format, s1: TagSlot, f2: Format, s2: TagSlot, nesting: Nesting)
    requires |fs| > 0
    requires fs[0].name in attrs ==>
               PackPartial(fs[0].ty, attrs[fs[0].name], f1, s1, nesting).out
               == PackPartial(fs[0].ty, attrs[fs[0].name], f2, s2, nesting).out
    requires PackFields(cls, fs[1..], attrs, f1, s1, nesting).out == PackFields(cls, fs[1..], attrs, f2, s2, nesting).out
    ensures PackFields(cls, fs, attrs, f1, s1, nesting).out == PackFields(cls, fs, attrs, f2, s2, nesting).out
  {
  }

  // ---------------------------------------------------------------------------
  // One step of the element and field loops
  // ---------------------------------------------------------------------------

  /** Two element loops that agree on the first element and on the rest agree. */
  lemma UnpackItemsAgree(e: Ty, count: nat, buf: Bytes, pos: nat, f1: Format, s1: TagSlot,
                         f2: Format, s2: TagSlot, nesting: Nesting)
    requires pos <= |buf| && count > 0
    requires UnpackPartial(e, buf, pos, f1, s1, nesting).out == UnpackPartial(e, buf, pos, f2, s2, nesting).out
    requires UnpackPartial(e, buf, pos, f1, s1, nesting).out.Ok? ==>
               var p := UnpackPartial(e, buf, pos, f1, s1, nesting).out.value.1;
               UnpackItems(e, count - 1, buf, p, f1, s1, nesting).out == UnpackItems(e, count - 1, buf, p, f2, s2, nesting).out
    ensures UnpackItems(e, count, buf, pos, f1, s1, nesting).out == UnpackItems(e, count, buf, pos, f2, s2, nesting).out
  {
  }

  /** Two field loops that agree on the first field and on the rest agree. */
  lemma UnpackFieldsAgree(cls: string, fs: seq<Field>, buf: Bytes, pos: nat,
                          f1: Format, s1: TagSlot, f2: Format, s2: TagSlot, nesting: Nesting)
    requires pos <= |buf| && |fs| > 0
    requires UnpackPartial(fs[0].ty, buf, pos, f1, s1, nesting).out == UnpackPartial(fs[0].ty, buf, pos, f2, s2, nesting).out
    requires UnpackPartial(fs[0].ty, buf, pos, f1, s1, nesting).out.Ok? ==>
               var p := UnpackPartial(fs[0].ty, buf, pos, f1, s1, nesting).out.value.1;
               UnpackFields(cls, fs[1..], buf, p, f1, s1, nesting).out == UnpackFields(cls, fs[1..], buf, p, f2, s2, nesting).out
    ensures UnpackFields(cls, fs, buf, pos, f1, s1, nesting).out == UnpackFields(cls, fs, buf, pos, f2, s2, nesting).out
  {
  }

  /** The Vec hook on success: the count's bytes, then the elements' bytes. */
  lemma PackVecOk(e: Ty, lw: nat, max: nat, v: Value, format: Format, slot: TagSlot, nesting: Nesting)
    requires v.List?
    requires PackLength(lw, max, |v.items|, format, slot, nesting).out.Ok?
    requires PackItems(e, v.items, ElemPackFormat(nesting, format), slot, nesting).out.Ok?
    ensures PackStep(Vec(e, lw, max), v, format, slot, nesting).out
            == Ok(PackLength(lw, max, |v.items|, format, slot, nesting).out.value
                  + PackItems(e, v.items, ElemPackFormat(nesting, format), slot, nesting).out.value)
  {
  }

  /** The Vec hook on success: the count, then that many elements. */
  lemma UnpackVecOk(e: Ty, lw: nat, max: nat, buf: Bytes, pos: nat, format: Format, slot: TagSlot,
                    nesting: Nesting, k: nat, q: nat, xs: seq<Value>, r: nat)
    requires pos <= q <= |buf|
    requires UnpackLength(lw, max, buf, pos, format, slot, nesting).out == Ok((k, q))
    requires UnpackItems(e, k, buf, q, ElemUnpackFormat(nesting, format), slot, nesting).out == Ok((xs, r))
    ensures UnpackStep(Vec(e, lw, max), buf, pos, format, slot, nesting).out == Ok((List(xs), r))
  {
  }

  /** The record hook packs the value's attributes field by field. */
  lemma PackRecordIsFields(name: string, fs: seq<Field>, v: Value, format: Format, slot: TagSlot, nesting: Nesting)
    requires v.Struct?
    ensures PackStep(Record(name, fs), v, format, slot, nesting).out == PackFields(name, fs, v.attrs, format, slot, nesting).out
  {
  }

  /** The record hook on success builds the record from the field map. */
  lemma UnpackRecordOk(name: string, fs: seq<Field>, buf: Bytes, pos: nat, format: Format, slot: TagSlot,
                       nesting: Nesting, m: map<string, Value>, q: nat)
    requires pos <= |buf|
    requires UnpackFields(name, fs, buf, pos, format, slot, nesting).out == Ok((m, q))
    ensures UnpackStep(Record(name, fs), buf, pos, format, slot, nesting).out == Ok((Struct(name, m), q))
  {
  }

  // ---------------------------------------------------------------------------
  // Round trip
  // ---------------------------------------------------------------------------

  /** Fixed-string autopad: trimming at the first zero byte undoes the zero padding of
      text that has no zero byte of its own. */
  lemma BeforeZeroOfPadded(cs: Bytes, n: nat)
    requires |cs| <= n
    requires forall i :: 0 <= i < |cs| ==> cs[i] != 0
    ensures BeforeZero(PadRight(cs, n)) == cs
  {
    var p := PadRight(cs, n);
    var r := BeforeZero(p);
    assert forall i :: 0 <= i < |cs| ==> p[i] == cs[i] != 0;
    assert |cs| < |p| ==> p[|cs|] == 0;
    assert |r| == |cs|;
    assert r == p[..|cs|] == cs;
  }

  /** Packing a legal value succeeds, and unpacking the bytes from the same place in
      any surrounding buffer yields the value and the position right after it. */
  lemma {:induction false} RoundTripPartial(t: Ty, v: Value, format: Format, slot: TagSlot, nesting: Nesting,
                                            pre: Bytes, post: Bytes)
    requires Legal(t, v) && PackFormatOk(format, slot)
    requires nesting == Forward || ElemsTagFree(t)
    ensures PartialRoundTrips(t, v, format, slot, nesting, pre, post)
    decreases TySize(t), 2, 0
  {
    RoundTripStep(t, v, format, EffectiveSlot(format, slot), nesting, pre, post);
    PartialFromStep(t, v, format, slot, nesting, pre, post);
  }

  /** A catalog call round-trips when its hook does under the negotiated tag slot. */
  lemma PartialFromStep(t: Ty, v: Value, format: Format, slot: TagSlot, nesting: Nesting, pre: Bytes, post: Bytes)
    requires PackFormatOk(format, slot)
    requires StepRoundTrips(t, v, format, EffectiveSlot(format, slot), nesting, pre, post)
    ensures PartialRoundTrips(t, v, format, slot, nesting, pre, post)
  {
  }

  lemma {:induction false} RoundTripStep(t: Ty, v: Value, format: Format, slot: TagSlot, nesting: Nesting,
                                         pre: Bytes, post: Bytes)
    requires Legal(t, v) && StepFormatOk(format) && slot.Installed?
    requires nesting == Forward || ElemsTagFree(t)
    ensures StepRoundTrips(t, v, format, slot, nesting, pre, post)
    decreases TySize(t), 1, 0
  {
    match t
    case Atomic(w) => RoundTripAtomicStep(w, v, format, slot, nesting, pre, post);
    case AutoTag =>
      Pow256Monotonic(1, slot.tag.Width());
      RoundTripAutoTag(v, format, slot, nesting, pre, post);
    case Record(name, fs) => RoundTripRecord(name, fs, v, format, slot, nesting, pre, post);
    case FixedArray(e, n) => RoundTripFixedArray(e, n, v, format, slot, nesting, pre, post);
    case FixedBytes(n) => RoundTripFixedBytes(n, v, format, slot, nesting, pre, post);
    case FixedStr(n, autopad) => RoundTripFixedStr(n, autopad, v, format, slot, nesting, pre, post);
    case Vec(e, lw, max) => RoundTripVec(e, lw, max, v, format, slot, nesting, pre, post);
    case VarBytes(lw, max) => RoundTripVarBytes(lw, max, v, format, slot, nesting, pre, post);
    case VarStr(lw, max) => RoundTripVarStr(lw, max, v, format, slot, nesting, pre, post);
  }

  lemma RoundTripAtomicStep(w: nat, v: Value, format: Format, slot: TagSlot, nesting: Nesting, pre: Bytes, post: Bytes)
    requires Legal(Atomic(w), v)
    ensures StepRoundTrips(Atomic(w), v, format, slot, nesting, pre, post)
  {
    var p := EncodeLE(v.n, w);
    SliceOfConcat(pre, p, post);
    RoundTripAtomic(w, v.n, pre + p + post, |pre|);
    assert v == Int(v.n);
  }

  lemma {:induction false} RoundTripAutoTag(v: Value, format: Format, slot: TagSlot, nesting: Nesting,
                                            pre: Bytes, post: Bytes)
    requires slot.Installed? && v.Int? && 0 <= v.n < Pow256(slot.tag.Width()) && StepFormatOk(format)
    requires nesting == Forward || ElemsTagFree(AutoTag)
    ensures StepRoundTrips(AutoTag, v, format, slot, nesting, pre, post)
    decreases TySize(AutoTag), 0, 0
  {
    RoundTripPartial(Atomic(slot.tag.Width()), v, format, slot, nesting, pre, post);
  }

  lemma RoundTripFixedBytes(n: nat, v: Value, format: Format, slot: TagSlot, nesting: Nesting, pre: Bytes, post: Bytes)
    requires Legal(FixedBytes(n), v)
    ensures PackStep(FixedBytes(n), v, format, slot, nesting).out == Ok(v.bytes)
    ensures StepRoundTrips(FixedBytes(n), v, format, slot, nesting, pre, post)
  {
    SliceOfConcat(pre, v.bytes, post);
  }

  lemma RoundTripFixedStr(n: nat, autopad: bool, v: Value, format: Format, slot: TagSlot, nesting: Nesting,
                          pre: Bytes, post: Bytes)
    requires Legal(FixedStr(n, autopad), v)
    ensures PackStep(FixedStr(n, autopad), v, format, slot, nesting).out == Ok(PadRight(v.chars, n))
    ensures StepRoundTrips(FixedStr(n, autopad), v, format, slot, nesting, pre, post)
  {
    var p := PadRight(v.chars, n);
    SliceOfConcat(pre, p, post);
    if autopad {
      BeforeZeroOfPadded(v.chars, n);
    } else {
      assert p == v.chars;
    }
  }

  /** The length prefix of a variable container reads back as the count that was written. */
  lemma RoundTripLength(lw: nat, max: nat, len: nat, format: Format, slot: TagSlot, nesting: Nesting,
                        buf: Bytes, pos: nat)
    requires len <= max && len < Pow256(lw) && StepFormatOk(format)
    requires pos + lw <= |buf| && buf[pos..pos + lw] == EncodeLE(len, lw)
    ensures PackLength(lw, max, len, format, slot, nesting).out == Ok(EncodeLE(len, lw))
    ensures UnpackLength(lw, max, buf, pos, format, slot, nesting).out == Ok((len, pos + lw))
  {
    PackAtomicAnyFormat(lw, Int(len), ElemPackFormat(nesting, format), slot, nesting);
    UnpackAtomicAnyFormat(lw, buf, pos, ElemUnpackFormat(nesting, format), slot, nesting);
    RoundTripAtomic(lw, len, buf, pos);
  }

  /** Bytes and Str: the count, then the bytes themselves. */
  lemma RoundTripRun(lw: nat, max: nat, bs: Bytes, format: Format, slot: TagSlot, nesting: Nesting,
                     pre: Bytes, post: Bytes)
    requires |bs| <= max && |bs| < Pow256(lw) && StepFormatOk(format)
    ensures PackLength(lw, max, |bs|, format, slot, nesting).out == Ok(EncodeLE(|bs|, lw))
    ensures UnpackRun(lw, max, pre + (EncodeLE(|bs|, lw) + bs) + post, |pre|, format, slot, nesting).out
            == Ok((bs, |pre| + lw + |bs|))
  {
    var cnt := EncodeLE(|bs|, lw);
    Regroup(pre, cnt, bs, post);
    SliceOfConcat(pre, cnt, bs + post);
    SliceOfConcat(pre + cnt, bs, post);
    RoundTripLength(lw, max, |bs|, format, slot, nesting, pre + (cnt + bs) + post, |pre|);
  }

  lemma RoundTripVarBytes(lw: nat, max: nat, v: Value, format: Format, slot: TagSlot, nesting: Nesting,
                          pre: Bytes, post: Bytes)
    requires Legal(VarBytes(lw, max), v) && StepFormatOk(format)
    ensures PackStep(VarBytes(lw, max), v, format, slot, nesting).out == Ok(EncodeLE(|v.bytes|, lw) + v.bytes)
    ensures StepRoundTrips(VarBytes(lw, max), v, format, slot, nesting, pre, post)
  {
    RoundTripRun(lw, max, v.bytes, format, slot, nesting, pre, post);
  }

  lemma RoundTripVarStr(lw: nat, max: nat, v: Value, format: Format, slot: TagSlot, nesting: Nesting,
                        pre: Bytes, post: Bytes)
    requires Legal(VarStr(lw, max), v) && StepFormatOk(format)
    ensures PackStep(VarStr(lw, max), v, format, slot, nesting).out == Ok(EncodeLE(|v.chars|, lw) + v.chars)
    ensures StepRoundTrips(VarStr(lw, max), v, format, slot, nesting, pre, post)
  {
    RoundTripRun(lw, max, v.chars, format, slot, nesting, pre, post);
  }

  /** Vec: the count, then each element. */
  lemma {:induction false} RoundTripVec(e: Ty, lw: nat, max: nat, v: Value, format: Format, slot: TagSlot,
                                        nesting: Nesting, pre: Bytes, post: Bytes)
    requires Legal(Vec(e, lw, max), v) && StepFormatOk(format) && slot.Installed?
    requires nesting == Forward || TagFree(e)
    ensures StepRoundTrips(Vec(e, lw, max), v, format, slot, nesting, pre, post)
    decreases TySize(Vec(e, lw, max)), 0, 0
  {
    RoundTripItems(e, v.items, format, slot, nesting, pre + EncodeLE(|v.items|, lw), post);
    VecFromItems(e, lw, max, v, format, slot, nesting, pre, post);
  }

  /** A Vec reads back once its element loop does, behind the count. */
  lemma VecFromItems(e: Ty, lw: nat, max: nat, v: Value, format: Format, slot: TagSlot,
                     nesting: Nesting, pre: Bytes, post: Bytes)
    requires v.List? && |v.items| <= max && |v.items| < Pow256(lw) && StepFormatOk(format) && slot.Installed?
    requires ItemsRoundTrip(e, v.items, format, slot, nesting, pre + EncodeLE(|v.items|, lw), post)
    ensures StepRoundTrips(Vec(e, lw, max), v, format, slot, nesting, pre, post)
  {
    var cnt := EncodeLE(|v.items|, lw);
    var body := PackItems(e, v.items, ElemPackFormat(nesting, format), slot, nesting).out.value;
    var buf := pre + (cnt + body) + post;
    Regroup(pre, cnt, body, post);
    SliceOfConcat(pre, cnt, body + post);
    RoundTripLength(lw, max, |v.items|, format, slot, nesting, buf, |pre|);
    PackVecOk(e, lw, max, v, format, slot, nesting);
    UnpackVecOk(e, lw, max, buf, |pre|, format, slot, nesting, |v.items|, |pre| + lw, v.items, |pre| + lw + |body|);
  }

  lemma {:induction false} RoundTripFixedArray(e: Ty, n: nat, v: Value, format: Format, slot: TagSlot,
                                               nesting: Nesting, pre: Bytes, post: Bytes)
    requires Legal(FixedArray(e, n), v) && StepFormatOk(format) && slot.Installed?
    requires nesting == Forward || TagFree(e)
    ensures StepRoundTrips(FixedArray(e, n), v, format, slot, nesting, pre, post)
    decreases TySize(FixedArray(e, n)), 0, 0
  {
    RoundTripItems(e, v.items, format, slot, nesting, pre, post);
  }

  /** One element, under the formats the array hooks pass on; with the containers' own
      defaults the element is written canonically and read back through AUTO. */
  lemma {:induction false} RoundTripElem(e: Ty, x: Value, format: Format, slot: TagSlot, nesting: Nesting,
                                         pre: Bytes, post: Bytes)
    requires Legal(e, x) && StepFormatOk(format) && slot.Installed?
    requires nesting == Forward || TagFree(e)
    ensures ElemRoundTrips(e, x, format, slot, nesting, pre, post)
    decreases TySize(e), 2, 1
  {
    var ef := ElemPackFormat(nesting, format);
    TagFreeElems(e);
    RoundTripPartial(e, x, ef, slot, nesting, pre, post);
    if nesting == Defaults {
      var p := PackPartial(e, x, ef, slot, nesting).out.value;
      UnpackTagFree(e, pre + p + post, |pre|, Auto, slot, ef, slot, nesting);
    }
  }

  lemma {:induction false} RoundTripItems(e: Ty, items: seq<Value>, format: Format, slot: TagSlot, nesting: Nesting,
                                          pre: Bytes, post: Bytes)
    requires forall i :: 0 <= i < |items| ==> Legal(e, items[i])
    requires StepFormatOk(format) && slot.Installed?
    requires nesting == Forward || TagFree(e)
    ensures ItemsRoundTrip(e, items, format, slot, nesting, pre, post)
    decreases TySize(e), 3, |items|
  {
    if |items| > 0 {
      var ef := ElemPackFormat(nesting, format);
      RoundTripElem(e, items[0], format, slot, nesting, [], []);
      var head := PackPartial(e, items[0], ef, slot, nesting).out.value;
      RoundTripItems(e, items[1..], format, slot, nesting, pre + head, post);
      var rest := PackItems(e, items[1..], ef, slot, nesting).out.value;
      RoundTripElem(e, items[0], format, slot, nesting, pre, rest + post);
      ItemsRoundTripCons(e, items, format, slot, nesting, pre, post);
    }
  }

  /** The inductive step of the element loop, apart from the elements' legality. */
  lemma ItemsRoundTripCons(e: Ty, items: seq<Value>, format: Format, slot: TagSlot, nesting: Nesting,
                           pre: Bytes, post: Bytes)
    requires |items| > 0
    requires ElemRoundTrips(e, items[0], format, slot, nesting, [], [])
    requires ItemsRoundTrip(e, items[1..], format, slot, nesting,
                            pre + PackPartial(e, items[0], ElemPackFormat(nesting, format), slot, nesting).out.value, post)
    requires ElemRoundTrips(e, items[0], format, slot, nesting,
                            pre, PackItems(e, items[1..], ElemPackFormat(nesting, format), slot, nesting).out.value + post)
    ensures ItemsRoundTrip(e, items, format, slot, nesting, pre, post)
  {
    var ef := ElemPackFormat(nesting, format);
    var eu := ElemUnpackFormat(nesting, format);
    var head := PackPartial(e, items[0], ef, slot, nesting).out.value;
    var rest := PackItems(e, items[1..], ef, slot, nesting).out.value;
    var buf := pre + (head + rest) + post;
    Regroup(pre, head, rest, post);
    assert UnpackPartial(e, buf, |pre|, eu, slot, nesting).out == Ok((items[0], |pre| + |head|));
    var u := UnpackItems(e, |items| - 1, buf, |pre| + |head|, eu, slot, nesting).out;
    assert u == Ok((items[1..], |pre| + |head| + |rest|));
    PackItemsCons(e, items, ef, slot, nesting);
    UnpackItemsCons(e, |items|, buf, |pre|, eu, slot, nesting, items[0], |pre| + |head|, items[1..], u.value.1);
    assert [items[0]] + items[1..] == items;
  }

  /** A record: its declared fields, each read back into the name-to-value map. */
  lemma {:induction false} RoundTripRecord(name: string, fs: seq<Field>, v: Value, format: Format, slot: TagSlot,
                                           nesting: Nesting, pre: Bytes, post: Bytes)
    requires Legal(Record(name, fs), v) && StepFormatOk(format) && slot.Installed?
    requires nesting == Forward || forall i :: 0 <= i < |fs| ==> ElemsTagFree(fs[i].ty)
    ensures StepRoundTrips(Record(name, fs), v, format, slot, nesting, pre, post)
    decreases TySize(Record(name, fs)), 0, 0
  {
    RoundTripFields(name, fs, v.attrs, format, slot, nesting, pre, post);
    RecordFromFields(name, fs, v, format, slot, nesting, pre, post);
  }

  /** A record reads back once its field loop does: the map read back agrees with the
      record's attributes on exactly the declared fields, so it is those attributes. */
  lemma RecordFromFields(name: string, fs: seq<Field>, v: Value, format: Format, slot: TagSlot,
                         nesting: Nesting, pre: Bytes, post: Bytes)
    requires v.Struct? && v.cls == name && v.attrs.Keys == FieldNames(fs)
    requires FieldsRoundTrip(name, fs, v.attrs, format, slot, nesting, pre, post)
    ensures StepRoundTrips(Record(name, fs), v, format, slot, nesting, pre, post)
  {
    PackRecordIsFields(name, fs, v, format, slot, nesting);
    var p := PackFields(name, fs, v.attrs, format, slot, nesting).out.value;
    var buf := pre + p + post;
    var u := UnpackFields(name, fs, buf, |pre|, format, slot, nesting).out;
    assert u.Ok? && u.value.1 == |pre| + |p| && Agrees(u.value.0, v.attrs);
    AgreesOnKeys(u.value.0, v.attrs);
    UnpackRecordOk(name, fs, buf, |pre|, format, slot, nesting, v.attrs, |pre| + |p|);
    assert v == Struct(name, v.attrs);
    assert PackStep(Record(name, fs), v, format, slot, nesting).out == Ok(p);
    assert UnpackStep(Record(name, fs), buf, |pre|, format, slot, nesting).out == Ok((v, |pre| + |p|));
    RecordStepIntro(name, fs, v, format, slot, nesting, pre, p, post);
  }

  lemma {:induction false} RoundTripFields(cls: string, fs: seq<Field>, attrs: map<string, Value>, format: Format,
                                           slot: TagSlot, nesting: Nesting, pre: Bytes, post: Bytes)
    requires forall i :: 0 <= i < |fs| ==> fs[i].name in attrs && Legal(fs[i].ty, attrs[fs[i].name])
    requires nesting == Forward || forall i :: 0 <= i < |fs| ==> ElemsTagFree(fs[i].ty)
    requires StepFormatOk(format) && slot.Installed?
    ensures FieldsRoundTrip(cls, fs, attrs, format, slot, nesting, pre, post)
    decreases FieldsSize(fs), 3, 0
  {
    if |fs| > 0 {
      var f := fs[0];
      assert forall i :: 0 <= i < |fs[1..]| ==> fs[1..][i] == fs[i + 1];
      RoundTripPartial(f.ty, attrs[f.name], format, slot, nesting, [], []);
      var head := PackPartial(f.ty, attrs[f.name], format, slot, nesting).out.value;
      RoundTripFields(cls, fs[1..], attrs, format, slot, nesting, pre + head, post);
      var rest := PackFields(cls, fs[1..], attrs, format, slot, nesting).out.value;
      RoundTripPartial(f.ty, attrs[f.name], format, slot, nesting, pre, rest + post);
      FieldsRoundTripCons(cls, fs, attrs, format, slot, nesting, pre, post);
    }
  }

  /** The inductive step of the field loop, apart from the fields' legality. */
  lemma FieldsRoundTripCons(cls: string, fs: seq<Field>, attrs: map<string, Value>, format: Format,
                            slot: TagSlot, nesting: Nesting, pre: Bytes, post: Bytes)
    requires |fs| > 0 && fs[0].name in attrs
    requires PartialRoundTrips(fs[0].ty, attrs[fs[0].name], format, slot, nesting, [], [])
    requires FieldsRoundTrip(cls, fs[1..], attrs, format, slot, nesting,
                             pre + PackPartial(fs[0].ty, attrs[fs[0].name], format, slot, nesting).out.value, post)
    requires PartialRoundTrips(fs[0].ty, attrs[fs[0].name], format, slot, nesting,
                               pre, PackFields(cls, fs[1..], attrs, format, slot, nesting).out.value + post)
    ensures FieldsRoundTrip(cls, fs, attrs, format, slot, nesting, pre, post)
  {
    var x := attrs[fs[0].name];
    var head := PackPartial(fs[0].ty, x, format, slot, nesting).out.value;
    var rest := PackFields(cls, fs[1..], attrs, format, slot, nesting).out.value;
    var buf := pre + (head + rest) + post;
    Regroup(pre, head, rest, post);
    assert UnpackPartial(fs[0].ty, buf, |pre|, format, slot, nesting).out == Ok((x, |pre| + |head|));
    var u := UnpackFields(cls, fs[1..], buf, |pre| + |head|, format, slot, nesting).out;
    assert u.Ok? && u.value.1 == |pre| + |head| + |rest| && Agrees(u.value.0, attrs);
    PackFieldsCons(cls, fs, attrs, format, slot, nesting);
    UnpackFieldsCons(cls, fs, buf, |pre|, format, slot, nesting, x, |pre| + |head|, u.value.0, u.value.1);
    AgreesCons(fs[0].name, x, u.value.0, attrs);
  }

  // ---------------------------------------------------------------------------
  // Top-level statements
  // ---------------------------------------------------------------------------

  /** `unpack(T, pack(T, v, f), f) == v` for canonical, zero-copy and pass-through,
      and a checked unpack accepts the bytes because they are all consumed. */
  lemma PackUnpackRoundTrip(t: Ty, v: Value, format: Format, slot: TagSlot, checked: bool)
    requires Legal(t, v) && PackFormatOk(format, slot)
    ensures Pack(t, v, format, slot).out.Ok?
    ensures Unpack(t, Pack(t, v, format, slot).out.value, checked, format, slot).out == Ok(v)
  {
    var p := Pack(t, v, format, slot).out;
    RoundTripPartial(t, v, format, slot, Forward, [], []);
    assert [] + p.value + [] == p.value;
  }

  /** A bare AutoTagType round-trips every value of the tag type the call installs:
      below 256 canonically, below 2**64 zero-copy, and under pass-through whatever
      the installed tag type holds. */
  lemma TagRoundTrip(v: Value, format: Format, slot: TagSlot, checked: bool)
    requires PackFormatOk(format, slot)
    requires v.Int? && 0 <= v.n < Pow256(EffectiveSlot(format, slot).tag.Width())
    ensures Pack(AutoTag, v, format, slot).out.Ok?
    ensures Unpack(AutoTag, Pack(AutoTag, v, format, slot).out.value, checked, format, slot).out == Ok(v)
  {
    var p := Pack(AutoTag, v, format, slot).out;
    RoundTripAutoTag(v, format, EffectiveSlot(format, slot), Forward, [], []);
    PartialFromStep(AutoTag, v, format, slot, Forward, [], []);
    assert [] + p.value + [] == p.value;
  }

  /** AUTO decoding of anything packed canonically or zero-copy, for types without
      AutoTagType (which includes every static type). */
  lemma AutoRoundTrip(t: Ty, v: Value, format: Format, slot: TagSlot, checked: bool)
    requires Legal(t, v) && PackFormatOk(format, slot) && TagFree(t)
    ensures Pack(t, v, format, slot).out.Ok?
    ensures Unpack(t, Pack(t, v, format, slot).out.value, checked, Auto, slot).out == Ok(v)
  {
    var p := Pack(t, v, format, slot).out;
    RoundTripPartial(t, v, format, slot, Forward, [], []);
    assert [] + p.value + [] == p.value;
    UnpackTagFree(t, p.value, 0, Auto, slot, format, slot, Forward);
  }

  /** A static type round-trips through AUTO detection from either layout. */
  lemma StaticAutoRoundTrip(t: Ty, v: Value, format: Format, slot: TagSlot)
    requires Legal(t, v) && IsStatic(t) && (format == Borsch || format == ZeroCopy)
    ensures Pack(t, v, format, slot).out.Ok?
    ensures Unpack(t, Pack(t, v, format, slot).out.value, false, Auto, slot).out == Ok(v)
  {
    StaticIsTagFree(t);
    AutoRoundTrip(t, v, format, slot, false);
  }

  /** Checked unpack refuses input with bytes left after the value; unchecked unpack
      of the same input succeeds. */
  lemma CheckedRejectsTrailing(t: Ty, v: Value, format: Format, slot: TagSlot, garbage: Bytes)
    requires Legal(t, v) && PackFormatOk(format, slot) && |garbage| > 0
    ensures Pack(t, v, format, slot).out.Ok?
    ensures var raw := Pack(t, v, format, slot).out.value + garbage;
            && Unpack(t, raw, true, format, slot).out == Err(Fault(UnusedBytes))
            && Unpack(t, raw, false, format, slot).out == Ok(v)
  {
    var p := Pack(t, v, format, slot).out;
    RoundTripPartial(t, v, format, slot, Forward, [], garbage);
    assert [] + p.value + garbage == p.value + garbage;
  }

  /** A type without AutoTagType round-trips from every accepted packing format to
      every accepted unpacking format: this covers a top-level pass-through pack and
      unpack with no tag type installed, and AUTO decoding of a pass-through encoding. */
  lemma TagFreeRoundTrip(t: Ty, v: Value, packFormat: Format, unpackFormat: Format, slot: TagSlot, checked: bool)
    requires Legal(t, v) && TagFree(t) && StepFormatOk(packFormat) && UnpackFormatOk(unpackFormat)
    ensures Pack(t, v, packFormat, slot).out.Ok?
    ensures Unpack(t, Pack(t, v, packFormat, slot).out.value, checked, unpackFormat, slot).out == Ok(v)
  {
    PackTagFree(t, v, packFormat, slot, Borsch, slot, Forward);
    PackUnpackRoundTrip(t, v, Borsch, slot, checked);
    UnpackTagFree(t, Pack(t, v, Borsch, slot).out.value, 0, unpackFormat, slot, Borsch, slot, Forward);
  }

  /** `unpack(T, pack(T, v, FORMAT_PASS), FORMAT_PASS) == v` at top level, where no tag
      type is installed, for every type without AutoTagType. */
  lemma PassRoundTrip(t: Ty, v: Value, checked: bool)
    requires Legal(t, v) && TagFree(t)
    ensures Pack(t, v, Pass, Unset).out.Ok?
    ensures Unpack(t, Pack(t, v, Pass, Unset).out.value, checked, Pass, Unset).out == Ok(v)
  {
    TagFreeRoundTrip(t, v, Pass, Pass, Unset, checked);
  }

  /** Trailing input after a value of a type without AutoTagType is refused by a checked
      unpack and ignored by an unchecked one, whatever the packing and unpacking formats,
      unpack's default AUTO included. */
  lemma CheckedRejectsTrailingAnyFormat(t: Ty, v: Value, packFormat: Format, unpackFormat: Format, slot: TagSlot,
                                        garbage: Bytes)
    requires Legal(t, v) && TagFree(t) && StepFormatOk(packFormat) && UnpackFormatOk(unpackFormat)
    requires |garbage| > 0
    ensures Pack(t, v, packFormat, slot).out.Ok?
    ensures var raw := Pack(t, v, packFormat, slot).out.value + garbage;
            && Unpack(t, raw, true, unpackFormat, slot).out == Err(Fault(UnusedBytes))
            && Unpack(t, raw, false, unpackFormat, slot).out == Ok(v)
  {
    PackTagFree(t, v, packFormat, slot, Borsch, slot, Forward);
    CheckedRejectsTrailing(t, v, Borsch, slot, garbage);
    UnpackTagFree(t, Pack(t, v, Borsch, slot).out.value + garbage, 0, unpackFormat, slot, Borsch, slot, Forward);
  }

  /** With the array hooks' own default formats (canonical out, AUTO in), values whose
      array element types carry no AutoTagType still round-trip through the top-level
      pack and unpack as written. */
  lemma DefaultsRoundTrip(t: Ty, v: Value, format: Format, slot: TagSlot, checked: bool)
    requires Legal(t, v) && PackFormatOk(format, slot) && ElemsTagFree(t)
    ensures PackAsWritten(t, v, format, slot).out.Ok?
    ensures UnpackAsWritten(t, PackAsWritten(t, v, format, slot).out.value, checked, format, slot).out == Ok(v)
  {
    var p := PackPartial(t, v, format, slot, Defaults).out;
    RoundTripPartial(t, v, format, slot, Defaults, [], []);
    assert [] + p.value + [] == p.value;
  }
}

=== FILE: scenarios.dfy ===
/** Concrete instances of the codec: the record of the integration test, the string
    padding rules, a nested error path, and the two defects of the container hooks. */
module Scenarios {
  import opened Results
  import opened Atomics
  import opened Formats
  import opened Types
  import opened Errors
  import opened Codec
  import opened Containers
  import opened Records
  import opened RoundTrip
  import opened PackSizes

  const UINT8: Ty := Atomic(1)

  /** `MyStruct` of tests/test_integration.py: a U8 and a `Str`.  The test writes `Str`
      bare, which is the `_GetitemToCall` wrapper itself rather than a class it built;
      it is read here as the string type with default arguments, `Str[()]`. */
  const MY_STRUCT: Ty := Record("MyStruct", [Field("a_builtin", UINT8), Field("a_string", StrOf(None, None))])

  /** "hi" as its encoded bytes. */
  const HI: Bytes := [104, 105]

  function MyStructValue(n: int, s: Bytes): Value
  {
    Struct("MyStruct", map["a_builtin" := Int(n), "a_string" := Text(s)])
  }

  /** `MyStruct(8, "hi")` packs canonically to the U8, a four-byte length 2 and the two
      bytes of the text, and `from_bytes` (AUTO, unchecked) gives it back. */
  lemma MyStructRoundTrip(slot: TagSlot)
    ensures Pack(MY_STRUCT, MyStructValue(8, HI), DEFAULT_PACK_FORMAT, slot).out == Ok([8, 2, 0, 0, 0, 104, 105])
    ensures Unpack(MY_STRUCT, [8, 2, 0, 0, 0, 104, 105], false, DEFAULT_UNPACK_FORMAT, slot).out
            == Ok(MyStructValue(8, HI))
  {
    MyStructPacks(slot);
    MyStructLegal();
    AutoRoundTrip(MY_STRUCT, MyStructValue(8, HI), DEFAULT_PACK_FORMAT, slot, false);
  }

  lemma MyStructLegal()
    ensures Legal(MY_STRUCT, MyStructValue(8, HI)) && TagFree(MY_STRUCT)
  {
    var fs := MY_STRUCT.fields;
    assert StrOf(None, None) == VarStr(4, 16);
    TwoFieldNames(fs[0], fs[1]);
  }

  /** The `Str` field: the length 2 on four bytes, then the text. */
  lemma HiPacks(slot: TagSlot)
    ensures PackPartial(StrOf(None, None), Text(HI), Borsch, slot, Forward).out == Ok([2, 0, 0, 0] + HI)
  {
    var str := StrOf(None, None);
    assert str == VarStr(4, 16);
    PackVariableLayout(str, Text(HI), Borsch, Installed(U8), Forward);
    SmallCount(2);
    CanonicalPack(str, Text(HI), slot, Forward);
  }

  /** A U8 packs canonically to its one byte. */
  lemma ByteIntPacks(k: Byte, slot: TagSlot, nesting: Nesting)
    ensures PackPartial(UINT8, Int(k), Borsch, slot, nesting).out == Ok([k])
  {
    CanonicalPack(UINT8, Int(k), slot, nesting);
    assert EncodeLE(k, 1) == [k];
  }

  /** A count below 256 on the four bytes of U32. */
  lemma SmallCount(k: Byte)
    ensures EncodeLE(k, 4) == [k, 0, 0, 0]
  {
    assert EncodeLE(0, 1) == [0] + EncodeLE(0, 0);
    assert EncodeLE(0, 2) == [0] + EncodeLE(0, 1);
    assert EncodeLE(0, 3) == [0] + EncodeLE(0, 2);
    assert EncodeLE(k, 4) == [k] + EncodeLE(0, 3);
  }

  /** Integers as values. */
  function Ints(ks: seq<Byte>): (vs: seq<Value>)
    ensures |vs| == |ks| && forall i :: 0 <= i < |ks| ==> vs[i] == Int(ks[i])
  {
    seq(|ks|, i requires 0 <= i < |ks| => Int(ks[i]))
  }

  /** Elements that each pack to their own one byte pack, as a list, to those bytes. */
  lemma {:induction false} ByteItemsPack(e: Ty, ks: seq<Byte>, format: Format, slot: TagSlot, nesting: Nesting)
    requires forall k: Byte :: PackPartial(e, Int(k), format, slot, nesting).out == Ok([k])
    ensures PackItems(e, Ints(ks), format, slot, nesting).out == Ok(ks)
    decreases |ks|
  {
    if |ks| > 0 {
      var vs := Ints(ks);
      assert vs[1..] == Ints(ks[1..]);
      ByteItemsPack(e, ks[1..], format, slot, nesting);
      assert PackPartial(e, vs[0], format, slot, nesting).out == Ok([ks[0]]);
      PackItemsCons(e, vs, format, slot, nesting);
      assert [ks[0]] + ks[1..] == ks;
    }
  }

  /** A canonical pack of a record of two fields writes the first field, then the second. */
  lemma TwoFieldPack(cls: string, a: Field, b: Field, attrs: map<string, Value>, slot: TagSlot, pa: Bytes, pb: Bytes)
    requires a.name in attrs && b.name in attrs
    requires PackPartial(a.ty, attrs[a.name], Borsch, Installed(U8), Forward).out == Ok(pa)
    requires PackPartial(b.ty, attrs[b.name], Borsch, Installed(U8), Forward).out == Ok(pb)
    ensures Pack(Record(cls, [a, b]), Struct(cls, attrs), Borsch, slot).out == Ok(pa + pb)
  {
    var s8 := Installed(U8);
    var fs := [a, b];
    var rest := fs[1..];
    assert rest == [b] && rest[1..] == [];
    assert PackFields(cls, [], attrs, Borsch, s8, Forward).out == Ok([]);
    PackFieldsCons(cls, rest, attrs, Borsch, s8, Forward);
    assert pb + [] == pb;
    PackFieldsCons(cls, fs, attrs, Borsch, s8, Forward);
    CanonicalPack(Record(cls, fs), Struct(cls, attrs), slot, Forward);
  }

  lemma MyStructPacks(slot: TagSlot)
    ensures Pack(MY_STRUCT, MyStructValue(8, HI), Borsch, slot).out == Ok([8, 2, 0, 0, 0, 104, 105])
  {
    var v := MyStructValue(8, HI);
    var fs := MY_STRUCT.fields;
    HiPacks(Installed(U8));
    ByteIntPacks(8, Installed(U8), Forward);
    assert v.attrs["a_builtin"] == Int(8) && v.attrs["a_string"] == Text(HI);
    TwoFieldPack("MyStruct", fs[0], fs[1], v.attrs, slot, [8], [2, 0, 0, 0] + HI);
    assert [8] + ([2, 0, 0, 0] + HI) == [8, 2, 0, 0, 0, 104, 105];
  }

  lemma TwoFieldNames(a: Field, b: Field)
    ensures FieldNames([a, b]) == {a.name, b.name}
  {
    assert [a, b][1..] == [b];
    assert [b][1..] == [];
    assert FieldNames([b]) == {b.name} + FieldNames([]);
  }

  /** A canonical pack runs the type's hook with the U8 tag installed. */
  lemma CanonicalPack(t: Ty, v: Value, slot: TagSlot, nesting: Nesting)
    ensures PackPartial(t, v, Borsch, slot, nesting).out == PackStep(t, v, Borsch, Installed(U8), nesting).out
  {
  }

  /** What the hook packs under U8 tags is what a Borsch-format call packs. */
  lemma CanonicalPackOk(t: Ty, v: Value, slot: TagSlot, bs: Bytes)
    requires PackStep(t, v, Borsch, Installed(U8), Forward).out == Ok(bs)
    ensures PackPartial(t, v, Borsch, slot, Forward).out == Ok(bs)
  {
    CanonicalPack(t, v, slot, Forward);
  }

  const R: Ty := Record("R", [Field("a", UINT8), Field("b", VecOf(UINT8, None, None))])

  function RValue(): Value
  {
    Struct("R", map["a" := Int(5), "b" := List(Ints([1, 2, 3]))])
  }

  /** `Vec[U8]` of 1, 2, 3: the count on four bytes, then the three bytes. */
  lemma SmallVecPacks(slot: TagSlot)
    ensures PackPartial(VecOf(UINT8, None, None), List(Ints([1, 2, 3])), Borsch, slot, Forward).out
            == Ok([3, 0, 0, 0, 1, 2, 3])
  {
    var t := VecOf(UINT8, None, None);
    var s8 := Installed(U8);
    assert t == Vec(UINT8, 4, 16);
    forall k: Byte
      ensures PackPartial(UINT8, Int(k), Borsch, s8, Forward).out == Ok([k])
    {
      ByteIntPacks(k, s8, Forward);
    }
    ByteItemsPack(UINT8, [1, 2, 3], Borsch, s8, Forward);
    assert Iterate(List(Ints([1, 2, 3]))) == Some(Ints([1, 2, 3])) && Len(List(Ints([1, 2, 3]))) == Some(3);
    assert PackItems(UINT8, Ints([1, 2, 3]), Borsch, s8, Forward).out == Ok([1, 2, 3]);
    PackVariableLayout(t, List(Ints([1, 2, 3])), Borsch, s8, Forward);
    SmallCount(3);
    assert [3, 0, 0, 0] + [1, 2, 3] == [3, 0, 0, 0, 1, 2, 3];
    CanonicalPackOk(t, List(Ints([1, 2, 3])), slot, [3, 0, 0, 0, 1, 2, 3]);
  }

  /** A record of a U8 and a `Vec[U8]`: the fields follow each other with nothing
      between them, the vector as its count and then its elements.  Checked unpack
      gives the record back, and refuses a trailing byte. */
  lemma RecordWithVecLayout()
    ensures Pack(R, RValue(), Borsch, Unset).out == Ok([5, 3, 0, 0, 0, 1, 2, 3])
    ensures Unpack(R, [5, 3, 0, 0, 0, 1, 2, 3], true, Borsch, Unset).out == Ok(RValue())
    ensures Unpack(R, [5, 3, 0, 0, 0, 1, 2, 3, 9], true, Borsch, Unset).out == Err(Fault(UnusedBytes))
  {
    RPacks();
    RLegal();
    CheckedRejectsTrailing(R, RValue(), Borsch, Unset, [9]);
    assert [5, 3, 0, 0, 0, 1, 2, 3] + [9] == [5, 3, 0, 0, 0, 1, 2, 3, 9];
    PackUnpackRoundTrip(R, RValue(), Borsch, Unset, true);
  }

  lemma RPacks()
    ensures Pack(R, RValue(), Borsch, Unset).out == Ok([5, 3, 0, 0, 0, 1, 2, 3])
  {
    var a := Field("a", UINT8);
    var b := Field("b", VecOf(UINT8, None, None));
    var attrs := map["a" := Int(5), "b" := List(Ints([1, 2, 3]))];
    SmallVecPacks(Installed(U8));
    ByteIntPacks(5, Installed(U8), Forward);
    assert attrs[a.name] == Int(5) && attrs[b.name] == List(Ints([1, 2, 3]));
    TwoFieldPack("R", a, b, attrs, Unset, [5], [3, 0, 0, 0, 1, 2, 3]);
    assert [5] + [3, 0, 0, 0, 1, 2, 3] == [5, 3, 0, 0, 0, 1, 2, 3];
    assert R == Record("R", [a, b]) && RValue() == Struct("R", attrs);
  }

  lemma RLegal()
    ensures Legal(R, RValue())
  {
    var v := RValue();
    assert VecOf(UINT8, None, None) == Vec(UINT8, 4, 16);
    TwoFieldNames(R.fields[0], R.fields[1]);
    assert v.attrs["b"].items == [Int(1), Int(2), Int(3)];
  }

  /** `FixedLenStr[8]` pads "hi" with six zero bytes and reads "hi" back; nine bytes of
      text are refused, and without autopad so is short text. */
  lemma FixedStrPadding()
    ensures PackFixedStr(8, true, Text(HI)) == Ok([104, 105, 0, 0, 0, 0, 0, 0])
    ensures UnpackStep(FixedStr(8, true), [104, 105, 0, 0, 0, 0, 0, 0], 0, Borsch, Unset, Forward).out
            == Ok((Text(HI), 8))
    ensures PackFixedStr(8, true, Text([1, 2, 3, 4, 5, 6, 7, 8, 9])) == Err(Fault(StrTooLong))
    ensures PackFixedStr(8, false, Text(HI)) == Err(Fault(StrTooShort))
  {
    var bs: Bytes := [104, 105, 0, 0, 0, 0, 0, 0];
    assert Zeros(6) == [0, 0, 0, 0, 0, 0];
    assert HI + Zeros(6) == bs;
    assert bs[0..8] == bs && bs[..2] == HI;
    PrefixBeforeZeroUnique(bs, 2);
  }

  const INNER: Ty := Record("Inner", [Field("y", UINT8)])
  const OUTER: Ty := Record("Outer", [Field("x", INNER)])

  /** A field failing two records deep reports the path leaf to root, the message of the
      innermost record and the declared type of the failing field. */
  lemma NestedErrorPath()
    ensures Pack(OUTER, Struct("Outer", map["x" := Struct("Inner", map["y" := Int(300)])]), Borsch, Unset).out
            == Err(PathError(SERIALIZE_MSG, ["y", "Inner", "x", "Outer"], UINT8, OutOfRange))
  {
    var s8 := Installed(U8);
    var inner := Struct("Inner", map["y" := Int(300)]);
    var outer := Struct("Outer", map["x" := inner]);
    CanonicalPack(UINT8, Int(300), s8, Forward);
    assert PackPartial(UINT8, Int(300), Borsch, s8, Forward).out == Err(Fault(OutOfRange));
    PackFieldsFailsAt("Inner", INNER.fields, inner.attrs, Borsch, s8, Forward, 0);
    CanonicalPack(INNER, inner, s8, Forward);
    assert PackPartial(INNER, inner, Borsch, s8, Forward).out
           == Err(PathError(SERIALIZE_MSG, ["y", "Inner"], UINT8, OutOfRange));
    PackFieldsFailsAt("Outer", OUTER.fields, outer.attrs, Borsch, s8, Forward, 0);
    assert ["y", "Inner"] + ["x", "Outer"] == ["y", "Inner", "x", "Outer"];
    CanonicalPack(OUTER, outer, Unset, Forward);
  }

  /** `Vec[AutoTagType]` with the default U32 length type. */
  const TAGS: Ty := Vec(AutoTag, 4, 16)

  const FOUR_TAGS: Bytes := [4, 0, 0, 0, 1, 2, 3, 4]

  /** Canonically, four tags pack to the count and four one-byte tags: eight bytes,
      whether or not the container forwards the format. */
  lemma TagsPack(nesting: Nesting)
    ensures PackPartial(TAGS, List(Ints([1, 2, 3, 4])), Borsch, Unset, nesting).out == Ok(FOUR_TAGS)
  {
    var s8 := Installed(U8);
    var v := List(Ints([1, 2, 3, 4]));
    TagItemsPack(nesting);
    assert ElemPackFormat(nesting, Borsch) == Borsch;
    assert Iterate(v) == Some(Ints([1, 2, 3, 4])) && Len(v) == Some(4);
    PackVariableLayout(TAGS, v, Borsch, s8, nesting);
    SmallCount(4);
    assert PackItems(AutoTag, Iterate(v).value, ElemPackFormat(nesting, Borsch), s8, nesting).out == Ok([1, 2, 3, 4]);
    assert PackStep(TAGS, v, Borsch, s8, nesting).out == Ok([4, 0, 0, 0] + [1, 2, 3, 4]);
    assert [4, 0, 0, 0] + [1, 2, 3, 4] == FOUR_TAGS;
    CanonicalPack(TAGS, v, Unset, nesting);
  }

  /** With the U8 tag installed, a tag packs to its one byte. */
  lemma TagItemsPack(nesting: Nesting)
    ensures PackItems(AutoTag, Ints([1, 2, 3, 4]), Borsch, Installed(U8), nesting).out == Ok([1, 2, 3, 4])
  {
    var s8 := Installed(U8);
    forall k: Byte
      ensures PackPartial(AutoTag, Int(k), Borsch, s8, nesting).out == Ok([k])
    {
      CanonicalPack(AutoTag, Int(k), s8, nesting);
      ByteIntPacks(k, s8, nesting);
    }
    ByteItemsPack(AutoTag, [1, 2, 3, 4], Borsch, s8, nesting);
  }

  /** Unpacking those eight bytes with the containers' defaults: the count is read, and
      the first tag's AUTO probe compares the tag's maximum size under U64 (eight) with
      the whole input (eight), picks zero-copy and reads eight bytes where four are left. */
  lemma TagsUnpackWithDefaultsFails()
    ensures UnpackPartial(TAGS, FOUR_TAGS, 0, Borsch, Unset, Defaults).out == Err(Fault(ShortRead))
    ensures UnpackAsWritten(TAGS, FOUR_TAGS, false, Borsch, Unset).out == Err(Fault(ShortRead))
  {
    var s8 := Installed(U8);
    var s64 := Installed(U64);
    assert MaxSize(AutoTag, s64) == Ok(8);
    assert AutoFormat(AutoTag, 8) == ZeroCopy;
    assert UnpackPartial(Atomic(8), FOUR_TAGS, 4, ZeroCopy, s64, Defaults).out == Err(Fault(ShortRead));
    assert UnpackPartial(AutoTag, FOUR_TAGS, 4, Auto, s8, Defaults).out == Err(Fault(ShortRead));
    assert UnpackItems(AutoTag, 4, FOUR_TAGS, 4, Auto, s8, Defaults).out == Err(Fault(ShortRead));
    UnpackVariableLayout(TAGS, FOUR_TAGS, 0, Borsch, s8, Defaults);
    assert FOUR_TAGS[0..4] == [4, 0, 0, 0] && DecodeLE([4, 0, 0, 0]) == 4;
  }

  /** Forwarding the format, the same eight bytes unpack to the four tags. */
  lemma TagsForwardRoundTrip()
    ensures Unpack(TAGS, FOUR_TAGS, true, Borsch, Unset).out == Ok(List(Ints([1, 2, 3, 4])))
  {
    var v := List(Ints([1, 2, 3, 4]));
    TagsPack(Forward);
    assert Legal(TAGS, v);
    PackUnpackRoundTrip(TAGS, v, Borsch, Unset, true);
  }

  /** The Vec element decoding defect.  Packed with the containers' own defaults, a
      `Vec[AutoTagType]` of four tags is eight bytes, and unpacking it with the same
      defaults fails.  Forwarding the format, the same bytes round-trip. */
  lemma VecOfTagsDefect()
    ensures PackAsWritten(TAGS, List(Ints([1, 2, 3, 4])), Borsch, Unset).out == Ok(FOUR_TAGS)
    ensures UnpackAsWritten(TAGS, FOUR_TAGS, false, Borsch, Unset).out == Err(Fault(ShortRead))
    ensures Pack(TAGS, List(Ints([1, 2, 3, 4])), Borsch, Unset).out == Ok(FOUR_TAGS)
    ensures Unpack(TAGS, FOUR_TAGS, true, Borsch, Unset).out == Ok(List(Ints([1, 2, 3, 4])))
  {
    TagsPack(Defaults);
    TagsPack(Forward);
    TagsUnpackWithDefaultsFails();
    TagsForwardRoundTrip();
  }

  /** The misnamed static hook of Vec: the catalog cannot answer `is_static` for a Vec,
      nor for a record whose first field is one, where the corrected answer is false. */
  lemma VecStaticHookDefect()
    ensures IsStaticAsWritten(VecOf(UINT8, None, None)) == Err(Fault(MissingHook))
    ensures IsStatic(VecOf(UINT8, None, None)) == false
    ensures IsStaticAsWritten(Record("R", [Field("b", VecOf(UINT8, None, None)), Field("a", UINT8)]))
            == Err(Fault(MissingHook))
    ensures IsStatic(Record("R", [Field("b", VecOf(UINT8, None, None)), Field("a", UINT8)])) == false
  {
  }

  /** A record holding `FixedLenBytes[4]`. */
  const PADDED: Ty := Record("Padded", [Field("f", FixedBytes(4))])

  /** Fixed bytes shorter than N are zero-padded, so a record holding two of its four
      bytes still packs to exactly its `calc_size`, canonically and by pass-through with
      no tag type installed. */
  lemma ShortBytesFillCalcSize()
    ensures Pack(PADDED, Struct("Padded", map["f" := Blob([1, 2])]), Borsch, Unset).out.Ok?
    ensures Pack(PADDED, Struct("Padded", map["f" := Blob([1, 2])]), Pass, Unset).out.Ok?
    ensures CalcSize(PADDED, Unset) == CalcSize(PADDED, Installed(U8)) == Ok(4)
    ensures |Pack(PADDED, Struct("Padded", map["f" := Blob([1, 2])]), Borsch, Unset).out.value| == 4
    ensures |Pack(PADDED, Struct("Padded", map["f" := Blob([1, 2])]), Pass, Unset).out.value| == 4
  {
    var v := Struct("Padded", map["f" := Blob([1, 2])]);
    assert Packable(PADDED.fields[0].ty, v.attrs["f"], 1);
    PackWithinMaxSize(PADDED, v, Borsch, Unset);
    PackWithinMaxSize(PADDED, v, Pass, Unset);
  }
}

=== FILE: sizes.dfy ===
/** Properties of `is_static`, `calc_max_size` and `calc_size`. */
module Sizes {
  import opened Results
  import opened Formats
  import opened Types
  import opened Errors
  import opened Codec

  /** A record is static exactly when every one of its fields is. */
  lemma {:induction false} RecordStaticIff(name: string, fs: seq<Field>)
    ensures IsStatic(Record(name, fs)) <==> forall i :: 0 <= i < |fs| ==> IsStatic(fs[i].ty)
  {
    FieldsStaticIff(fs);
  }

  lemma {:induction false} FieldsStaticIff(fs: seq<Field>)
    ensures FieldsStatic(fs) <==> forall i :: 0 <= i < |fs| ==> IsStatic(fs[i].ty)
  {
    if |fs| > 0 {
      FieldsStaticIff(fs[1..]);
      assert forall i :: 1 <= i < |fs| ==> fs[i] == fs[1..][i - 1];
    }
  }

  /** Wherever the catalog's own `_is_static` lookup answers, it answers as `IsStatic`;
      it fails only by reaching a Vec. */
  lemma {:induction false} StaticAsWrittenAgrees(t: Ty)
    ensures IsStaticAsWritten(t).Ok? ==> IsStaticAsWritten(t).value == IsStatic(t)
    ensures IsStaticAsWritten(t).Err? ==> IsStaticAsWritten(t).error == Fault(MissingHook)
  {
    match t
    case Record(_, fs) => FieldsStaticAsWrittenAgrees(fs);
    case FixedArray(e, _) => StaticAsWrittenAgrees(e);
    case _ =>
  }

  lemma {:induction false} FieldsStaticAsWrittenAgrees(fs: seq<Field>)
    ensures FieldsStaticAsWritten(fs).Ok? ==> FieldsStaticAsWritten(fs).value == FieldsStatic(fs)
    ensures FieldsStaticAsWritten(fs).Err? ==> FieldsStaticAsWritten(fs).error == Fault(MissingHook)
  {
    if |fs| > 0 {
      StaticAsWrittenAgrees(fs[0].ty);
      FieldsStaticAsWrittenAgrees(fs[1..]);
    }
  }

  /** A static type contains no AutoTagType (which is never static). */
  lemma {:induction false} StaticIsTagFree(t: Ty)
    ensures IsStatic(t) ==> TagFree(t)
  {
    match t
    case Record(n, fs) =>
      if IsStatic(t) {
        RecordStaticIff(n, fs);
        forall i | 0 <= i < |fs|
          ensures TagFree(fs[i].ty)
        {
          StaticIsTagFree(fs[i].ty);
        }
      }
    case FixedArray(e, _) => StaticIsTagFree(e);
    case _ =>
  }

  /** A tag-free type's array elements are tag-free too. */
  lemma {:induction false} TagFreeElems(t: Ty)
    ensures TagFree(t) ==> ElemsTagFree(t)
  {
    match t
    case Record(_, fs) =>
      forall i | 0 <= i < |fs|
        ensures TagFree(fs[i].ty) ==> ElemsTagFree(fs[i].ty)
      {
        TagFreeElems(fs[i].ty);
      }
    case _ =>
  }

  /** `calc_max_size` succeeds exactly when a tag type is installed or the type has
      no AutoTagType in it. */
  lemma {:induction false} MaxSizeDefinedIff(t: Ty, slot: TagSlot)
    ensures MaxSize(t, slot).Ok? <==> slot.Installed? || TagFree(t)
  {
    match t
    case Record(_, fs) => FieldsMaxSizeDefinedIff(fs, slot);
    case FixedArray(e, _) => MaxSizeDefinedIff(e, slot);
    case Vec(e, _, _) => MaxSizeDefinedIff(e, slot);
    case _ =>
  }

  lemma {:induction false} FieldsMaxSizeDefinedIff(fs: seq<Field>, slot: TagSlot)
    ensures FieldsMaxSize(fs, slot).Ok? <==> slot.Installed? || forall i :: 0 <= i < |fs| ==> TagFree(fs[i].ty)
  {
    if |fs| > 0 {
      MaxSizeDefinedIff(fs[0].ty, slot);
      FieldsMaxSizeDefinedIff(fs[1..], slot);
      assert forall i :: 1 <= i < |fs| ==> fs[i] == fs[1..][i - 1];
    }
  }

  /** For a tag-free type the maximum size does not depend on the tag slot. */
  lemma {:induction false} MaxSizeTagFree(t: Ty, s1: TagSlot, s2: TagSlot)
    requires TagFree(t)
    ensures MaxSize(t, s1).Ok? && MaxSize(t, s1) == MaxSize(t, s2)
  {
    MaxSizeDefinedIff(t, s1);
    match t
    case Record(_, fs) => FieldsMaxSizeTagFree(fs, s1, s2);
    case FixedArray(e, _) => MaxSizeTagFree(e, s1, s2);
    case Vec(e, _, _) => MaxSizeTagFree(e, s1, s2);
    case _ =>
  }

  lemma {:induction false} FieldsMaxSizeTagFree(fs: seq<Field>, s1: TagSlot, s2: TagSlot)
    requires forall i :: 0 <= i < |fs| ==> TagFree(fs[i].ty)
    ensures FieldsMaxSize(fs, s1).Ok? && FieldsMaxSize(fs, s1) == FieldsMaxSize(fs, s2)
  {
    if |fs| > 0 {
      MaxSizeTagFree(fs[0].ty, s1, s2);
      FieldsMaxSizeTagFree(fs[1..], s1, s2);
    }
  }

  /** The maximum size of a record is additive over its declared fields: splitting the
      field list splits the total. */
  lemma {:induction false} RecordMaxSizeSplit(name: string, fs1: seq<Field>, fs2: seq<Field>, tag: TagType)
    ensures MaxSize(Record(name, fs1 + fs2), Installed(tag)).value
         == MaxSize(Record(name, fs1), Installed(tag)).value + MaxSize(Record(name, fs2), Installed(tag)).value
  {
    FieldsMaxSizeSplit(fs1, fs2, Installed(tag));
  }

  lemma {:induction false} FieldsMaxSizeSplit(fs1: seq<Field>, fs2: seq<Field>, slot: TagSlot)
    requires slot.Installed?
    ensures FieldsMaxSize(fs1 + fs2, slot).value == FieldsMaxSize(fs1, slot).value + FieldsMaxSize(fs2, slot).value
  {
    if |fs1| > 0 {
      assert (fs1 + fs2)[0] == fs1[0];
      assert (fs1 + fs2)[1..] == fs1[1..] + fs2;
      FieldsMaxSizeSplit(fs1[1..], fs2, slot);
    } else {
      assert fs1 + fs2 == fs2;
    }
  }

  /** The maximum size with a one-byte tag never exceeds the maximum size with an
      eight-byte tag. */
  lemma {:induction false} MaxSizeMonotonicInTag(t: Ty)
    ensures MaxSize(t, Installed(U8)).value <= MaxSize(t, Installed(U64)).value
  {
    match t
    case Record(_, fs) => FieldsMaxSizeMonotonicInTag(fs);
    case FixedArray(e, n) =>
      MaxSizeMonotonicInTag(e);
      MulMonotonic(MaxSize(e, Installed(U8)).value, MaxSize(e, Installed(U64)).value, n);
    case Vec(e, _, max) =>
      MaxSizeMonotonicInTag(e);
      MulMonotonic(MaxSize(e, Installed(U8)).value, MaxSize(e, Installed(U64)).value, max);
    case _ =>
  }

  lemma {:induction false} FieldsMaxSizeMonotonicInTag(fs: seq<Field>)
    ensures FieldsMaxSize(fs, Installed(U8)).value <= FieldsMaxSize(fs, Installed(U64)).value
  {
    if |fs| > 0 {
      MaxSizeMonotonicInTag(fs[0].ty);
      FieldsMaxSizeMonotonicInTag(fs[1..]);
    }
  }

  lemma MulMonotonic(a: nat, b: nat, c: nat)
    requires a <= b
    ensures a * c <= b * c
  {
  }

  /** `calc_size` succeeds exactly for static types, whatever the tag slot, and then it is
      the maximum size; it fails in the `_is_static` lookup exactly for the types whose
      lookup reaches a Vec, and refuses every other type that is not static. */
  lemma CalcSizeIff(t: Ty, slot: TagSlot)
    ensures CalcSize(t, slot).Ok? <==> IsStatic(t)
    ensures CalcSize(t, slot).Ok? ==> CalcSize(t, slot).value == MaxSize(t, slot).value
    ensures CalcSize(t, slot) == Err(Fault(MissingHook)) <==> IsStaticAsWritten(t).Err?
    ensures !IsStatic(t) && IsStaticAsWritten(t).Ok? ==> CalcSize(t, slot) == Err(Fault(NotStatic))
  {
    StaticIsTagFree(t);
    MaxSizeDefinedIff(t, slot);
  }

  /** AutoTagType is never static; its maximum size is that of the installed tag type. */
  lemma AutoTagFollowsSlot(tag: TagType)
    ensures !IsStatic(AutoTag)
    ensures MaxSize(AutoTag, Installed(tag)) == MaxSize(Atomic(tag.Width()), Installed(tag))
    ensures MaxSize(AutoTag, Unset) == Err(Fault(NoConverter))
  {
  }

  /** Variable containers are never static and their bound is prefix width plus
      `max_length` times the element bound. */
  lemma VarContainersNotStatic(e: Ty, lw: nat, max: nat, tag: TagType)
    ensures !IsStatic(Vec(e, lw, max)) && !IsStatic(VarBytes(lw, max)) && !IsStatic(VarStr(lw, max))
    ensures MaxSize(Vec(e, lw, max), Installed(tag)).value == lw + max * MaxSize(e, Installed(tag)).value
    ensures MaxSize(VarBytes(lw, max), Installed(tag)).value == lw + max
    ensures MaxSize(VarStr(lw, max), Installed(tag)).value == lw + max
  {
  }

  /** A fixed array is static exactly when its element is; its bound is N element bounds. */
  lemma FixedArraySize(e: Ty, n: nat, tag: TagType)
    ensures IsStatic(FixedArray(e, n)) <==> IsStatic(e)
    ensures MaxSize(FixedArray(e, n), Installed(tag)).value == n * MaxSize(e, Installed(tag)).value
  {
  }
}

=== FILE: types.dfy ===
/** Type descriptors and values of the bytes codec.

    A `Ty` stands for a registered type that carries the "bytes" converter marker:
    the atomic integers, `AutoTagType`, a record (dataclass) and the six generated
    container types of pod/types/array.py. */
module Types {
  import opened Results
  import opened Atomics

  datatype Ty =
    | Atomic(width: nat)                                  // U8, U32, U64, ...: `width` bytes
    | AutoTag                                             // AutoTagType: whatever tag type is installed
    | Record(name: string, fields: seq<Field>)            // a dataclass and its declared fields
    | FixedArray(elem: Ty, length: nat)                   // FixedLenArray[elem, length]
    | FixedBytes(length: nat)                             // FixedLenBytes[length]
    | FixedStr(length: nat, autopad: bool)                // FixedLenStr[length, encoding, autopad]
    | Vec(elem: Ty, lengthWidth: nat, maxLength: nat)     // Vec[elem, max_length, length_type]
    | VarBytes(lengthWidth: nat, maxLength: nat)          // Bytes[max_length, length_type]
    | VarStr(lengthWidth: nat, maxLength: nat)            // Str[max_length, length_type, encoding]

  datatype Field = Field(name: string, ty: Ty)

  /** In-memory values.  Text is held as its encoded bytes under a length-preserving encoding. */
  datatype Value =
    | Int(n: int)
    | Struct(cls: string, attrs: map<string, Value>)
    | List(items: seq<Value>)
    | Blob(bytes: Bytes)
    | Text(chars: Bytes)

  /** Byte width of U32, the default length type of the variable containers. */
  const U32_WIDTH: nat := 4

  function Pow2(e: nat): (p: nat)
    ensures p >= 1
  {
    if e == 0 then 1 else 2 * Pow2(e - 1)
  }

  /** Default `max_length` of a variable container: 2 raised to the BYTE size of the
      length type (so 16 for U32), not to its bit width. */
  function DefaultMaxLength(lengthWidth: nat): nat
  {
    Pow2(lengthWidth)
  }

  /** The generators `Vec[...]`, `Bytes[...]`, `Str[...]` with their optional arguments:
      a missing length type is U32 and a missing maximum is `DefaultMaxLength`. */
  function VecOf(elem: Ty, maxLength: Option<nat>, lengthWidth: Option<nat>): (t: Ty)
    ensures t.Vec? && t.elem == elem
    ensures t.lengthWidth == if lengthWidth.Some? then lengthWidth.value else U32_WIDTH
    ensures t.maxLength == if maxLength.Some? then maxLength.value else Pow2(t.lengthWidth)
  {
    var lw := if lengthWidth.Some? then lengthWidth.value else U32_WIDTH;
    Vec(elem, lw, if maxLength.Some? then maxLength.value else DefaultMaxLength(lw))
  }

  function BytesOf(maxLength: Option<nat>, lengthWidth: Option<nat>): (t: Ty)
    ensures t.VarBytes?
    ensures t.lengthWidth == if lengthWidth.Some? then lengthWidth.value else U32_WIDTH
    ensures t.maxLength == if maxLength.Some? then maxLength.value else Pow2(t.lengthWidth)
  {
    var lw := if lengthWidth.Some? then lengthWidth.value else U32_WIDTH;
    VarBytes(lw, if maxLength.Some? then maxLength.value else DefaultMaxLength(lw))
  }

  function StrOf(maxLength: Option<nat>, lengthWidth: Option<nat>): (t: Ty)
    ensures t.VarStr?
    ensures t.lengthWidth == if lengthWidth.Some? then lengthWidth.value else U32_WIDTH
    ensures t.maxLength == if maxLength.Some? then maxLength.value else Pow2(t.lengthWidth)
  {
    var lw := if lengthWidth.Some? then lengthWidth.value else U32_WIDTH;
    VarStr(lw, if maxLength.Some? then maxLength.value else DefaultMaxLength(lw))
  }

  /** `FixedLenStr[length]` autopads unless told otherwise. */
  function FixedStrOf(length: nat, autopad: Option<bool>): (t: Ty)
    ensures t == FixedStr(length, autopad != Some(false))
  {
    FixedStr(length, if autopad.Some? then autopad.value else true)
  }

  /** With every default taken, a Vec, Bytes or Str holds at most 16 items. */
  lemma DefaultMaxLengthIsSixteen(elem: Ty)
    ensures VecOf(elem, None, None).maxLength == 16
    ensures BytesOf(None, None).maxLength == 16
    ensures StrOf(None, None).maxLength == 16
  {
  }

  /** Termination measure for the mutually recursive codec functions. */
  function TySize(t: Ty): (s: nat)
    ensures s >= 1
  {
    match t
    case Atomic(_) => 1
    case AutoTag => 2
    case Record(_, fs) => 1 + FieldsSize(fs)
    case FixedArray(e, _) => 1 + TySize(e)
    case FixedBytes(_) => 1
    case FixedStr(_, _) => 1
    case Vec(e, _, _) => 1 + TySize(e)
    case VarBytes(_, _) => 2
    case VarStr(_, _) => 2
  }

  function FieldsSize(fs: seq<Field>): (s: nat)
    ensures |fs| > 0 ==> s >= 1 + FieldsSize(fs[1..]) && s >= TySize(fs[0].ty)
  {
    if |fs| == 0 then 0 else TySize(fs[0].ty) + FieldsSize(fs[1..])
  }

  /** The declared field names of a record. */
  function FieldNames(fs: seq<Field>): set<string>
  {
    if |fs| == 0 then {} else {fs[0].name} + FieldNames(fs[1..])
  }

  /** No AutoTagType occurs in the type: its layout does not depend on the tag slot. */
  predicate TagFree(t: Ty)
  {
    match t
    case AutoTag => false
    case Record(_, fs) => forall i :: 0 <= i < |fs| ==> TagFree(fs[i].ty)
    case FixedArray(e, _) => TagFree(e)
    case Vec(e, _, _) => TagFree(e)
    case _ => true
  }

  /** Every element type of a fixed or variable array inside `t` is tag-free. */
  predicate ElemsTagFree(t: Ty)
  {
    match t
    case Record(_, fs) => forall i :: 0 <= i < |fs| ==> ElemsTagFree(fs[i].ty)
    case FixedArray(e, _) => TagFree(e)
    case Vec(e, _, _) => TagFree(e)
    case _ => true
  }

  /** Values within the type's declared bounds, in the shape the unpacker rebuilds:
      the values for which the round trip is promised.  AutoTagType values are held to
      the U8 range, which every negotiated tag type can carry. */
  predicate Legal(t: Ty, v: Value)
  {
    match t
    case Atomic(w) => v.Int? && 0 <= v.n < Pow256(w)
    case AutoTag => v.Int? && 0 <= v.n < 256
    case Record(name, fs) =>
      && v.Struct? && v.cls == name && v.attrs.Keys == FieldNames(fs)
      && forall i :: 0 <= i < |fs| ==> fs[i].name in v.attrs && Legal(fs[i].ty, v.attrs[fs[i].name])
    case FixedArray(e, n) =>
      v.List? && |v.items| == n && forall i :: 0 <= i < |v.items| ==> Legal(e, v.items[i])
    case FixedBytes(n) => v.Blob? && |v.bytes| == n
    case FixedStr(n, autopad) =>
      && v.Text? && |v.chars| <= n
      && (if autopad then forall i :: 0 <= i < |v.chars| ==> v.chars[i] != 0 else |v.chars| == n)
    case Vec(e, lw, max) =>
      && v.List? && |v.items| <= max && |v.items| < Pow256(lw)
      && forall i :: 0 <= i < |v.items| ==> Legal(e, v.items[i])
    case VarBytes(lw, max) => v.Blob? && |v.bytes| <= max && |v.bytes| < Pow256(lw)
    case VarStr(lw, max) => v.Text? && |v.chars| <= max && |v.chars| < Pow256(lw)
  }

  /** Values that pack without error into at most the type's maximum size, under a tag
      type of `tagWidth` bytes: as `Legal`, except that fixed bytes may be shorter than N
      (they are zero-padded), autopad text may hold zero bytes, and a tag may take any
      value of the tag type. */
  predicate Packable(t: Ty, v: Value, tagWidth: nat)
  {
    match t
    case Atomic(w) => v.Int? && 0 <= v.n < Pow256(w)
    case AutoTag => v.Int? && 0 <= v.n < Pow256(tagWidth)
    case Record(name, fs) =>
      && v.Struct?
      && forall i :: 0 <= i < |fs| ==> fs[i].name in v.attrs && Packable(fs[i].ty, v.attrs[fs[i].name], tagWidth)
    case FixedArray(e, n) =>
      v.List? && |v.items| == n && forall i :: 0 <= i < |v.items| ==> Packable(e, v.items[i], tagWidth)
    case FixedBytes(n) => v.Blob? && |v.bytes| <= n
    case FixedStr(n, autopad) => v.Text? && |v.chars| <= n && (autopad || |v.chars| == n)
    case Vec(e, lw, max) =>
      && v.List? && |v.items| <= max && |v.items| < Pow256(lw)
      && forall i :: 0 <= i < |v.items| ==> Packable(e, v.items[i], tagWidth)
    case VarBytes(lw, max) => v.Blob? && |v.bytes| <= max && |v.bytes| < Pow256(lw)
    case VarStr(lw, max) => v.Text? && |v.chars| <= max && |v.chars| < Pow256(lw)
  }

  /** Every legal value is packable under any tag type at least one byte wide. */
  lemma {:induction false} LegalIsPackable(t: Ty, v: Value, tagWidth: nat)
    requires Legal(t, v) && tagWidth >= 1
    ensures Packable(t, v, tagWidth)
  {
    match t
    case Record(name, fs) =>
      forall i | 0 <= i < |fs|
        ensures Packable(fs[i].ty, v.attrs[fs[i].name], tagWidth)
      {
        LegalIsPackable(fs[i].ty, v.attrs[fs[i].name], tagWidth);
      }
    case FixedArray(e, n) =>
      forall i | 0 <= i < |v.items|
        ensures Packable(e, v.items[i], tagWidth)
      {
        LegalIsPackable(e, v.items[i], tagWidth);
      }
    case Vec(e, _, _) =>
      forall i | 0 <= i < |v.items|
        ensures Packable(e, v.items[i], tagWidth)
      {
        LegalIsPackable(e, v.items[i], tagWidth);
      }
    case _ =>
  }
}

=== FILE: utils.dfy ===
/** The helpers of pod/_utils.py: the memoized type constructor behind the `X[...]`
    generators, the name mappings of `resolve_name_mapping`, and `get_concrete_type`
    for a type given directly or by a bare name. */
module Utils {
  import opened Results

  // ---------------------------------------------------------------------------
  // _GetitemToCall
  // ---------------------------------------------------------------------------

  /** The argument of a subscript `X[...]`: a tuple (`X[a, b]`, `X[()]`) or any single value. */
  datatype Subscript<A> = Tuple(items: seq<A>) | Single(item: A)

  /** The positional arguments handed to the wrapped constructor after the generator's
      name: a tuple is spread, anything else is the one argument. */
  function CallArgs<A>(s: Subscript<A>): seq<A>
  {
    match s
    case Tuple(items) => items
    case Single(item) => [item]
  }

  /** `functools.lru_cache()` with no arguments keeps the 128 most recently used calls. */
  const LRU_MAXSIZE: nat := 128

  /** A type the constructor built: the identity of the object and the arguments it was built from. */
  datatype Made<A> = Made(id: nat, args: seq<A>)

  /** One generator: its name, the cached calls from least to most recently used, and
      how many objects it has built so far (the next fresh identity). */
  datatype Memo<A> = Memo(name: string, entries: seq<Made<A>>, built: nat)

  predicate ArgsDistinct<A(==)>(es: seq<Made<A>>)
  {
    forall i, j :: 0 <= i < j < |es| ==> es[i].args != es[j].args
  }

  predicate IdsDistinct<A>(es: seq<Made<A>>)
  {
    forall i, j :: 0 <= i < j < |es| ==> es[i].id != es[j].id
  }

  predicate IdsBelow<A>(es: seq<Made<A>>, n: nat)
  {
    forall i :: 0 <= i < |es| ==> es[i].id < n
  }

  /** The cache holds at most 128 calls, one per argument list, each an object of its own
      built earlier. */
  predicate Valid<A(==)>(m: Memo<A>)
  {
    |m.entries| <= LRU_MAXSIZE && ArgsDistinct(m.entries) && IdsDistinct(m.entries) && IdsBelow(m.entries, m.built)
  }

  /** A generator before its first subscript. */
  function NewMemo<A(==)>(name: string): (m: Memo<A>)
    ensures Valid(m) && m.entries == [] && m.name == name
  {
    Memo(name, [], 0)
  }

  /** Where the argument list sits in the cache, if it does. */
  function Find<A(==)>(entries: seq<Made<A>>, args: seq<A>): (r: Option<nat>)
    ensures r.Some? <==> exists i :: 0 <= i < |entries| && entries[i].args == args
    ensures r.Some? ==> r.value < |entries| && entries[r.value].args == args
    ensures r.None? ==> forall i :: 0 <= i < |entries| ==> entries[i].args != args
  {
    if |entries| == 0 then None
    else if entries[|entries| - 1].args == args then Some(|entries| - 1)
    else Find(entries[..|entries| - 1], args)
  }

  /** The cache without its i-th call. */
  function Without<A>(es: seq<Made<A>>, i: nat): (r: seq<Made<A>>)
    requires i < |es|
    ensures |r| == |es| - 1
    ensures forall k :: 0 <= k < i ==> r[k] == es[k]
    ensures forall k :: i <= k < |r| ==> r[k] == es[k + 1]
  {
    es[..i] + es[i + 1..]
  }

  /** Dropping a call keeps the cache's distinctness and bounds. */
  lemma WithoutValid<A>(es: seq<Made<A>>, i: nat, n: nat)
    requires i < |es| && ArgsDistinct(es) && IdsDistinct(es) && IdsBelow(es, n)
    ensures var r := Without(es, i); ArgsDistinct(r) && IdsDistinct(r) && IdsBelow(r, n)
  {
    var r := Without(es, i);
    forall a, b | 0 <= a < b < |r|
      ensures r[a].args != r[b].args && r[a].id != r[b].id
    {
      var a' := if a < i then a else a + 1;
      var b' := if b < i then b else b + 1;
      assert r[a] == es[a'] && r[b] == es[b'] && a' < b';
    }
  }

  /** Appending a call with fresh arguments and a fresh identity keeps the cache's
      distinctness and bounds. */
  lemma AppendValid<A>(es: seq<Made<A>>, x: Made<A>, n: nat)
    requires ArgsDistinct(es) && IdsDistinct(es) && IdsBelow(es, n) && x.id < n
    requires forall k :: 0 <= k < |es| ==> es[k].args != x.args && es[k].id != x.id
    ensures ArgsDistinct(es + [x]) && IdsDistinct(es + [x]) && IdsBelow(es + [x], n)
  {
    var r := es + [x];
    forall a, b | 0 <= a < b < |r|
      ensures r[a].args != r[b].args && r[a].id != r[b].id
    {
      if b < |es| {
        assert r[a] == es[a] && r[b] == es[b];
      }
    }
  }

  /** The dropped call differs from every call left, in arguments and identity. */
  lemma WithoutExcludes<A>(es: seq<Made<A>>, i: nat)
    requires i < |es| && ArgsDistinct(es) && IdsDistinct(es)
    ensures var r := Without(es, i);
            forall k :: 0 <= k < |r| ==> r[k].args != es[i].args && r[k].id != es[i].id
  {
    var r := Without(es, i);
    forall k | 0 <= k < |r|
      ensures r[k].args != es[i].args && r[k].id != es[i].id
    {
      var k' := if k < i then k else k + 1;
      assert r[k] == es[k'] && k' != i;
    }
  }

  /** A cached call: its object moves to the most recently used end. */
  function Hit<A(==)>(m: Memo<A>, i: nat): (r: Memo<A>)
    requires Valid(m) && i < |m.entries|
    ensures Valid(r) && r.name == m.name && r.built == m.built
    ensures |r.entries| == |m.entries| && r.entries[|r.entries| - 1] == m.entries[i]
  {
    WithoutValid(m.entries, i, m.built);
    WithoutExcludes(m.entries, i);
    AppendValid(Without(m.entries, i), m.entries[i], m.built);
    Memo(m.name, Without(m.entries, i) + [m.entries[i]], m.built)
  }

  /** The calls a miss keeps: all of them, or all but the least recently used when the
      cache is full. */
  function Kept<A>(m: Memo<A>): seq<Made<A>>
  {
    if |m.entries| == LRU_MAXSIZE then m.entries[1..] else m.entries
  }

  lemma KeptValid<A>(m: Memo<A>, args: seq<A>)
    requires Valid(m)
    requires forall k :: 0 <= k < |m.entries| ==> m.entries[k].args != args
    ensures var kept := Kept(m);
            && |kept| < LRU_MAXSIZE
            && ArgsDistinct(kept) && IdsDistinct(kept) && IdsBelow(kept, m.built + 1)
            && forall k :: 0 <= k < |kept| ==> kept[k].args != args && kept[k].id != m.built
  {
    var kept := Kept(m);
    if |m.entries| == LRU_MAXSIZE {
      WithoutValid(m.entries, 0, m.built);
      assert kept == Without(m.entries, 0);
    }
  }

  /** A call not in the cache: a new object is built from the arguments and, when the
      cache is full, the least recently used call is dropped. */
  function Miss<A(==)>(m: Memo<A>, args: seq<A>): (r: Memo<A>)
    requires Valid(m)
    requires forall k :: 0 <= k < |m.entries| ==> m.entries[k].args != args
    ensures Valid(r) && r.name == m.name && r.built == m.built + 1
    ensures |r.entries| > 0 && r.entries[|r.entries| - 1] == Made(m.built, args)
    ensures |m.entries| < LRU_MAXSIZE ==> r.entries == m.entries + [Made(m.built, args)]
    ensures |m.entries| == LRU_MAXSIZE ==> r.entries == m.entries[1..] + [Made(m.built, args)]
  {
    KeptValid(m, args);
    AppendValid(Kept(m), Made(m.built, args), m.built + 1);
    Memo(m.name, Kept(m) + [Made(m.built, args)], m.built + 1)
  }

  /** `_GetitemToCall.__getitem__`: a cached call returns the object built before and
      becomes the most recently used; otherwise a new object is built, and when the
      cache is full the least recently used call is dropped. */
  function Getitem<A(==)>(m: Memo<A>, s: Subscript<A>): (r: (Made<A>, Memo<A>))
    requires Valid(m)
    ensures Valid(r.1) && r.1.name == m.name
    ensures r.0.args == CallArgs(s)
    ensures |r.1.entries| > 0 && r.1.entries[|r.1.entries| - 1] == r.0
    ensures (exists i :: 0 <= i < |m.entries| && m.entries[i].args == CallArgs(s)) ==>
              r.1.built == m.built && r.0 in m.entries
    ensures (forall i :: 0 <= i < |m.entries| ==> m.entries[i].args != CallArgs(s)) ==>
              r.0.id == m.built && r.1.built == m.built + 1
  {
    var args := CallArgs(s);
    match Find(m.entries, args)
    case Some(i) => (m.entries[i], Hit(m, i))
    case None => (Made(m.built, args), Miss(m, args))
  }

  /** Subscripting twice in a row with the same arguments gives the identical object. */
  lemma GetitemTwice<A>(m: Memo<A>, s: Subscript<A>)
    requires Valid(m)
    ensures Getitem(Getitem(m, s).1, s).0 == Getitem(m, s).0
    ensures Getitem(Getitem(m, s).1, s).1.built == Getitem(m, s).1.built
  {
    var m1 := Getitem(m, s).1;
    assert m1.entries[|m1.entries| - 1].args == CallArgs(s);
  }

  /** `X[a]` and `X[(a,)]` are the same call, hence the same object. */
  lemma SingleIsOneTuple<A>(m: Memo<A>, a: A)
    requires Valid(m)
    ensures Getitem(m, Single(a)) == Getitem(m, Tuple([a]))
  {
  }

  /** Different argument lists give different objects while both are cached. */
  lemma DistinctArgsDistinctObjects<A>(m: Memo<A>, i: nat, j: nat)
    requires Valid(m) && i < |m.entries| && j < |m.entries|
    requires m.entries[i].args != m.entries[j].args
    ensures m.entries[i].id != m.entries[j].id
  {
    if j < i {
      DistinctArgsDistinctObjects(m, j, i);
    }
  }

  /** A call missing from a full cache evicts the least recently used call: its
      arguments are no longer cached, so subscripting with them again builds a new object. */
  lemma FullCacheEvicts<A>(m: Memo<A>, s: Subscript<A>)
    requires Valid(m) && |m.entries| == LRU_MAXSIZE
    requires forall i :: 0 <= i < |m.entries| ==> m.entries[i].args != CallArgs(s)
    ensures var m1 := Getitem(m, s).1;
            && |m1.entries| == LRU_MAXSIZE
            && forall i :: 0 <= i < |m1.entries| ==> m1.entries[i].args != m.entries[0].args
  {
    var m1 := Getitem(m, s).1;
    assert m1.entries == m.entries[1..] + [Made(m.built, CallArgs(s))];
  }

  // ---------------------------------------------------------------------------
  // resolve_name_mapping
  // ---------------------------------------------------------------------------

  /** ASCII case mapping (the model's text is ASCII; other characters are unchanged). */
  function LowerChar(c: char): char
  {
    if 'A' <= c <= 'Z' then (c as int + 32) as char else c
  }

  function UpperChar(c: char): char
  {
    if 'a' <= c <= 'z' then (c as int - 32) as char else c
  }

  /** `str.lower`. */
  function Lower(s: string): (r: string)
    ensures |r| == |s|
    ensures forall i :: 0 <= i < |s| ==> r[i] == LowerChar(s[i])
  {
    seq(|s|, i requires 0 <= i < |s| => LowerChar(s[i]))
  }

  /** `str.upper`. */
  function Upper(s: string): (r: string)
    ensures |r| == |s|
    ensures forall i :: 0 <= i < |s| ==> r[i] == UpperChar(s[i])
  {
    seq(|s|, i requires 0 <= i < |s| => UpperChar(s[i]))
  }

  /** `str.capitalize`: the first character upper case, the rest lower case. */
  function Capitalize(s: string): (r: string)
    ensures |r| == |s|
    ensures |s| > 0 ==> r[0] == UpperChar(s[0])
    ensures forall i :: 1 <= i < |s| ==> r[i] == LowerChar(s[i])
  {
    if |s| == 0 then "" else [UpperChar(s[0])] + Lower(s[1..])
  }

  /** The `mapping` argument: None, a string, or a callable. */
  datatype NameMapping = NoMapping | Named(name: string) | Custom(f: string -> string)

  /** What `resolve_name_mapping` returns: a callable, or (for an unrecognised string)
      the string itself. */
  datatype Resolved = Callable(f: string -> string) | Unchanged(name: string)

  function ResolveNameMapping(mapping: NameMapping): (r: Resolved)
    ensures mapping.NoMapping? ==> r.Callable? && forall s :: r.f(s) == s
    ensures mapping == Named("lower") ==> r.Callable? && forall s :: r.f(s) == Lower(s)
    ensures mapping == Named("upper") ==> r.Callable? && forall s :: r.f(s) == Upper(s)
    ensures mapping == Named("capitalize") ==> r.Callable? && forall s :: r.f(s) == Capitalize(s)
    ensures mapping.Named? && mapping.name != "lower" && mapping.name != "upper" && mapping.name != "capitalize"
            ==> r == Unchanged(mapping.name)
    ensures mapping.Custom? ==> r.Callable? && forall s :: r.f(s) == mapping.f(s)
  {
    match mapping
    case NoMapping => Callable(s => s)
    case Named(name) =>
      if name == "lower" then Callable(Lower)
      else if name == "upper" then Callable(Upper)
      else if name == "capitalize" then Callable(Capitalize)
      else Unchanged(name)
    case Custom(f) => Callable(f)
  }

  /** The character mappings only change the case of ASCII letters. */
  lemma CharCases(c: char)
    ensures LowerChar(LowerChar(c)) == LowerChar(c) && UpperChar(UpperChar(c)) == UpperChar(c)
    ensures UpperChar(LowerChar(c)) == UpperChar(c) && LowerChar(UpperChar(c)) == LowerChar(c)
  {
  }

  /** Lower-casing, upper-casing and capitalizing twice is doing it once. */
  lemma CaseMappingsIdempotent(s: string)
    ensures Lower(Lower(s)) == Lower(s)
    ensures Upper(Upper(s)) == Upper(s)
    ensures Capitalize(Capitalize(s)) == Capitalize(s)
  {
    forall i | 0 <= i < |s|
      ensures Lower(Lower(s))[i] == Lower(s)[i] && Upper(Upper(s))[i] == Upper(s)[i]
      ensures Capitalize(Capitalize(s))[i] == Capitalize(s)[i]
    {
      CharCases(s[i]);
    }
  }

  /** Upper-casing forgets an earlier lower-casing and vice versa, and capitalizing
      forgets an earlier lower-casing. */
  lemma CaseMappingsAbsorb(s: string)
    ensures Upper(Lower(s)) == Upper(s)
    ensures Lower(Upper(s)) == Lower(s)
    ensures Capitalize(Lower(s)) == Capitalize(s)
  {
    forall i | 0 <= i < |s|
      ensures Upper(Lower(s))[i] == Upper(s)[i] && Lower(Upper(s))[i] == Lower(s)[i]
      ensures Capitalize(Lower(s))[i] == Capitalize(s)[i]
    {
      CharCases(s[i]);
    }
  }

  /** Capitalizing is upper-casing the first character and lower-casing the rest. */
  lemma CapitalizeSplits(s: string)
    requires |s| > 0
    ensures Capitalize(s) == Upper(s[..1]) + Lower(s[1..])
  {
  }

  // ---------------------------------------------------------------------------
  // get_concrete_type
  // ---------------------------------------------------------------------------

  /** A type argument of a generator: the type itself, or its name as a string. */
  datatype TypeArg<T> = Direct(t: T) | ByName(name: string)

  /** `get_concrete_type`: a type is returned unchanged; a name is looked up in the
      calling module's namespace (evaluating a bare name), failing when it is not there. */
  function GetConcreteType<T>(namespace: map<string, T>, arg: TypeArg<T>): (r: Option<T>)
    ensures arg.Direct? ==> r == Some(arg.t)
    ensures arg.ByName? ==> (r.Some? <==> arg.name in namespace)
    ensures arg.ByName? && r.Some? ==> r.value == namespace[arg.name]
  {
    match arg
    case Direct(t) => Some(t)
    case ByName(name) => if name in namespace then Some(namespace[name]) else None
  }

  /** Naming a type resolves to what passing the type itself does, in whatever module,
      exactly when the calling module binds the name to that type. */
  lemma NameAgreesWithDirect<T>(namespace: map<string, T>, other: map<string, T>, name: string, t: T)
    ensures GetConcreteType(namespace, ByName(name)) == GetConcreteType(other, Direct(t))
            <==> name in namespace && namespace[name] == t
  {
  }
}
